=== FILE: README.md ===
# mapstore-gdal-backend raster core in Dafny

This project models the raster-combination core of the mapstore GDAL backend and proves properties of it. The backend is a FastAPI service that takes several GeoTIFF layers and a list of multipliers. It aligns every layer to the first one (same projection, same pixel size), then writes a weighted sum of the layers block by block into a new single-band raster. Its no-data value is 255.

The model covers:

- **Pixel rule** (`PixelRule`). This is what one output pixel holds. Each valid sample is weighted by its layer's multiplier and the results are summed. The validity masks are combined with OR. A pixel with no valid sample is filled with 255.0. Every value at or above 255.0 is then capped to 254.999.
- **Tiling** (`Tiling`). The block loops of `process_rasters` partition the grid.
- **Raster engine** (`Raster`). GDAL is an oracle: the datasets it can open, the files on disk, the result of each warp request, and the paths where it can create a dataset.
- **Alignment** (`Alignment`). This covers `check_and_align_rasters`, `reproject_raster` and `adjust_dimensions_raster`. Layers that cannot be opened, or whose final path does not exist, are dropped. The warp requests are modelled exactly, including the reference extent, the resize check on the size read before any warp, and target names built from `Path.stem` of the last component pathlib sees.
- **Aggregation** (`Aggregation`). This is `process_rasters`: its early returns, the output grid and no-data value, and the blocks it writes.
- **Pipeline utilities** (`PipelineUtils`). This covers the per-job directory layout under `app/pipelines`, the manifest, `sanitize_filename` and `cleanup_job`. The disk is modelled as a set of resolved locations plus the manifests stored at some of them.
- **Pipeline routes** (`PipelineRoutes`). These are `/pipeline/start`, `/pipeline/continue`, `DELETE /pipeline/{job_id}` and `/pipeline/close`.
- **Raster routes** (`RasterRoutes`). These are `process_rasters_api` (its checks, the call it makes and the cleanup after it), `combine_stored_rasters` and `download_result`.

The Python library behaviour the code depends on is modelled in `Strings` and `Paths`:

- `str.split`, `str.replace`, `str.strip`, `sorted` on strings;
- `os.path.join`, `os.path.basename`, `os.path.splitext`;
- `Path.name`, `Path.stem`, and the normalisation `Path.resolve()` performs.

The routes treat the raster computation as a parameter, `run: Call -> Outcome`. An outcome is the string returned or an exception raised. The file names that `new_job_id` hands out, the clock, the working directory and `float` are parameters too.

Where the documented design and the code differ, the model follows the code:

- validity masks are OR-ed, not AND-ed;
- there is no check that values lie in [0, 7];
- the result is capped to 254.999;
- `/pipeline/start` sets the status to `stage1_partial` unconditionally, even on a job that is already done.

## Model

| member | source | states |
|---|---|---|
| PixelRule.Finalize | app/services/process_rasters.py:67-71 | after the fill and the cap, no written value reaches the no-data value 255 |
| PixelRule.MaskIsOr | app/services/process_rasters.py:60-65 | the accumulated mask is set exactly when some layer's sample is valid (OR of the layer masks) |
| PixelRule.SumUsesOwnMultipliers | app/services/process_rasters.py:44-45 | the sum after k layers depends only on the first k multipliers |
| PixelRule.InvalidLayerIsNeutral | app/services/process_rasters.py:60-65 | a layer whose sample is invalid changes neither the sum nor the mask: removing it with its multiplier gives the same result |
| PixelRule.SingleValidLayerSuffices | app/services/process_rasters.py:65 | one valid layer is enough for the pixel to count as covered |
| PixelRule.CoveredPixelValue | app/services/process_rasters.py:67-71 | a covered pixel holds its weighted sum when that is below 255, and 254.999 otherwise |
| PixelRule.UncoveredPixelIsNotNoData | app/services/process_rasters.py:67-71 | as written, a pixel with no valid layer ends as 254.999, not as the no-data value 255 |
| PixelRule.FinalizeKeepingNoData | app/services/process_rasters.py:67-71 | the intended rule: 255 exactly for uncovered pixels; covered values are below 255 and unchanged when already below |
| PixelRule.NoDataIffNoValidLayer | app/services/process_rasters.py:60-71 | with the intended rule, a pixel is no-data if and only if no layer is valid there |
| Tiling.TilesPartitionGrid | app/services/process_rasters.py:35-39 | the block loops cover every pixel of the grid exactly once and no pixel outside it |
| Tiling.TilesInside | app/services/process_rasters.py:35-39 | every block is non-empty, at most BLOCK_SIZE on a side, and clipped to the grid |
| Aggregation.ComputeBlock | app/services/process_rasters.py:41-71 | a block has the shape of its window and holds the pixel rule's value at each of its pixels |
| Aggregation.WriteBlocks | app/services/process_rasters.py:35-74 | the blocks written are exactly the tiles of the grid in row-major order, each holding the pixel rule's values |
| Aggregation.ProcessRasters | app/services/process_rasters.py:1-80 | in the GDAL mode that returns None on failure: mismatched list lengths return "" before alignment; a file in the way of the default aligned directory raises before any layer is opened; no aligned layer or an unopenable first one returns "" with no output; after that it raises exactly when `os.makedirs(os.path.dirname(output_path))` fails (a bare file name, or a file on the way); on success the output path is returned and the output has the first layer's grid, no-data 255 and one correct block per tile |
| Aggregation.PixelWrittenOnce | app/services/process_rasters.py:35-74 | every pixel of the output grid is written by exactly one block, and it holds that block's pixel-rule value |
| Aggregation.OutsideNeverWritten | app/services/process_rasters.py:35-39 | no block writes outside the grid |
| Aggregation.MiddleLayerDropped | app/services/gdal_operations.py:84-86 | of three congruent inputs that all open, the middle one missing on disk, only the outer two are kept |
| Aggregation.DroppedLayerShiftsMultipliers | app/services/process_rasters.py:44-45 | as written, after a dropped middle layer the third layer is weighted by the second multiplier |
| Aggregation.PairedMultipliers | app/services/gdal_operations.py:84-88 | the intended pairing: each kept layer gets the multiplier given for the input it came from |
| Aggregation.DroppedLayerKeepsOwnMultiplier | app/services/process_rasters.py:44-45 | with the intended pairing, a dropped middle layer leaves the weights [m0, m2] |
| Alignment.AlignedRoot | app/services/gdal_operations.py:28 | an empty or missing directory falls back to `app/temp_aligned`; a given one is used as is |
| Alignment.ReferenceBounds | app/services/gdal_operations.py:123-125 | the resize extent starts at the reference origin and spans width x pixel width and height x pixel height |
| Alignment.ReprojectRaster | app/services/gdal_operations.py:94-112 | returns the target only if the warp wrote an openable dataset there, and the input otherwise; an unopenable input issues no warp; the warp asked for is a reprojection to the layer's no-data |
| Alignment.AdjustDimensions | app/services/gdal_operations.py:115-141 | the same fail-soft result, with a warp to exactly the reference size and extent |
| Alignment.AlignLayer | app/services/gdal_operations.py:44-88 | an unopenable layer is dropped with no effect; a kept path is the input or one of its two aligned names, and it exists and opens; a layer with the reference's projection and size passes through untouched |
| Alignment.LayerWarpRequests | app/services/gdal_operations.py:50-82 | a reprojection exactly when the projection differs; a resize exactly when the size before warping differs, named `_aligned_size` after a reprojection and `_aligned` otherwise |
| Alignment.ReprojectedLayerRequests | app/services/gdal_operations.py:58-82 | a layer in another projection asks for the reprojection to `{stem}_aligned.tif` first, and a resize to `{stem}_aligned_size.tif` second exactly when its original size differs |
| Alignment.UnprojectedLayerRequests | app/services/gdal_operations.py:71-82 | a layer already in the reference projection asks only for a resize of itself to `{stem}_aligned.tif`, and only when its size differs |
| Alignment.AlignAll | app/services/gdal_operations.py:44-88 | the loop gives one outcome per input |
| Alignment.AlignAllCandidates | app/services/gdal_operations.py:58-88 | each kept outcome is its input or one of the input's two aligned names |
| Alignment.Origins | app/services/gdal_operations.py:84-88 | each kept path comes from a strictly increasing input index, and every kept input is accounted for |
| Alignment.CheckAndAlign | app/services/gdal_operations.py:19-91 | no inputs or an unopenable reference returns [] and changes nothing; otherwise the kept paths are returned in input order, each a candidate for its input |
| Alignment.UnopenableLayerIsDropped | app/services/gdal_operations.py:44-48 | a layer that cannot be opened contributes no path, wherever it sits in the list |
| Alignment.CongruentPassThrough | app/services/gdal_operations.py:71-88 | layers that exist with the reference's projection and size pass through unchanged and cause no warp |
| Alignment.AlignedSetIsFixedPoint | app/services/gdal_operations.py:19-91 | aligning layers that already match the reference returns them as given, with no warp and no change |
| PipelineUtils.FreshIdIsValid | app/utils/pipeline_utils.py:13-14 | an id from `new_job_id` (eight hex digits) is a valid single path component |
| PipelineUtils.EnsureJobDirs | app/utils/pipeline_utils.py:19-41 | returns the job's directories; it returns normally exactly when no file lies on the way to any of the six working directories, and then all six exist; files and manifests are untouched and nothing is removed |
| PipelineUtils.MakeDirs | app/utils/pipeline_utils.py:30-31 | the loop of `mkdir(parents=True, exist_ok=True)` calls returns exactly when no directory has a file on its way; every directory before the first failing one exists afterwards, and nothing is removed |
| PipelineUtils.FileRootBlocksJobDirs | app/utils/pipeline_utils.py:16-31 | a job root that is a file makes `ensure_job_dirs` raise |
| PipelineUtils.EnsureJobDirsKeepsManifest | app/utils/pipeline_utils.py:19-50 | making the job's directories never changes what reading its manifest gives: no manifest, the stored manifest, or a raise |
| PipelineUtils.ManifestNotAJobDir | app/utils/pipeline_utils.py:19-44 | the manifest path is neither one of the six working directories nor a parent of one, so `mkdir` never creates it |
| PipelineUtils.ManifestAsJobIdFails | app/utils/pipeline_utils.py:16-44 | the id `<job>/manifest.json` of a started job names its manifest file as a root, and `ensure_job_dirs` raises for it |
| PipelineUtils.JobDirsLayout | app/utils/pipeline_utils.py:22-27 | each working directory sits at its fixed place inside the job root |
| PipelineUtils.JobDirsDistinct | app/utils/pipeline_utils.py:22-27 | the working directories are pairwise distinct |
| PipelineUtils.ValidJobRoot | app/utils/pipeline_utils.py:16-17 | a valid job id names its own directory `app/pipelines/<id>` |
| PipelineUtils.ManifestInsideJobRoot | app/utils/pipeline_utils.py:43-44 | the manifest lies directly inside the job root |
| PipelineUtils.ReadManifest | app/utils/pipeline_utils.py:46-50 | nothing at the job's manifest path reads as no manifest; a manifest stored there is returned; anything else there (a directory, a file that holds no manifest) makes the read raise |
| PipelineUtils.InitManifest | app/utils/pipeline_utils.py:56-66 | the initial manifest has status created, empty stages and the given owner and time, and reading it back gives it |
| PipelineUtils.CleanupJob | app/utils/pipeline_utils.py:88-89 | removes only entries, and everything outside the job root stays; nothing at or below a root that is a directory is left, except the root itself when its path ends in ".."; a root that is not a directory leaves the disk unchanged |
| PipelineUtils.CleanupRemovesJob | app/utils/pipeline_utils.py:88-89 | after cleanup the manifest is gone, and so is the job root unless its path ends in ".." (emptied, but `rmdir` fails) or it is a file or link (left in place with the disk unchanged) |
| PipelineUtils.CleanupKeepsOtherJobs | app/utils/pipeline_utils.py:16-17 | for valid ids, cleaning one job leaves every other job's directory and manifest alone |
| PipelineUtils.DotDotJobRootIsApp | app/utils/pipeline_utils.py:16-17 | as written, the job id ".." names `app`, the parent of every job |
| PipelineUtils.DotDotKeepsRoot | app/utils/pipeline_utils.py:88-89 | the root path of job ".." ends in "..", so `rmtree` cannot remove the directory itself |
| PipelineUtils.DotDotCleanupRemovesEveryJob | app/utils/pipeline_utils.py:88-89 | as written, cleaning up job ".." removes every job's directory and manifest and leaves only the emptied `app` (`app` being a directory; otherwise nothing changes) |
| PipelineUtils.SanitizeFilename | app/utils/pipeline_utils.py:68-71 | the result is non-empty, with no separator, no "..", and no surrounding blanks; a blank base name gives the `file_<id>.tif` fallback |
| PipelineUtils.FallbackIsClean | app/utils/pipeline_utils.py:69-70 | the fallback name is itself clean |
| PipelineUtils.CleanNameIsFixed | app/utils/pipeline_utils.py:68-71 | a clean name comes back unchanged |
| PipelineUtils.SanitizeIdempotent | app/utils/pipeline_utils.py:68-71 | sanitising twice gives the same name as sanitising once |
| PipelineUtils.ResolveJoinClean | app/routes/pipeline.py:54 | a sanitised name joined onto a directory resolves one component further down, except ".", which resolves to the directory itself |
| PipelineUtils.BasenamePathStringSnoc | app/routes/pipeline.py:54 | the string form of a resolved location ends in its last component |
| PipelineUtils.SanitizeFilenameChecked | app/utils/pipeline_utils.py:68-71 | the corrected sanitiser: always a plain component (never "."), and equal to `sanitize_filename` whenever that is not "." |
| PipelineRoutes.OrElse | app/routes/pipeline.py:42 | `s or default`: the value when it is non-empty, the default otherwise |
| PipelineRoutes.ParseMultipliers | app/routes/pipeline.py:37-40 | the list parses exactly when every comma-separated piece does, with one value per piece, in order |
| PipelineRoutes.MultiplierCount | app/routes/pipeline.py:38 | a parsed list has one entry more than the string has commas |
| PipelineRoutes.ParseJoined | app/routes/pipeline.py:38 | the pieces joined with commas split back into the same pieces |
| PipelineRoutes.AppendUniqueProperties | app/routes/pipeline.py:70-72 | the result is added once and only when absent, the earlier outputs keep their order, and no duplicate is introduced |
| PipelineRoutes.StartRejectsBadMultipliers | app/routes/pipeline.py:37-40 | an unparsable multiplier list answers 400 and changes nothing |
| PipelineRoutes.StartJobAndCall | app/routes/pipeline.py:42-62 | the job is the one named, or a fresh valid id; a call happens exactly when its directories can be made and its manifest path holds a manifest or nothing; otherwise the answer is 500 with no call and the manifest read unchanged; the call runs the saved inputs with the parsed multipliers, aligning into the job's `stage1/aligned`; the reply names the job |
| PipelineRoutes.StartJob | app/routes/pipeline.py:42 | a non-empty `job_id` names the job; otherwise the fresh id is used, and a fresh id is a valid job id |
| PipelineRoutes.StartManifest | app/routes/pipeline.py:46-48 | an unreadable manifest path raises (no result); a stored manifest is used as it is and the disk is left alone; with nothing there the initial manifest (status created, no outputs) is written; either way the manifest read back afterwards is the one returned |
| PipelineRoutes.StartAfterDirs | app/routes/pipeline.py:43-75 | a call happens exactly when `ensure_job_dirs` returned and `read_manifest` did not raise, and it is the stage-1 call; otherwise the answer is 500 with the disk as `ensure_job_dirs` left it; a success names the job and keeps on disk the files the run wrote |
| PipelineRoutes.OutputLocation | app/routes/pipeline.py:54 | `str((dir / name).resolve())` is the resolved directory plus the name, or the directory itself when the name is "." |
| PipelineRoutes.DotOutputIsDirectory | app/routes/pipeline.py:53-54 | as written, `output_filename="."` makes the stage-1 output path the `stage1/outputs` directory itself |
| PipelineRoutes.CheckedOutputInsideDir | app/routes/pipeline.py:53-54 | with the corrected sanitiser, the output path always names an entry inside its directory, under the sanitised name |
| PipelineRoutes.StartOutputName | app/routes/pipeline.py:43-54 | a call happens exactly when the job's directories can be made and its manifest can be read, and its output is the resolved `stage1/outputs` directory plus the clean sanitised name, or that directory itself when the name is "." |
| PipelineRoutes.StartCallName | app/routes/pipeline.py:53-54 | the stage-1 output path resolves into `stage1/outputs` and ends in the clean sanitised name, except for ".", which yields the directory itself |
| PipelineRoutes.StartRun | app/routes/pipeline.py:56-75 | a run that raises answers 500 and writes nothing; a run that returns leaves the files it wrote on disk, stores the manifest as stage1_partial with the result appended once, and answers with the job, the result and the outputs |
| PipelineRoutes.StartTransition | app/routes/pipeline.py:68-75 | on success the manifest becomes stage1_partial with the result added once to the stage-1 outputs, and the reply lists them |
| PipelineRoutes.StartRaisedKeepsOutputs | app/routes/pipeline.py:43-66 | a stage-1 run that raises answers 500 and leaves the stored outputs as they were; a start whose directories cannot be made, or whose manifest path cannot be read, answers 500 and leaves what reading the manifest gives as it was |
| PipelineRoutes.CreatedFileBlocksJobDirs | app/routes/pipeline.py:43-75 | the files a successful stage-1 run wrote stay on disk, so a later job whose root is one of them cannot make its directories |
| PipelineRoutes.Ones | app/routes/pipeline.py:109 | seven multipliers of 1 |
| PipelineRoutes.ContinueCall | app/routes/pipeline.py:102-112 | the stage-2 call takes the first seven stage-1 outputs and aligns into the job's `stage2/aligned` |
| PipelineRoutes.ContinueRejections | app/routes/pipeline.py:87-100 | nothing at the manifest path gives 404, and only then; something there that is not a manifest gives 500; fewer than seven outputs gives 400; unparsable multipliers give 400; all with no change and no call |
| PipelineRoutes.ContinueRunsFirstSeven | app/routes/pipeline.py:102-112 | once the checks pass, a call happens exactly when the job's directories can be made, and it runs exactly the first seven outputs with the chosen multipliers |
| PipelineRoutes.ContinueOutputName | app/routes/pipeline.py:102-104 | a call happens exactly when the job's directories can be made, and the final output is the resolved `final` directory plus the clean sanitised name (default `final_result.tif`), or that directory itself when the name is "." |
| PipelineRoutes.ContinueCallName | app/routes/pipeline.py:103-104 | the final output path resolves into `final` and ends in the clean sanitised name (default `final_result.tif`), except for ".", which yields the directory itself |
| PipelineRoutes.ContinueRun | app/routes/pipeline.py:102-122 | a file in the way of the job's directories answers 500 with no call; a run that raises answers 500; both leave what reading the manifest gives as it was; a run that returns leaves the files it wrote on disk and stores the manifest as done, with stage 1 done and stage 2 holding the result |
| PipelineRoutes.DefaultMultipliersAreOnes | app/routes/pipeline.py:95-109 | a missing or empty multiplier string weighs each of the seven layers by 1 |
| PipelineRoutes.ContinueTransition | app/routes/pipeline.py:117-122 | on success the manifest is done, stage 1 is done, stage 2 records the result, and the outputs and identity are kept |
| PipelineRoutes.ContinueRaisedKeepsManifest | app/routes/pipeline.py:106-115 | a stage-2 run that raises answers 500 and leaves the manifest as it was |
| PipelineRoutes.PipelineDelete | app/routes/pipeline.py:145-150 | 404 exactly when the job root does not exist; otherwise ok, and the manifest is gone; the root is gone too, except a root whose path ends in ".." (emptied but kept) and a root that is a file or link (kept, with the disk unchanged) |
| PipelineRoutes.DeleteTwice | app/routes/pipeline.py:145-150 | deleting a job a second time answers 404; when the root is a file, or its path ends in "..", the root survives and the second request repeats the first |
| PipelineRoutes.CloseJobId | app/routes/pipeline.py:159-173 | the id comes from the query, else the form, else the JSON body; it is missing only when all three are empty |
| PipelineRoutes.PipelineClose | app/routes/pipeline.py:175-182 | a missing id answers 400 and changes nothing; otherwise the answer is ok |
| PipelineRoutes.CloseIdempotent | app/routes/pipeline.py:178-182 | closing a second time changes nothing more |
| PipelineRoutes.CleanupTwice | app/utils/pipeline_utils.py:88-89 | cleaning up a job twice equals cleaning it up once |
| PipelineRoutes.CloseDotDotRemovesEveryJob | app/routes/pipeline.py:159-182 | as written, closing job ".." answers ok and removes every job, leaving only the emptied `app` (`app` being a directory; otherwise nothing changes) |
| PipelineRoutes.PipelineCloseChecked | app/routes/pipeline.py:175-182 | the corrected close: the disk changes only for a valid job id |
| PipelineRoutes.CheckedCloseKeepsOtherJobs | app/routes/pipeline.py:175-182 | the corrected close leaves every other job's directory and manifest alone |
| RasterRoutes.Collect | app/routes/raster.py:91-96 | the candidate set holds the names of every input |
| RasterRoutes.CollectOnly | app/routes/raster.py:91-96 | every candidate comes from some input |
| RasterRoutes.CandidatesCoverAlignedNames | app/routes/raster.py:92-96 | for base names that neither start nor end with a dot, the cleanup candidates include both names the aligner can write |
| RasterRoutes.SplitextCleanupMissesAlignedName | app/routes/raster.py:93-96 | as written, the aligned copy of an upload named "a." is not among the cleanup candidates |
| RasterRoutes.DotUploadStems | app/routes/raster.py:93-96 | for an upload named "a.", `Path.stem` keeps "a." while `os.path.splitext` gives "a" |
| RasterRoutes.CleanupCandidatesByStem | app/services/gdal_operations.py:58-75 | the corrected candidates contain both aligned names of every input |
| RasterRoutes.StemCleanupFindsAlignedName | app/routes/raster.py:93-96 | the corrected candidates find the aligned copy of "a." |
| RasterRoutes.InputPaths | app/routes/raster.py:59-64 | one stored path per upload, in upload order: `app/temp_processing` joined with the upload's own name |
| RasterRoutes.ProcessRastersApi | app/routes/raster.py:31-111 | no files, then bad multipliers, then a count mismatch are refused in that order without a call; an upload whose path cannot be opened for writing answers 500 with no call, leaving the uploads stored before it; a call happens exactly when all checks pass and every upload is stored, with the stored inputs, the parsed multipliers, the output `os.path.join("app/temp", output_filename)` and aligning into `app/temp_aligned`; a run that raises answers 500, one that returns a path sends that file under the requested name, and one that returns "" gives the processing error |
| RasterRoutes.StoredCount | app/routes/raster.py:59-64 | the uploads are written in order until the first whose path cannot be opened: every one before it was stored, and it was not |
| RasterRoutes.ProcessCall | app/routes/raster.py:58-75 | the call runs the stored upload paths and writes to `os.path.join("app/temp", output_filename)` |
| RasterRoutes.ProcessRun | app/routes/raster.py:70-111 | a run that raises answers 500 and keeps the uploads and whatever the run created; a run that returns leaves the files less the uploads and the aligned candidates, and answers with its result file under the requested name, or with the processing error when the result is "" |
| RasterRoutes.ProcessKeepsOtherFiles | app/routes/raster.py:82-105 | a file that is neither an input nor a cleanup candidate survives the request |
| RasterRoutes.ProcessRemovesItsFiles | app/routes/raster.py:82-105 | after a run that returns, no input and no cleanup candidate remains, and the other created files stay |
| RasterRoutes.ProcessRaisedKeepsUploads | app/routes/raster.py:70-78 | a run that raises answers 500 and leaves every stored upload in place |
| RasterRoutes.TifPaths | app/routes/raster.py:146-150 | a path is listed exactly when it joins `app/temp` to a listed name ending in ".tif" |
| RasterRoutes.TifPathsDistinct | app/routes/raster.py:146-150 | distinct listed names give distinct paths |
| RasterRoutes.StoredLayerPaths | app/routes/raster.py:146-150 | the layer paths are sorted and are exactly the ".tif" paths, each once |
| RasterRoutes.CombineChecks | app/routes/raster.py:146-173 | a layer count other than 7, then bad multipliers, then a multiplier count other than 7 are refused without a call; otherwise the call runs the seven sorted layers with the parsed multipliers into `app/result`, and the answer is its result path, the processing error for "", or 500 when it raises; no file is deleted, and only the computation adds files |
| RasterRoutes.CombineIgnoresListingOrder | app/routes/raster.py:146-150 | the result does not depend on the order in which the directory is listed |
| RasterRoutes.DownloadResult | app/routes/raster.py:176-182 | 404 exactly when `app/result/<name>.tif` does not exist; otherwise that file is sent as `<name>.tif` |
| RasterRoutes.DownloadStaysInResult | app/routes/raster.py:179 | a name without a slash downloads from directly inside `app/result` |
| Paths.PathNameIgnoresTrailing | app/services/gdal_operations.py:58 | the name `Path.stem` starts from ignores a trailing "/" or "/.", as pathlib drops those components |
| Paths.Dirname | app/services/process_rasters.py:22 | `os.path.dirname` is a leading part of the path, empty exactly when the path has no slash |
| Paths.DirnameJoin | app/services/process_rasters.py:22 | the directory part of `os.path.join(dir, name)` is `dir` for a name without a slash |
| Paths.FileDirBlocksMakedirs | app/services/process_rasters.py:22-23 | an output path placed under an existing file (`x.tif/out.tif`) has a directory part that `os.makedirs` cannot make |
| Paths.StemAgreesWithSplitext | app/routes/raster.py:93 | `Path.stem` and the `splitext` root agree on base names that neither start nor end with a dot |
| Strings.SplitJoin | app/routes/pipeline.py:38 | splitting and re-joining with the separator gives the string back |

## Left out

- Floating-point arithmetic. Pixel values and multipliers are exact reals. The Float32 rounding of `astype(np.float32)` and of the sum is not modelled, and neither is the NaN that `inf * 0` could produce.
- A NaN no-data value. Validity is computed from the sample and the no-data value (255.0 when none is declared): a sample is valid when it is a number, not infinite and not equal to the no-data value. A declared no-data value is a real number here, so a NaN no-data value cannot be represented. With one, `array != nan` holds everywhere, and every finite sample would count as valid.
- GDAL itself. Warping, resampling, reading blocks and writing them out are an oracle. `ComputeStatistics`, closing the datasets and the print statements are not modelled.
- Aggregation.ProcessRasters: its guarantees hold in the GDAL mode that reports failure by returning None. `gdal.UseExceptions()` is in force (app/services/gdal_operations.py:9, app/routes/pipeline.py:21), and under it every failing GDAL call raises instead of returning None: `Open`, `Warp`, `ReadAsArray` outside the raster and `Create`. The model follows the None and fail-soft branches the code checks. So a failed warp keeps the input path, a read outside the window is skipped, and a failed `Create` returns "". Under exceptions each of these would raise, and the ensures that the function raises only when a directory cannot be made would not hold. A directory part ending in "/." whose parent is a file is counted as failing, although `os.makedirs` returns for it and the later `Create` fails instead.
- Call signatures. `process_rasters` takes three parameters, while the routes pass `aligned_dir` (and `temp_dir`). The routes therefore treat the computation as the parameter `run`, and `Aggregation.ProcessRasters` aligns into the default directory, as the function itself does.
- `save_uploads_chunked` and the upload loop of `process_rasters_api`. File contents, chunking and two uploads with the same name are not modelled. The stored paths are the parameter `inputPaths` in the pipeline and the joined client names in the raster routes.
- Path resolution. `Path.resolve()` is modelled as joining to the working directory and normalising `.` and `..`, and so is the string form of the pipeline's output paths. Symbolic links are not followed. `..` above the root of an absolute path is kept rather than dropped.
- Alignment.AlignedName: the aligned directory and the file name are joined as strings. `aligned_root / name` would also collapse repeated slashes, a trailing slash and "." components of the directory. The file is the same, but the path string can differ. The default directory has none of these; the job directories come from `PipelineUtils.JobDirsOf`, which joins strings too, so a job id such as "a/" gives "app/pipelines/a//stage1/aligned" where pathlib gives "app/pipelines/a/stage1/aligned".
- Alignment.CheckAndAlign: `_ensure_dir` of the aligned directory (app/services/gdal_operations.py:28) is not part of this function; its raise is modelled in `Aggregation.ProcessRasters`, which checks the default directory before aligning.
- PipelineUtils.ReadManifest: locations are resolved by lexical normalisation, so ".." cancels the component before it even when that component does not exist or is a file. For the id "nothere/../abc" the model finds the manifest of "abc", while the operating system reports the path missing and the route answers 404. The same holds for `PipelineUtils.Exists`, `PipelineUtils.EnsureJobDirs` and the routes built on them.
- PipelineUtils.CleanupJob: the same lexical resolution applies, and a location is keyed by its path relative to the working directory. An absolute job id naming the same directory (`/srv/app/pipelines` with the server in `/srv`) is a different key, so the model removes nothing where `rmtree` removes every job; and for "nothere/../.." the model empties `app` where `rmtree` finds nothing.
- The raster routes' own `os.makedirs` of their fixed folders (app/routes/raster.py:55-56) is assumed to succeed.
- Path strings. The raster routes treat paths as plain strings in a set of existing files, without normalisation.
- Concurrency. The background task of `/pipeline/close` is modelled as having run to completion. Concurrent requests on one job are not modelled.
- Other endpoints. `pipeline_result`, `pipeline_status`, both `bbox` endpoints, `clean_temp`, `clean_result`, `download_all_temp` and `upload_geonetwork` are outside the raster core.
- PipelineUtils.ReadManifest: the contents of a file at the manifest path are not modelled. Only manifests the routes wrote are read back; any other file there counts as raising, like a directory. In the source a file holding `{}` reads as no manifest, and another JSON object is used as it is.
- PipelineRoutes.StartRun: files a stage-1 or stage-2 run wrote before it raised are not recorded on the disk, and neither are the uploads saved into `stage1/inputs`; only a run that returns adds its files.
- `write_manifest`'s JSON encoding and the manifest's `updated_at` timestamp are not modelled.
- Alignment.AlignAll: its own contract states only the length. What each outcome is, is stated by `Alignment.AlignAllCandidates` and `Alignment.CheckAndAlign`.
- PipelineRoutes.ContinueCall: says nothing about the output path. That is stated by `PipelineRoutes.ContinueOutputName`.
- PipelineRoutes.PipelineClose: states the reply and not the disk afterwards. That is stated by `PipelineRoutes.CloseIdempotent` and the ".." lemma.

## Findings

| source | as written | input that shows it | evidently intended | confidence | as-written member | corrected member |
|---|---|---|---|---|---|---|
| app/services/process_rasters.py:67-71 | the cap `>= 255 → 254.999` runs after the no-data fill and rewrites it | a pixel where no layer has a valid sample ends as 254.999, while the band declares 255 as no-data | pixels with no valid layer stay 255; only valid sums are capped | high; not executed | PixelRule.UncoveredPixelIsNotNoData | PixelRule.FinalizeKeepingNoData, PixelRule.NoDataIffNoValidLayer |
| app/services/process_rasters.py:44-45; app/services/gdal_operations.py:84-86 | multipliers are indexed by position in the aligned list, which drops a layer whose final path does not exist | three congruent inputs that all open, the middle one a path GDAL reads but that is not on disk (a `/vsicurl/` URL, say): the third layer is weighted by the second multiplier | each layer keeps the multiplier given for it | low (no route passes such a path); not executed | Aggregation.DroppedLayerShiftsMultipliers | Aggregation.PairedMultipliers, Aggregation.DroppedLayerKeepsOwnMultiplier |
| app/routes/pipeline.py:159-182; app/utils/pipeline_utils.py:16-17, 88-89 | the job id from the request is joined to `app/pipelines` unchecked | `POST /pipeline/close?job_id=..` resolves to `app` and removes every job, leaving only the emptied `app` | only a single plain component is accepted as a job id | high; not executed | PipelineRoutes.CloseDotDotRemovesEveryJob | PipelineRoutes.PipelineCloseChecked, PipelineRoutes.CheckedCloseKeepsOtherJobs |
| app/routes/raster.py:93-96; app/services/gdal_operations.py:58-59, 75 | the cleanup rebuilds aligned names with `os.path.splitext`, while the aligner uses `Path.stem` | an upload named "a." is aligned to `app/temp_aligned/a._aligned.tif`, but the cleanup looks for `a_aligned.tif` and `a_aligned_size.tif` | the cleanup finds every aligned copy it created | low; not executed | RasterRoutes.SplitextCleanupMissesAlignedName | RasterRoutes.CleanupCandidatesByStem, RasterRoutes.StemCleanupFindsAlignedName |
| app/utils/pipeline_utils.py:68-71; app/routes/pipeline.py:53-54, 103-104 | `sanitize_filename` lets "." through, and `Path /` drops it | `output_filename="."` makes the output path the job's `stage1/outputs` (or `final`) directory itself, so `Create` is asked to write over a directory | the output is always a file inside that directory | medium; not executed | PipelineRoutes.DotOutputIsDirectory | PipelineUtils.SanitizeFilenameChecked, PipelineRoutes.CheckedOutputInsideDir |

=== FILE: aggregation.dfy ===
/**
  `process_rasters`: check the list lengths, align the inputs, take the
  output grid from the first aligned layer, and write the weighted sum block
  by block.
 */
module Aggregation {
  import opened Optional
  import opened Tiling
  import opened Raster
  import opened PixelRule
  import opened Alignment
  import opened Paths

  /** `band.GetNoDataValue()`, with 255.0 when the band declares none. */
  function NoDataOf(nodata: Option<real>): real {
    nodata.GetOr(NoData)
  }

  /**
    The layer at `path` seen at pixel (c, r) while block `t` is processed:
    skipped when it cannot be opened or its block read gives None.
   */
  function ReadingAt(g: Gdal, path: string, t: Tile, c: nat, r: nat): Reading
    requires Covers(t, c, r)
  {
    match Open(g, path)
    case None => Skipped
    case Some(d) => if Readable(d, t) then Read(d.pixels[r][c], NoDataOf(d.nodata)) else Skipped
  }

  /** All layers, in the order of `paths`, at one pixel of one block. */
  function Readings(g: Gdal, paths: seq<string>, t: Tile, c: nat, r: nat): (rs: seq<Reading>)
    requires Covers(t, c, r)
    ensures |rs| == |paths|
  {
    seq(|paths|, i requires 0 <= i < |paths| => ReadingAt(g, paths[i], t, c, r))
  }

  /** The value block `t` holds at pixel (c, r): the layer at index i weighted by `ms[i]`. */
  function BlockValue(g: Gdal, paths: seq<string>, ms: seq<real>, t: Tile, c: nat, r: nat): real
    requires |paths| <= |ms| && Covers(t, c, r)
  {
    PixelValue(Readings(g, paths, t, c, r), ms)
  }

  /** A block as handed to `out_band.WriteArray(sum_block, x, y)`: its window and its rows of values. */
  datatype Block = Block(tile: Tile, data: seq<seq<real>>)

  /** The block has the shape of its window and holds the pixel rule's value at every pixel of it. */
  predicate BlockHolds(g: Gdal, paths: seq<string>, ms: seq<real>, b: Block)
    requires |paths| <= |ms|
  {
    && |b.data| == b.tile.h
    && forall j :: 0 <= j < b.tile.h ==>
         && |b.data[j]| == b.tile.w
         && forall i :: 0 <= i < b.tile.w ==>
              b.data[j][i] == BlockValue(g, paths, ms, b.tile, b.tile.x + i, b.tile.y + j)
  }

  function ComputeBlock(g: Gdal, paths: seq<string>, ms: seq<real>, t: Tile): (b: Block)
    requires |paths| <= |ms|
    ensures b.tile == t && BlockHolds(g, paths, ms, b)
  {
    Block(t, seq(t.h, j requires 0 <= j < t.h =>
      seq(t.w, i requires 0 <= i < t.w => BlockValue(g, paths, ms, t, t.x + i, t.y + j))))
  }

  function TilesOf(blocks: seq<Block>): (ts: seq<Tile>)
    ensures |ts| == |blocks|
    ensures forall k :: 0 <= k < |blocks| ==> ts[k] == blocks[k].tile
  {
    seq(|blocks|, k requires 0 <= k < |blocks| => blocks[k].tile)
  }

  /** The output dataset: its grid is the first aligned layer's, its band declares 255.0 as no-data. */
  datatype Output = Output(
    path: string, crs: string, transform: GeoTransform, width: nat, height: nat,
    nodata: real, blocks: seq<Block>)

  /** What a call of `process_rasters` ends in: a returned string ("" for failure) or an exception. */
  datatype Outcome = Returned(path: string) | Raised

  /** The outcome, the aligned paths if alignment ran, and the output if it was created. */
  datatype Run = Run(outcome: Outcome, aligned: Option<seq<string>>, output: Option<Output>)

  lemma TilesOfAppend(a: seq<Block>, b: seq<Block>)
    ensures TilesOf(a + b) == TilesOf(a) + TilesOf(b)
  {
    assert forall k :: 0 <= k < |a + b| ==> TilesOf(a + b)[k] == (TilesOf(a) + TilesOf(b))[k];
  }

  lemma Regroup<T>(a: seq<T>, b: seq<T>, c: seq<T>, d: seq<T>)
    requires a + (b + c) == d
    ensures (a + b) + c == d
  {
    assert (a + b) + c == a + (b + c);
  }

  /** Every block of `blocks` holds the pixel rule's values. */
  predicate AllHold(g: Gdal, paths: seq<string>, ms: seq<real>, blocks: seq<Block>)
    requires |paths| <= |ms|
  {
    forall k :: 0 <= k < |blocks| ==> BlockHolds(g, paths, ms, blocks[k])
  }

  lemma AllHoldAppend(g: Gdal, paths: seq<string>, ms: seq<real>, a: seq<Block>, b: seq<Block>)
    requires |paths| <= |ms| && AllHold(g, paths, ms, a) && AllHold(g, paths, ms, b)
    ensures AllHold(g, paths, ms, a + b)
  {
    forall k | 0 <= k < |a + b| ensures BlockHolds(g, paths, ms, (a + b)[k]) {
      if k < |a| {
        assert (a + b)[k] == a[k];
      } else {
        assert (a + b)[k] == b[k - |a|];
      }
    }
  }

  /** The inner block loop: the blocks of the row band starting at row `y`, left to right. */
  method WriteBand(g: Gdal, paths: seq<string>, ms: seq<real>, width: nat, height: nat, block: nat, y: nat)
    returns (band: seq<Block>)
    requires block > 0 && |paths| <= |ms| && y < height
    ensures TilesOf(band) == RowTiles(width, height, block, y, 0)
    ensures AllHold(g, paths, ms, band)
  {
    band := [];
    var x: nat := 0;
    while x < width
      invariant TilesOf(band) + RowTiles(width, height, block, y, x) == RowTiles(width, height, block, y, 0)
      invariant AllHold(g, paths, ms, band)
      decreases width - x
    {
      var t := Tile(x, y, Min(block, width - x), Min(block, height - y));
      var b := ComputeBlock(g, paths, ms, t);
      AllHoldAppend(g, paths, ms, band, [b]);
      TilesOfAppend(band, [b]);
      assert RowTiles(width, height, block, y, x) == [t] + RowTiles(width, height, block, y, x + block);
      band := band + [b];
      x := x + block;
    }
    assert RowTiles(width, height, block, y, x) == [];
  }

  /**
    The block loops: visit the tiles of a `width` x `height` grid row band by
    row band, left to right, computing each block from all layers.
   */
  method WriteBlocks(g: Gdal, paths: seq<string>, ms: seq<real>, width: nat, height: nat, block: nat)
    returns (blocks: seq<Block>)
    requires block > 0 && |paths| <= |ms|
    ensures TilesOf(blocks) == Tiles(width, height, block)
    ensures forall k :: 0 <= k < |blocks| ==> BlockHolds(g, paths, ms, blocks[k])
  {
    blocks := [];
    var y: nat := 0;
    while y < height
      invariant TilesOf(blocks) + BandTiles(width, height, block, y) == Tiles(width, height, block)
      invariant AllHold(g, paths, ms, blocks)
      decreases height - y
    {
      var band := WriteBand(g, paths, ms, width, height, block, y);
      AllHoldAppend(g, paths, ms, blocks, band);
      TilesOfAppend(blocks, band);
      Regroup(TilesOf(blocks), RowTiles(width, height, block, y, 0), BandTiles(width, height, block, y + block),
        Tiles(width, height, block));
      blocks := blocks + band;
      y := y + block;
    }
    assert BandTiles(width, height, block, y) == [];
  }

  /**
    `process_rasters(input_paths, multipliers, output_path)` with block edge
    `block` (`BLOCK_SIZE`). The aligned layer at index i is weighted by
    `multipliers[i]`; alignment runs with the default aligned directory.
   */
  method ProcessRasters(g: Gdal, inputs: seq<string>, multipliers: seq<real>, outputPath: string, block: nat)
    returns (run: Run)
    requires block > 0
    // mismatched lists: "" before anything is aligned or created
    ensures |inputs| != |multipliers| ==> run == Run(Returned(""), None, None)
    // the aligner's `_ensure_dir` raises when a file is in the way of the aligned directory
    ensures |inputs| == |multipliers| && |inputs| > 0 && PathBlocked(g.plain, AlignedRoot(None)) ==>
      run == Run(Raised, None, None)
    ensures |inputs| == |multipliers| && !(|inputs| > 0 && PathBlocked(g.plain, AlignedRoot(None))) ==>
      run.aligned == Some(CheckAndAlign(g, inputs, None).paths)
    // no aligned layer, or an unopenable first one: "" and no output
    ensures run.aligned == Some([]) ==> run.outcome == Returned("") && run.output.None?
    ensures (run.aligned.Some? && |run.aligned.value| > 0
             && Open(CheckAndAlign(g, inputs, None).gdal, run.aligned.value[0]).None?) ==>
      run.outcome == Returned("") && run.output.None?
    // otherwise `os.makedirs` of the output's directory raises for a bare file name or a file in the way
    ensures run.outcome == Raised <==>
      && |inputs| == |multipliers|
      && ((|inputs| > 0 && PathBlocked(g.plain, AlignedRoot(None)))
          || var a := CheckAndAlign(g, inputs, None);
             && |a.paths| > 0 && Open(a.gdal, a.paths[0]).Some?
             && MakedirsFails(a.gdal.plain, Dirname(outputPath)))
    ensures run.outcome == Raised ==> run.output.None?
    // success returns the output path, and only then is there an output
    ensures run.output.Some? <==> outputPath != "" && run.outcome == Returned(outputPath)
    ensures run.output.Some? ==>
      var a := CheckAndAlign(g, inputs, None);
      var o := run.output.value;
      && |a.paths| > 0 && Open(a.gdal, a.paths[0]).Some?
      && var base := Open(a.gdal, a.paths[0]).value;
      && o.path == outputPath && o.crs == base.crs && o.transform == base.transform
      && o.width == base.width && o.height == base.height && o.nodata == NoData
      && |a.paths| <= |multipliers|
      && TilesOf(o.blocks) == Tiles(o.width, o.height, block)
      && forall k :: 0 <= k < |o.blocks| ==> BlockHolds(a.gdal, a.paths, multipliers, o.blocks[k])
  {
    if |inputs| != |multipliers| {
      return Run(Returned(""), None, None);
    }
    if |inputs| > 0 && PathBlocked(g.plain, AlignedRoot(None)) {
      return Run(Raised, None, None);
    }
    var a := CheckAndAlign(g, inputs, None);
    if |a.paths| == 0 {
      return Run(Returned(""), Some(a.paths), None);
    }
    var baseDataset := Open(a.gdal, a.paths[0]);
    if baseDataset.None? {
      return Run(Returned(""), Some(a.paths), None);
    }
    var base := baseDataset.value;
    if MakedirsFails(a.gdal.plain, Dirname(outputPath)) {
      return Run(Raised, Some(a.paths), None);
    }
    if outputPath !in a.gdal.creatable {
      return Run(Returned(""), Some(a.paths), None);
    }
    var width, height := base.width, base.height;
    var blocks := WriteBlocks(a.gdal, a.paths, multipliers, width, height, block);
    var output := Output(outputPath, base.crs, base.transform, width, height, NoData, blocks);
    return Run(Returned(outputPath), Some(a.paths), Some(output));
  }

  /** What the output band holds at (c, r) after all writes: the last block written over it wins. */
  function WrittenAt(blocks: seq<Block>, c: nat, r: nat): Option<real> {
    if |blocks| == 0 then None
    else
      var b := blocks[|blocks| - 1];
      if Covers(b.tile, c, r) && r - b.tile.y < |b.data| && c - b.tile.x < |b.data[r - b.tile.y]|
      then Some(b.data[r - b.tile.y][c - b.tile.x])
      else WrittenAt(blocks[..|blocks| - 1], c, r)
  }

  lemma {:induction false} WrittenByOnlyCover(blocks: seq<Block>, c: nat, r: nat, k: nat)
    requires k < |blocks| && Covers(blocks[k].tile, c, r)
    requires r - blocks[k].tile.y < |blocks[k].data| && c - blocks[k].tile.x < |blocks[k].data[r - blocks[k].tile.y]|
    requires forall k' :: 0 <= k' < |blocks| && k' != k ==> !Covers(blocks[k'].tile, c, r)
    ensures WrittenAt(blocks, c, r) == Some(blocks[k].data[r - blocks[k].tile.y][c - blocks[k].tile.x])
    decreases |blocks|
  {
    var n := |blocks| - 1;
    if k < n {
      WrittenByOnlyCover(blocks[..n], c, r, k);
    }
  }

  lemma {:induction false} NeverWritten(blocks: seq<Block>, c: nat, r: nat)
    requires forall k :: 0 <= k < |blocks| ==> !Covers(blocks[k].tile, c, r)
    ensures WrittenAt(blocks, c, r) == None
    decreases |blocks|
  {
    if |blocks| > 0 {
      NeverWritten(blocks[..|blocks| - 1], c, r);
    }
  }

  /**
    The written output covers the grid: a pixel inside it was written by
    exactly one block, which left the pixel rule's value for that block there.
   */
  lemma PixelWrittenOnce(
    g: Gdal, paths: seq<string>, ms: seq<real>, width: nat, height: nat, block: nat, blocks: seq<Block>, c: nat, r: nat)
    requires block > 0 && |paths| <= |ms|
    requires TilesOf(blocks) == Tiles(width, height, block)
    requires forall k :: 0 <= k < |blocks| ==> BlockHolds(g, paths, ms, blocks[k])
    requires c < width && r < height
    ensures exists k :: (0 <= k < |blocks| && Covers(blocks[k].tile, c, r)
      && (forall k' :: 0 <= k' < |blocks| && Covers(blocks[k'].tile, c, r) ==> k' == k)
      && WrittenAt(blocks, c, r) == Some(BlockValue(g, paths, ms, blocks[k].tile, c, r)))
  {
    TilesPartitionGrid(width, height, block);
    var ts := TilesOf(blocks);
    assert CoverCount(ts, c, r) == 1;
    CoveredOnce(ts, c, r);
    var k :| 0 <= k < |ts| && Covers(ts[k], c, r);
    var t := blocks[k].tile;
    assert BlockHolds(g, paths, ms, blocks[k]);
    assert blocks[k].data[r - t.y][c - t.x] == BlockValue(g, paths, ms, t, t.x + (c - t.x), t.y + (r - t.y));
    WrittenByOnlyCover(blocks, c, r, k);
  }

  /** No block writes outside the grid. */
  lemma OutsideNeverWritten(width: nat, height: nat, block: nat, blocks: seq<Block>, c: nat, r: nat)
    requires block > 0
    requires TilesOf(blocks) == Tiles(width, height, block)
    requires !(c < width && r < height)
    ensures WrittenAt(blocks, c, r) == None
  {
    TilesPartitionGrid(width, height, block);
    var ts := TilesOf(blocks);
    assert CoverCount(ts, c, r) == 0;
    NotCovered(ts, c, r);
    NeverWritten(blocks, c, r);
  }

  /**
    Three congruent inputs that GDAL opens, the middle one missing on disk
    (a virtual-file-system path, say): the middle one is dropped by the
    existence check on its final path.
   */
  lemma MiddleLayerDropped(g: Gdal, inputs: seq<string>)
    requires |inputs| == 3
    requires inputs[0] in g.datasets && inputs[0] in g.files
    requires inputs[2] in g.datasets && inputs[2] in g.files
    requires Congruent(g.datasets[inputs[2]], g.datasets[inputs[0]])
    requires inputs[1] in g.datasets && inputs[1] !in g.files
    requires Congruent(g.datasets[inputs[1]], g.datasets[inputs[0]])
    ensures CheckAndAlign(g, inputs, None).outcomes == [Some(inputs[0]), None, Some(inputs[2])]
    ensures CheckAndAlign(g, inputs, None).paths == [inputs[0], inputs[2]]
    ensures CheckAndAlign(g, inputs, None).gdal == g
  {
    var ref := g.datasets[inputs[0]];
    var root := AlignedRoot(None);
    var l0 := AlignLayer(g, ref, root, inputs[0]);
    assert l0 == LayerStep(Some(inputs[0]), g, []);
    var l1 := AlignLayer(g, ref, root, inputs[1]);
    assert l1 == LayerStep(None, g, []);
    var l2 := AlignLayer(g, ref, root, inputs[2]);
    assert l2 == LayerStep(Some(inputs[2]), g, []);
    assert inputs[1..][1..][1..] == [];
    assert AlignAll(g, ref, root, inputs[1..][1..][1..]) == AlignRun([], g, []);
    assert inputs[1..][1..] == [inputs[2]];
    assert AlignAll(g, ref, root, inputs[1..][1..]) == AlignRun([Some(inputs[2])], g, []);
    assert inputs[1..][0] == inputs[1];
    assert AlignAll(g, ref, root, inputs[1..]) == AlignRun([None, Some(inputs[2])], g, []);
    var os := [Some(inputs[0]), None, Some(inputs[2])];
    assert AlignAll(g, ref, root, inputs) == AlignRun(os, g, []);
    assert os[..2][..1][..0] == [];
    assert os[..2][..1] == [Some(inputs[0])];
    assert Present(os[..2]) == [inputs[0]];
  }

  /**
    As written, a dropped layer shifts the weights: when the middle of three
    inputs is dropped, the third layer is read at index 1 and weighted
    by the multiplier given for the second.
   */
  lemma DroppedLayerShiftsMultipliers(g: Gdal, inputs: seq<string>, ms: seq<real>, t: Tile, c: nat, r: nat)
    requires |inputs| == 3 == |ms| && Covers(t, c, r)
    requires inputs[0] in g.datasets && inputs[0] in g.files
    requires inputs[2] in g.datasets && inputs[2] in g.files
    requires Congruent(g.datasets[inputs[2]], g.datasets[inputs[0]])
    requires inputs[1] in g.datasets && inputs[1] !in g.files
    requires Congruent(g.datasets[inputs[1]], g.datasets[inputs[0]])
    ensures CheckAndAlign(g, inputs, None).paths == [inputs[0], inputs[2]]
    ensures
      var a := CheckAndAlign(g, inputs, None);
      var rs := Readings(a.gdal, a.paths, t, c, r);
      Sum(rs, ms) == Contribution(ReadingAt(g, inputs[0], t, c, r), ms[0])
        + Contribution(ReadingAt(g, inputs[2], t, c, r), ms[1])
  {
    MiddleLayerDropped(g, inputs);
    var rs := Readings(g, [inputs[0], inputs[2]], t, c, r);
    assert rs[0] == ReadingAt(g, inputs[0], t, c, r);
    assert rs[1] == ReadingAt(g, inputs[2], t, c, r);
    assert rs[..1][..0] == [];
    assert Sum(rs[..1], ms) == Contribution(rs[0], ms[0]);
    assert Sum(rs, ms) == Sum(rs[..1], ms) + Contribution(rs[1], ms[1]);
  }

  /**
    The pairing the fail-soft policy calls for: each kept path is weighted by
    the multiplier given for the input it came from.
   */
  function PairedMultipliers(a: Aligned, ms: seq<real>): (pm: seq<real>)
    requires |a.outcomes| <= |ms| && a.paths == Present(a.outcomes)
    ensures |pm| == |a.paths|
    ensures forall k :: 0 <= k < |pm| ==>
      exists i :: 0 <= i < |a.outcomes| && a.outcomes[i] == Some(a.paths[k]) && pm[k] == ms[i]
  {
    var ix := Origins(a.outcomes);
    seq(|ix|, k requires 0 <= k < |ix| => ms[ix[k]])
  }

  /** With the intended pairing, the third layer keeps the third multiplier when the second is dropped. */
  lemma DroppedLayerKeepsOwnMultiplier(g: Gdal, inputs: seq<string>, ms: seq<real>)
    requires |inputs| == 3 == |ms|
    requires inputs[0] in g.datasets && inputs[0] in g.files
    requires inputs[2] in g.datasets && inputs[2] in g.files
    requires Congruent(g.datasets[inputs[2]], g.datasets[inputs[0]])
    requires inputs[1] in g.datasets && inputs[1] !in g.files
    requires Congruent(g.datasets[inputs[1]], g.datasets[inputs[0]])
    ensures PairedMultipliers(CheckAndAlign(g, inputs, None), ms) == [ms[0], ms[2]]
  {
    MiddleLayerDropped(g, inputs);
    var os := [Some(inputs[0]), None, Some(inputs[2])];
    assert os[..2][..1] == [Some(inputs[0])];
    assert os[..2][..1][..0] == [];
    assert Origins(os) == [0, 2];
  }
}

=== FILE: alignment.dfy ===
/**
  `check_and_align_rasters` and its two fail-soft helpers: per layer,
  decide between passing it through, reprojecting it, resizing it, or
  dropping it, and name the files the warps write.
 */
module Alignment {
  import opened Optional
  import opened Strings
  import opened Paths
  import opened Raster

  /** `ALIGNED_FOLDER_DEFAULT`. */
  const DefaultAlignedDir: string := "app/temp_aligned"

  /** `aligned_dir or ALIGNED_FOLDER_DEFAULT`: a missing or empty directory falls back to the default. */
  function AlignedRoot(dir: Option<string>): (root: string)
    ensures |root| > 0
    ensures dir.Some? && dir.value != "" ==> root == dir.value
    ensures dir.None? || dir.value == "" ==> root == "app/temp_aligned"
  {
    if dir.Some? && dir.value != "" then dir.value else DefaultAlignedDir
  }

  /** `Path(src).stem`. */
  function StemOf(src: string): string {
    PathStem(PathName(src))
  }

  /** `aligned_root / f"{stem}_aligned.tif"`. */
  function AlignedName(root: string, src: string): string {
    Join(root, StemOf(src) + "_aligned.tif")
  }

  /** `aligned_root / f"{stem}_aligned_size.tif"`. */
  function AlignedSizeName(root: string, src: string): string {
    Join(root, StemOf(src) + "_aligned_size.tif")
  }

  /**
    The reference extent handed to the resize warp: the top-left corner is
    the geotransform origin and the grid spans `width` pixel widths and
    `height` pixel heights from it, so a north-up grid yields a proper box.
   */
  function ReferenceBounds(gt: GeoTransform, width: nat, height: nat): (b: Bounds)
    ensures b.xmin == gt.originX && b.ymax == gt.originY
    ensures b.xmax - b.xmin == width as real * gt.pixelWidth
    ensures b.ymax - b.ymin == height as real * -gt.pixelHeight
    ensures gt.pixelWidth > 0.0 && width > 0 ==> b.xmin < b.xmax
    ensures gt.pixelHeight < 0.0 && height > 0 ==> b.ymin < b.ymax
  {
    var xmin := gt.originX;
    var ymax := gt.originY;
    Bounds(xmin, ymax + height as real * gt.pixelHeight, xmin + width as real * gt.pixelWidth, ymax)
  }

  /** The path a helper returns, the engine state after it, and the warp it asked for (if any). */
  datatype Step = Step(path: string, gdal: Gdal, requests: seq<WarpRequest>)

  /** Properties shared by the two fail-soft helpers. */
  predicate FailSoft(g: Gdal, input: string, target: string, s: Step) {
    // the result is the target exactly when the engine wrote it, otherwise the input
    && (s.path == target || s.path == input)
    && (s.path != input ==> target in s.gdal.files && Open(s.gdal, target).Some?)
    && (s.gdal != g ==> s.path == target)
    // an input that opens yields a path that opens
    && (Open(g, input).Some? ==> Open(s.gdal, s.path).Some?)
    // a failed open issues no warp at all
    && (Open(g, input).None? ==> s == Step(input, g, []))
  }

  /**
    `reproject_raster`: warp `input` to `crs` with nearest-neighbour
    resampling and the layer's no-data value into `target`; return `target`
    if the warp produced a dataset and `input` if opening or warping failed.
   */
  function ReprojectRaster(g: Gdal, input: string, crs: string, target: string, nodata: Option<real>): (s: Step)
    ensures FailSoft(g, input, target, s)
    ensures Open(g, input).Some? ==> s.requests == [Reproject(input, target, crs, nodata)]
  {
    if Open(g, input).None? then Step(input, g, [])
    else
      var req := Reproject(input, target, crs, nodata);
      var (ok, g') := Warp(g, req);
      if ok then Step(target, g', [req]) else Step(input, g, [req])
  }

  /**
    `adjust_dimensions_raster`: warp `input` onto exactly `width` x `height`
    pixels over the reference extent into `target`; fail-soft as above.
   */
  function AdjustDimensions(
    g: Gdal, input: string, gt: GeoTransform, width: nat, height: nat, target: string, nodata: Option<real>): (s: Step)
    ensures FailSoft(g, input, target, s)
    ensures Open(g, input).Some? ==>
      s.requests == [Resize(input, target, width, height, ReferenceBounds(gt, width, height), nodata)]
  {
    if Open(g, input).None? then Step(input, g, [])
    else
      var req := Resize(input, target, width, height, ReferenceBounds(gt, width, height), nodata);
      var (ok, g') := Warp(g, req);
      if ok then Step(target, g', [req]) else Step(input, g, [req])
  }

  /** The only paths the loop may return for input `src`: itself or one of its two aligned names. */
  predicate Candidate(root: string, src: string, p: string) {
    p == src || p == AlignedName(root, src) || p == AlignedSizeName(root, src)
  }

  /** Outcome of one loop iteration: the path appended (None when the layer is dropped). */
  datatype LayerStep = LayerStep(path: Option<string>, gdal: Gdal, requests: seq<WarpRequest>)

  /** Same projection and the same pixel size as the reference. */
  predicate Congruent(d: Dataset, ref: Dataset) {
    d.crs == ref.crs && d.width == ref.width && d.height == ref.height
  }

  /**
    One iteration of the loop over the inputs. An unopenable layer is
    dropped with no effect; a layer with another projection is reprojected
    to `{stem}_aligned.tif`; a layer whose size (read before any warp)
    differs is resized, to `{stem}_aligned.tif` when it was not reprojected
    and to `{stem}_aligned_size.tif` when it was; a layer whose final path
    does not exist is dropped.
   */
  function AlignLayer(g: Gdal, ref: Dataset, root: string, src: string): (l: LayerStep)
    ensures Open(g, src).None? ==> l == LayerStep(None, g, [])
    ensures l.path.Some? ==>
      Candidate(root, src, l.path.value)
      && l.path.value in l.gdal.files && Open(l.gdal, l.path.value).Some?
    ensures Open(g, src).Some? && Congruent(Open(g, src).value, ref) ==>
      l.gdal == g && l.requests == [] && l.path == (if src in g.files then Some(src) else None)
  {
    match Open(g, src)
    case None => LayerStep(None, g, [])
    case Some(d) =>
      var out := AlignedName(root, src);
      var reproject := d.crs != ref.crs;
      var s1 := if reproject then ReprojectRaster(g, src, ref.crs, out, d.nodata) else Step(src, g, []);
      var resize := d.width != ref.width || d.height != ref.height;
      var outDim := if reproject then AlignedSizeName(root, src) else out;
      var s2 :=
        if resize then AdjustDimensions(s1.gdal, s1.path, ref.transform, ref.width, ref.height, outDim, d.nodata)
        else Step(s1.path, s1.gdal, []);
      var final := if reproject || resize then s2.path else src;
      var requests := s1.requests + s2.requests;
      if final in s2.gdal.files then LayerStep(Some(final), s2.gdal, requests)
      else LayerStep(None, s2.gdal, requests)
  }

  /**
    The warps a layer that opens asks for: a reprojection to
    `{stem}_aligned.tif` exactly when its projection differs, then a resize
    exactly when its original size differs from the reference, to the
    reference size and extent, named `{stem}_aligned_size.tif` after a
    reprojection and `{stem}_aligned.tif` otherwise. A reprojected layer
    whose original size matches is never resized, whatever size the
    reprojection gave it.
   */
  lemma LayerWarpRequests(g: Gdal, ref: Dataset, root: string, src: string)
    requires src in g.datasets
    ensures
      var d := g.datasets[src];
      var l := AlignLayer(g, ref, root, src);
      var reproject := d.crs != ref.crs;
      var resize := d.width != ref.width || d.height != ref.height;
      && |l.requests| == (if reproject then 1 else 0) + (if resize then 1 else 0)
      && (reproject ==> l.requests[0] == Reproject(src, AlignedName(root, src), ref.crs, d.nodata))
      && (resize ==>
            var req := l.requests[|l.requests| - 1];
            && req.Resize?
            && req.target == (if reproject then AlignedSizeName(root, src) else AlignedName(root, src))
            && req.width == ref.width && req.height == ref.height
            && req.bounds == ReferenceBounds(ref.transform, ref.width, ref.height)
            && req.nodata == d.nodata)
  {
    var d := g.datasets[src];
    if d.crs != ref.crs {
      ReprojectedLayerRequests(g, ref, root, src);
    } else {
      UnprojectedLayerRequests(g, ref, root, src);
    }
  }

  /** `LayerWarpRequests` for a layer whose projection differs from the reference. */
  lemma ReprojectedLayerRequests(g: Gdal, ref: Dataset, root: string, src: string)
    requires src in g.datasets && g.datasets[src].crs != ref.crs
    ensures
      var d := g.datasets[src];
      var l := AlignLayer(g, ref, root, src);
      var resize := d.width != ref.width || d.height != ref.height;
      && |l.requests| == (if resize then 2 else 1)
      && l.requests[0] == Reproject(src, AlignedName(root, src), ref.crs, d.nodata)
      && (resize ==>
            && l.requests[1].Resize?
            && l.requests[1].target == AlignedSizeName(root, src)
            && l.requests[1].width == ref.width && l.requests[1].height == ref.height
            && l.requests[1].bounds == ReferenceBounds(ref.transform, ref.width, ref.height)
            && l.requests[1].nodata == d.nodata)
  {
    var d := g.datasets[src];
    assert Open(g, src) == Some(d);
    var s1 := ReprojectRaster(g, src, ref.crs, AlignedName(root, src), d.nodata);
    assert s1.requests == [Reproject(src, AlignedName(root, src), ref.crs, d.nodata)];
    assert Open(s1.gdal, s1.path).Some?;
    var resize := d.width != ref.width || d.height != ref.height;
    var s2 :=
      if resize then AdjustDimensions(s1.gdal, s1.path, ref.transform, ref.width, ref.height, AlignedSizeName(root, src), d.nodata)
      else Step(s1.path, s1.gdal, []);
    assert AlignLayer(g, ref, root, src).requests == s1.requests + s2.requests;
  }

  /** `LayerWarpRequests` for a layer already in the reference projection. */
  lemma UnprojectedLayerRequests(g: Gdal, ref: Dataset, root: string, src: string)
    requires src in g.datasets && g.datasets[src].crs == ref.crs
    ensures
      var d := g.datasets[src];
      var l := AlignLayer(g, ref, root, src);
      var resize := d.width != ref.width || d.height != ref.height;
      l.requests == if resize then
        [Resize(src, AlignedName(root, src), ref.width, ref.height,
                ReferenceBounds(ref.transform, ref.width, ref.height), d.nodata)]
      else []
  {
  }

  /** The loop over the inputs: one outcome per input, in order, threading the engine state. */
  datatype AlignRun = AlignRun(outcomes: seq<Option<string>>, gdal: Gdal, requests: seq<WarpRequest>)

  /** The loop for any per-layer step. */
  function Thread(step: (Gdal, string) -> LayerStep, g: Gdal, srcs: seq<string>): (run: AlignRun)
    ensures |run.outcomes| == |srcs|
    decreases |srcs|
  {
    if |srcs| == 0 then AlignRun([], g, [])
    else
      var l := step(g, srcs[0]);
      var rest := Thread(step, l.gdal, srcs[1..]);
      AlignRun([l.path] + rest.outcomes, rest.gdal, l.requests + rest.requests)
  }

  /** Threading over `a + b` is threading over `a`, then over `b` from the state `a` left. */
  lemma {:induction false} ThreadAppend(step: (Gdal, string) -> LayerStep, g: Gdal, a: seq<string>, b: seq<string>)
    ensures
      var ra := Thread(step, g, a);
      var rb := Thread(step, ra.gdal, b);
      var r := Thread(step, g, a + b);
      && r.outcomes == ra.outcomes + rb.outcomes
      && r.gdal == rb.gdal
    decreases |a|
  {
    if |a| == 0 {
      assert a + b == b;
    } else {
      var l := step(g, a[0]);
      ThreadAppend(step, l.gdal, a[1..], b);
      assert (a + b)[0] == a[0];
      assert (a + b)[1..] == a[1..] + b;
    }
  }

  function AlignAll(g: Gdal, ref: Dataset, root: string, srcs: seq<string>): (run: AlignRun)
    ensures |run.outcomes| == |srcs|
  {
    Thread((h, src) => AlignLayer(h, ref, root, src), g, srcs)
  }

  /** Each input yields nothing, itself, or one of its own two aligned names. */
  lemma {:induction false} AlignAllCandidates(g: Gdal, ref: Dataset, root: string, srcs: seq<string>)
    ensures var run := AlignAll(g, ref, root, srcs);
      forall i :: 0 <= i < |srcs| && run.outcomes[i].Some? ==> Candidate(root, srcs[i], run.outcomes[i].value)
    decreases |srcs|
  {
    if |srcs| > 0 {
      var l := AlignLayer(g, ref, root, srcs[0]);
      AlignAllCandidates(l.gdal, ref, root, srcs[1..]);
      var run := AlignAll(g, ref, root, srcs);
      var rest := AlignAll(l.gdal, ref, root, srcs[1..]);
      assert run.outcomes == [l.path] + rest.outcomes;
      forall i | 0 <= i < |srcs| && run.outcomes[i].Some?
        ensures Candidate(root, srcs[i], run.outcomes[i].value)
      {
        if i > 0 {
          assert srcs[1..][i - 1] == srcs[i] && run.outcomes[i] == rest.outcomes[i - 1];
        }
      }
    }
  }

  /** The paths of the layers that were kept, in input order. */
  function Present(os: seq<Option<string>>): (ps: seq<string>)
    ensures |ps| <= |os|
  {
    if |os| == 0 then []
    else Present(os[..|os| - 1]) + (if os[|os| - 1].Some? then [os[|os| - 1].value] else [])
  }

  /**
    The input index each kept path came from: strictly increasing, so each
    input contributes at most one path and the input order is kept.
   */
  function Origins(os: seq<Option<string>>): (ix: seq<nat>)
    ensures |ix| == |Present(os)|
    ensures forall k :: 0 <= k < |ix| ==> ix[k] < |os| && os[ix[k]] == Some(Present(os)[k])
    ensures forall k1, k2 :: 0 <= k1 < k2 < |ix| ==> ix[k1] < ix[k2]
    ensures forall i :: 0 <= i < |os| && os[i].Some? ==> i in ix
  {
    if |os| == 0 then []
    else
      var n := |os| - 1;
      var front := Origins(os[..n]);
      assert forall i :: 0 <= i < n ==> os[..n][i] == os[i];
      front + (if os[n].Some? then [n] else [])
  }

  lemma {:induction false} PresentAppend(a: seq<Option<string>>, b: seq<Option<string>>)
    ensures Present(a + b) == Present(a) + Present(b)
    decreases |b|
  {
    if |b| == 0 {
      assert a + b == a;
    } else {
      var n := |b| - 1;
      PresentAppend(a, b[..n]);
      assert (a + b)[..|a + b| - 1] == a + b[..n];
    }
  }

  /** Result of `check_and_align_rasters`: the returned paths, plus the per-input outcomes behind them. */
  datatype Aligned = Aligned(paths: seq<string>, outcomes: seq<Option<string>>, gdal: Gdal, requests: seq<WarpRequest>)

  /**
    `check_and_align_rasters(input_paths, aligned_dir)`. No input, or an
    unopenable first input (the reference), returns no path and touches
    nothing; otherwise every input, the reference included, goes through
    `AlignLayer`, and the kept paths are returned in input order.
   */
  function CheckAndAlign(g: Gdal, inputs: seq<string>, dir: Option<string>): (a: Aligned)
    ensures |inputs| == 0 || Open(g, inputs[0]).None? ==> a.paths == [] && a.gdal == g && a.requests == []
    ensures |a.outcomes| == |inputs| && a.paths == Present(a.outcomes)
    ensures |a.paths| <= |inputs|
    ensures forall i :: 0 <= i < |inputs| && a.outcomes[i].Some? ==>
      Candidate(AlignedRoot(dir), inputs[i], a.outcomes[i].value)
  {
    var none := seq(|inputs|, _ => None);
    if |inputs| == 0 then Aligned([], [], g, [])
    else match Open(g, inputs[0])
      case None =>
        assert Present(none) == [] by { NothingPresent(none); }
        Aligned([], none, g, [])
      case Some(ref) =>
        var run := AlignAll(g, ref, AlignedRoot(dir), inputs);
        AlignAllCandidates(g, ref, AlignedRoot(dir), inputs);
        Aligned(Present(run.outcomes), run.outcomes, run.gdal, run.requests)
  }

  lemma {:induction false} NothingPresent(os: seq<Option<string>>)
    requires forall i :: 0 <= i < |os| ==> os[i].None?
    ensures Present(os) == []
    decreases |os|
  {
    if |os| > 0 {
      NothingPresent(os[..|os| - 1]);
    }
  }

  /** Running the loop over `a + b` is running it over `a`, then over `b` from the state `a` left. */
  lemma AlignAllAppend(g: Gdal, ref: Dataset, root: string, a: seq<string>, b: seq<string>)
    ensures
      var ra := AlignAll(g, ref, root, a);
      var rb := AlignAll(ra.gdal, ref, root, b);
      var r := AlignAll(g, ref, root, a + b);
      && r.outcomes == ra.outcomes + rb.outcomes
      && r.gdal == rb.gdal
  {
    ThreadAppend((h, src) => AlignLayer(h, ref, root, src), g, a, b);
  }

  /**
    An unopenable layer is dropped without aborting the batch: the kept
    paths are those of the same inputs without that layer.
   */
  lemma UnopenableLayerIsDropped(g: Gdal, ref: Dataset, root: string, pre: seq<string>, src: string, post: seq<string>)
    requires Open(AlignAll(g, ref, root, pre).gdal, src).None?
    ensures Present(AlignAll(g, ref, root, pre + [src] + post).outcomes)
      == Present(AlignAll(g, ref, root, pre + post).outcomes)
  {
    var step := (h, s) => AlignLayer(h, ref, root, s);
    assert step(Thread(step, g, pre).gdal, src) == LayerStep(None, Thread(step, g, pre).gdal, []);
    ThreadSkipsNeutralStep(step, g, pre, src, post);
  }

  /** A step that keeps nothing and changes nothing leaves the kept paths as they were without it. */
  lemma ThreadSkipsNeutralStep(step: (Gdal, string) -> LayerStep, g: Gdal, pre: seq<string>, src: string, post: seq<string>)
    requires step(Thread(step, g, pre).gdal, src) == LayerStep(None, Thread(step, g, pre).gdal, [])
    ensures Present(Thread(step, g, pre + [src] + post).outcomes) == Present(Thread(step, g, pre + post).outcomes)
  {
    var ra := Thread(step, g, pre);
    ThreadAppend(step, g, pre, [src] + post);
    ThreadAppend(step, g, pre, post);
    assert pre + [src] + post == pre + ([src] + post);
    var rs := Thread(step, ra.gdal, [src] + post);
    assert ([src] + post)[1..] == post;
    assert rs.outcomes == [None] + Thread(step, ra.gdal, post).outcomes;
    PresentAppend(ra.outcomes, rs.outcomes);
    PresentAppend(ra.outcomes, Thread(step, ra.gdal, post).outcomes);
    PresentAppend([None], Thread(step, ra.gdal, post).outcomes);
    assert Present([None]) == [];
  }

  /** Congruent, existing layers pass through the loop unchanged and cause no warp. */
  lemma {:induction false} CongruentPassThrough(g: Gdal, ref: Dataset, root: string, srcs: seq<string>)
    requires forall i :: 0 <= i < |srcs| ==>
      srcs[i] in g.datasets && srcs[i] in g.files && Congruent(g.datasets[srcs[i]], ref)
    ensures AlignAll(g, ref, root, srcs) == AlignRun(seq(|srcs|, i requires 0 <= i < |srcs| => Some(srcs[i])), g, [])
    decreases |srcs|
  {
    if |srcs| > 0 {
      CongruentPassThrough(g, ref, root, srcs[1..]);
    }
  }

  lemma {:induction false} PresentAllSome(srcs: seq<string>)
    ensures Present(seq(|srcs|, i requires 0 <= i < |srcs| => Some(srcs[i]))) == srcs
    decreases |srcs|
  {
    if |srcs| > 0 {
      var n := |srcs| - 1;
      PresentAllSome(srcs[..n]);
      var os := seq(|srcs|, i requires 0 <= i < |srcs| => Some(srcs[i]));
      assert os[..n] == seq(n, i requires 0 <= i < n => Some(srcs[..n][i]));
      assert srcs == srcs[..n] + [srcs[n]];
    }
  }

  /**
    Aligning layers that already share the reference's projection and size
    returns the original paths, writes nothing and asks for no warp.
   */
  lemma AlignedSetIsFixedPoint(g: Gdal, inputs: seq<string>, dir: Option<string>)
    requires |inputs| > 0 && inputs[0] in g.datasets
    requires forall i :: 0 <= i < |inputs| ==>
      inputs[i] in g.datasets && inputs[i] in g.files && Congruent(g.datasets[inputs[i]], g.datasets[inputs[0]])
    ensures CheckAndAlign(g, inputs, dir).paths == inputs
    ensures CheckAndAlign(g, inputs, dir).gdal == g
    ensures CheckAndAlign(g, inputs, dir).requests == []
  {
    CongruentPassThrough(g, g.datasets[inputs[0]], AlignedRoot(dir), inputs);
    PresentAllSome(inputs);
  }
}

=== FILE: paths.dfy ===
/**
  POSIX path strings as `os.path` and `pathlib` treat them: joining,
  the last component, its stem, and a lexical normal form.
 */
module Paths {
  import opened Strings

  /**
    `os.path.join(dir, name)` for a directory without a trailing slash, and
    `Path(dir) / name`: an absolute `name` replaces the directory. (pathlib
    additionally collapses repeated slashes and "." components; where a
    caller goes on to `resolve()` the path, `Resolve` performs that
    normalisation.)
   */
  function Join(dir: string, name: string): (p: string)
    ensures |name| > 0 && name[0] == '/' ==> p == name
    ensures (|name| == 0 || name[0] != '/') ==> IsPrefix(dir + "/", p) && p[|dir| + 1..] == name
  {
    if |name| > 0 && name[0] == '/' then name else dir + "/" + name
  }

  /** Joining is associative once the middle part is non-empty and the last is relative. */
  lemma JoinAssoc(a: string, d: string, n: string)
    requires |d| > 0 && (|n| == 0 || n[0] != '/')
    ensures Join(a, Join(d, n)) == Join(Join(a, d), n)
  {
    if d[0] != '/' {
      assert Join(d, n)[0] == d[0];
      assert a + "/" + (d + "/" + n) == (a + "/" + d) + "/" + n;
    }
  }

  /** `os.path.basename(p)`: everything after the last slash. */
  function Basename(p: string): (b: string)
    ensures '/' !in b
    ensures '/' !in p ==> b == p
  {
    var i := RFind(p, '/');
    var b := p[i + 1..];
    assert forall k :: 0 <= k < |b| ==> b[k] != '/' by {
      forall k | 0 <= k < |b| ensures b[k] != '/' {
        assert b[k] == p[i + 1 + k];
      }
    }
    assert |p| - |b| == i + 1;
    b
  }

  /** The last component of a joined path is the joined name. */
  lemma BasenameJoin(dir: string, name: string)
    requires |name| > 0 && '/' !in name
    ensures Basename(Join(dir, name)) == name
  {
    var p := Join(dir, name);
    assert p == dir + "/" + name;
    var i := RFind(p, '/');
    assert p[|dir|] == '/';
    forall k | |dir| < k < |p| ensures p[k] != '/' {
      assert p[k] == name[k - |dir| - 1];
    }
    assert i == |dir|;
    assert p[i + 1..] == name;
  }

  /** `s.rstrip(c)`: `s` without the run of `c` at its end. */
  function RStrip(s: string, c: char): (r: string)
    ensures |r| <= |s| && r == s[..|r|]
    ensures forall k :: |r| <= k < |s| ==> s[k] == c
    ensures |r| == 0 || r[|r| - 1] != c
    decreases |s|
  {
    if |s| > 0 && s[|s| - 1] == c then RStrip(s[..|s| - 1], c) else s
  }

  /**
    `os.path.dirname(p)`: everything up to the last slash, with the trailing
    slashes dropped unless nothing but slashes is left; "" without a slash.
   */
  function Dirname(p: string): (d: string)
    ensures d == "" <==> '/' !in p
    ensures |d| <= |p| && d == p[..|d|]
  {
    var i := RFind(p, '/');
    if i < 0 then ""
    else
      var head := p[..i + 1];
      var t := RStrip(head, '/');
      if t == "" then head else t
  }

  /** The directory part of a joined path is the directory joined onto. */
  lemma DirnameJoin(dir: string, name: string)
    requires |dir| > 0 && dir[|dir| - 1] != '/' && '/' !in name
    ensures Dirname(Join(dir, name)) == dir
  {
    var p := Join(dir, name);
    assert p == dir + "/" + name;
    assert p[|dir|] == '/';
    forall k | |dir| < k < |p| ensures p[k] != '/' {
      assert p[k] == name[k - |dir| - 1];
    }
    RFindUnique(p, '/', |dir|);
    var head := p[..|dir| + 1];
    assert head == dir + "/";
    assert RStrip(head, '/') == RStrip(dir, '/');
    assert head[..|dir|] == dir;
  }

  /** A leading part of `dir` that ends at a slash, or `dir` itself, is in `plain`. */
  predicate PathBlocked(plain: set<string>, dir: string) {
    exists i :: 0 < i <= |dir| && (i == |dir| || dir[i] == '/') && dir[..i] in plain
  }

  /**
    `os.makedirs(dir, exist_ok=True)` raises: there is no directory to make
    (""), or a file is in the way.
   */
  predicate MakedirsFails(plain: set<string>, dir: string) {
    dir == "" || PathBlocked(plain, dir)
  }

  /**
    An output path under an existing file (`x.tif/out.tif` with `x.tif` a
    file) has a directory part that `os.makedirs` cannot make.
   */
  lemma FileDirBlocksMakedirs(plain: set<string>, dir: string, name: string)
    requires dir in plain && |dir| > 0 && dir[|dir| - 1] != '/' && '/' !in name
    ensures MakedirsFails(plain, Dirname(Join(dir, name)))
  {
    DirnameJoin(dir, name);
    assert dir[..|dir|] == dir;
  }

  /**
    `PurePath.name`: the last component once empty and "." components are
    dropped, or "" when none is left (for "/", "." and "").
   */
  function PathName(p: string): (n: string)
    ensures '/' !in n
    ensures Basename(p) != "" && Basename(p) != "." ==> n == Basename(p)
    decreases |p|
  {
    var b := Basename(p);
    if b != "" && b != "." then b
    else
      var i := RFind(p, '/');
      if i < 0 then "" else PathName(p[..i])
  }

  /** A trailing slash or "/." does not change the name, as pathlib drops those components. */
  lemma PathNameIgnoresTrailing(p: string)
    ensures PathName(p + "/") == PathName(p)
    ensures PathName(p + "/.") == PathName(p)
  {
    var q := p + "/";
    assert q[|p|] == '/';
    RFindUnique(q, '/', |p|);
    assert q[..|p|] == p;
    var d := p + "/.";
    assert d[|p|] == '/' && d[|p| + 1] == '.';
    RFindUnique(d, '/', |p|);
    assert d[|p| + 1..] == ".";
    assert d[..|p|] == p;
  }

  /**
    `PurePath.stem` of a file name without slashes (the pathlib rule of
    Python 3.8 to 3.13): the name without its last suffix, where a suffix is
    a final ".xyz" that neither starts the name nor is a lone trailing dot.
   */
  function PathStem(name: string): (stem: string)
    ensures IsPrefix(stem, name)
  {
    var i := RFind(name, '.');
    if 0 < i < |name| - 1 then name[..i] else name
  }

  predicate AllDots(s: string) {
    forall k :: 0 <= k < |s| ==> s[k] == '.'
  }

  /**
    `os.path.splitext(name)[0]` for a file name without slashes: cut at the
    last dot unless only dots precede it.
   */
  function SplitextRoot(name: string): (root: string)
    ensures IsPrefix(root, name)
  {
    var i := RFind(name, '.');
    if i >= 0 && !AllDots(name[..i]) then name[..i] else name
  }

  /**
    The two notions of "name without extension" agree on every name that
    neither starts nor ends with a dot.
   */
  lemma StemAgreesWithSplitext(name: string)
    requires |name| > 0 && name[0] != '.' && name[|name| - 1] != '.'
    ensures PathStem(name) == SplitextRoot(name)
  {
    var i := RFind(name, '.');
    if i > 0 {
      assert name[..i][0] == name[0];
      assert !AllDots(name[..i]);
    }
  }

  /**
    Lexical normal form of a path as a list of components: empty and "."
    components vanish and ".." removes the component before it, which is
    how the operating system resolves a path when no symbolic link is
    involved. A leading ".." of a relative path is kept.
   */
  function Normalize(components: seq<string>): (r: seq<string>)
    ensures forall k :: 0 <= k < |r| ==> r[k] != "" && r[k] != "."
  {
    NormalizeFrom([], components)
  }

  function NormalizeFrom(done: seq<string>, rest: seq<string>): (r: seq<string>)
    requires forall k :: 0 <= k < |done| ==> done[k] != "" && done[k] != "."
    ensures forall k :: 0 <= k < |r| ==> r[k] != "" && r[k] != "."
    decreases |rest|
  {
    if |rest| == 0 then done
    else if rest[0] == "" || rest[0] == "." then NormalizeFrom(done, rest[1..])
    else if rest[0] == ".." && |done| > 0 && done[|done| - 1] != ".." then NormalizeFrom(done[..|done| - 1], rest[1..])
    else NormalizeFrom(done + [rest[0]], rest[1..])
  }

  /** The components of a path string. */
  function Components(p: string): seq<string> {
    Split(p, '/')
  }

  /** Components that are plain names are kept as they are, in order. */
  lemma {:induction false} NormalizePlainNames(done: seq<string>, rest: seq<string>)
    requires forall k :: 0 <= k < |done| ==> done[k] != "" && done[k] != "."
    requires forall k :: 0 <= k < |rest| ==> rest[k] != "" && rest[k] != "." && rest[k] != ".."
    ensures NormalizeFrom(done, rest) == done + rest
    decreases |rest|
  {
    if |rest| > 0 {
      NormalizePlainNames(done + [rest[0]], rest[1..]);
      assert done + [rest[0]] + rest[1..] == done + rest;
    }
  }
}

=== FILE: pipeline_routes.dfy ===
/**
  The two-stage pipeline endpoints: `/pipeline/start` adds one stage-1
  output to a job, `/pipeline/continue` combines the first seven into the
  final raster, and `/pipeline/{job_id}` (DELETE) and `/pipeline/close`
  remove a job. The raster computation itself is a parameter.
 */
module PipelineRoutes {
  import opened Optional
  import opened Strings
  import opened Paths
  import opened PipelineUtils
  import opened Aggregation

  /** An HTTP reply: a JSON body, or an `HTTPException` with its status code. */
  datatype Reply<T> = Ok(value: T) | Error(code: nat)

  /** One call of `process_rasters` as the routes make it. */
  datatype Call = Call(inputs: seq<string>, multipliers: seq<real>, output: string, alignedDir: string)

  /**
    What the routes take from outside: the ids `new_job_id` hands out (one
    for a new job, one for a file-name fallback), the clock, the working
    directory `resolve()` prefixes, Python's `float` on one piece, the
    raster computation, and the locations of the files a returning call
    leaves behind (its output and its aligned copies).
   */
  datatype Env = Env(
    jobId: string, fileId: string, now: real, cwd: string,
    parse: string -> Option<real>,
    run: Call -> Outcome,
    created: Call -> set<seq<string>>)

  predicate EnvOk(env: Env) {
    FreshId(env.jobId) && FreshId(env.fileId)
  }

  /** Python's `s or default` for an optional string. */
  function OrElse(s: Option<string>, default: string): (r: string)
    ensures s.Some? && s.value != "" ==> r == s.value
    ensures s.None? || s.value == "" ==> r == default
  {
    if s.Some? && s.value != "" then s.value else default
  }

  predicate AllParse(pieces: seq<string>, parse: string -> Option<real>) {
    forall k :: 0 <= k < |pieces| ==> parse(pieces[k]).Some?
  }

  /** `[float(x) for x in s.split(",")]`: None when any piece does not parse. */
  function ParseMultipliers(s: string, parse: string -> Option<real>): (r: Option<seq<real>>)
    ensures r.Some? <==> AllParse(Split(s, ','), parse)
    ensures r.Some? ==> |r.value| == |Split(s, ',')|
    ensures r.Some? ==> forall k :: 0 <= k < |r.value| ==> parse(Split(s, ',')[k]) == Some(r.value[k])
  {
    var pieces := Split(s, ',');
    if AllParse(pieces, parse) then
      Some(seq(|pieces|, k requires 0 <= k < |pieces| => parse(pieces[k]).value))
    else None
  }

  /** A parsed list has one multiplier more than the string has commas. */
  lemma MultiplierCount(s: string, parse: string -> Option<real>)
    requires ParseMultipliers(s, parse).Some?
    ensures |ParseMultipliers(s, parse).value| == Count(s, ',') + 1
  {
    SplitCount(s, ',');
  }

  /** Joining comma-free pieces that each parse and parsing the result gives back their values. */
  lemma ParseJoined(pieces: seq<string>, parse: string -> Option<real>)
    requires |pieces| >= 1
    requires forall k :: 0 <= k < |pieces| ==> ',' !in pieces[k] && parse(pieces[k]).Some?
    ensures var r := ParseMultipliers(JoinWith(pieces, ','), parse);
      && r.Some? && |r.value| == |pieces|
      && forall k :: 0 <= k < |pieces| ==> Some(r.value[k]) == parse(pieces[k])
  {
    JoinSplit(pieces, ',');
  }

  /** `if x not in xs: xs.append(x)`. */
  function AppendUnique(xs: seq<string>, x: string): seq<string> {
    if x in xs then xs else xs + [x]
  }

  /**
    Appending without duplicates keeps the earlier entries in place, adds
    `x` at the end only when it is new, and keeps a duplicate-free list
    duplicate-free, so `x` then occurs exactly once.
   */
  lemma AppendUniqueProperties(xs: seq<string>, x: string)
    ensures var r := AppendUnique(xs, x);
      && x in r && IsPrefixSeq(xs, r)
      && |r| == |xs| + (if x in xs then 0 else 1)
      && (x !in xs ==> r[|r| - 1] == x)
      && (NoDuplicates(xs) ==> NoDuplicates(r) && multiset(r)[x] == 1)
  {
    var r := AppendUnique(xs, x);
    if NoDuplicates(xs) {
      if x in xs {
        var i :| 0 <= i < |xs| && xs[i] == x;
        OnlyOnce(xs, i);
      } else {
        assert r[|xs|] == x;
        OnlyOnce(r, |xs|);
      }
    }
  }

  predicate IsPrefixSeq(a: seq<string>, b: seq<string>) {
    |a| <= |b| && b[..|a|] == a
  }

  lemma {:induction false} OnlyOnce(xs: seq<string>, i: nat)
    requires i < |xs| && NoDuplicates(xs)
    ensures multiset(xs)[xs[i]] == 1
    decreases |xs|
  {
    var n := |xs| - 1;
    assert xs == xs[..n] + [xs[n]];
    assert NoDuplicates(xs[..n]);
    if i == n {
      assert xs[n] !in xs[..n] by {
        forall k | 0 <= k < n ensures xs[..n][k] != xs[n] {
          assert xs[..n][k] == xs[k];
        }
      }
    } else {
      OnlyOnce(xs[..n], i);
      assert xs[..n][i] == xs[i];
    }
  }

  // ---------------------------------------------------------------------
  // POST /pipeline/start

  /** The form fields of `/pipeline/start`; `inputPaths` are the uploads as saved in `stage1/inputs`. */
  datatype StartRequest = StartRequest(
    multipliers: string, outputFilename: string, jobId: Option<string>, user: Option<string>,
    inputPaths: seq<string>)

  datatype Started = Started(jobId: string, added: string, outputs: seq<string>)

  /** The reply, the disk afterwards, and the `process_rasters` call made (if any). */
  datatype StartStep = StartStep(reply: Reply<Started>, fs: Fs, call: Option<Call>)

  /** The job a start request works on: the one named, or a new one. */
  function StartJob(req: StartRequest, env: Env): (job: string)
    ensures req.jobId.Some? && req.jobId.value != "" ==> job == req.jobId.value
    ensures req.jobId.None? || req.jobId.value == "" ==> job == env.jobId
    ensures FreshId(env.jobId) && (req.jobId.None? || req.jobId.value == "") ==> ValidJobId(job)
  {
    if FreshId(env.jobId) then FreshIdIsValid(env.jobId); OrElse(req.jobId, env.jobId)
    else OrElse(req.jobId, env.jobId)
  }

  /**
    The manifest a start request builds on: the stored one, or a freshly
    initialised one when nothing is at the manifest path; None when
    `read_manifest` raises.
   */
  function StartManifest(fs: Fs, job: string, user: Option<string>, now: real): (r: Option<(Manifest, Fs)>)
    ensures r.None? <==> ReadManifest(fs, job).Unreadable?
    ensures r.Some? ==> StoredManifest(r.value.1, job) == Some(r.value.0)
    ensures ReadManifest(fs, job).Loaded? ==> r == Some((ReadManifest(fs, job).manifest, fs))
    ensures ReadManifest(fs, job).NoManifest? ==>
      r.Some? && r.value.0 == Manifest(job, user, now, Created, Stage1(false, []), Stage2(false, None))
  {
    match ReadManifest(fs, job)
    case Unreadable => None
    case Loaded(m) => Some((m, fs))
    case NoManifest => Some(InitManifest(fs, job, user, now))
  }

  /**
    `str((Path(dir) / name).resolve())` for a non-empty directory and a
    sanitised name: the directory's location, plus `name` unless it is ".".
   */
  lemma OutputLocation(cwd: string, dir: string, name: string)
    requires |dir| > 0 && CleanName(name)
    ensures var out := PathString(Resolve(Join(cwd, Join(dir, name))));
      var loc := Resolve(Join(cwd, dir));
      && (name == "." ==> out == PathString(loc))
      && (name != "." ==> out == PathString(loc + [name]) && Basename(out) == name)
  {
    assert name[0] in name;
    JoinAssoc(cwd, dir, name);
    ResolveJoinClean(Join(cwd, dir), name);
    if name != "." {
      BasenamePathStringSnoc(Resolve(Join(cwd, dir)), name);
    }
  }

  /**
    As written, `output_filename="."` survives sanitising, and the stage-1
    output path is the job's `stage1/outputs` directory itself.
   */
  lemma DotOutputIsDirectory(req: StartRequest, mults: seq<real>, env: Env)
    requires EnvOk(env) && req.outputFilename == "."
    ensures StartCall(req, mults, env).output
         == PathString(Resolve(Join(env.cwd, JobDirsOf(StartJob(req, env)).stage1Outputs)))
  {
    CleanNameIsFixed(".", env.fileId);
    StartCallName(req, mults, env);
  }

  /** With the corrected sanitiser every output path names an entry inside its directory. */
  lemma CheckedOutputInsideDir(cwd: string, dir: string, name: Option<string>, freshId: string)
    requires |dir| > 0 && FreshId(freshId)
    ensures var n := SanitizeFilenameChecked(name, freshId);
      var out := PathString(Resolve(Join(cwd, Join(dir, n))));
      && out == PathString(Resolve(Join(cwd, dir)) + [n])
      && Basename(out) == n
  {
    OutputLocation(cwd, dir, SanitizeFilenameChecked(name, freshId));
  }

  /** The stage-1 call a start request makes. */
  function StartCall(req: StartRequest, mults: seq<real>, env: Env): Call
    requires EnvOk(env)
  {
    var dirs := JobDirsOf(StartJob(req, env));
    var outName := SanitizeFilename(Some(req.outputFilename), env.fileId);
    Call(req.inputPaths, mults, PathString(Resolve(Join(env.cwd, Join(dirs.stage1Outputs, outName)))), dirs.stage1Aligned)
  }

  function PipelineStart(fs: Fs, req: StartRequest, env: Env): (r: StartStep)
    requires EnvOk(env)
  {
    match ParseMultipliers(req.multipliers, env.parse)
    case None => StartStep(Error(400), fs, None)
    case Some(mults) =>
      var job := StartJob(req, env);
      StartAfterDirs(EnsureJobDirs(fs, job), job, req.user, env.now, StartCall(req, mults, env), env.run, env.created)
  }

  /**
    A start request once `ensure_job_dirs` has run: a raise there answers
    500 before the manifest is read, and so does a `read_manifest` that
    raises; otherwise read or initialise the manifest and run the stage-1
    call.
   */
  function StartAfterDirs(
    made: Made, job: string, user: Option<string>, now: real, call: Call,
    run: Call -> Outcome, created: Call -> set<seq<string>>): (r: StartStep)
    ensures r.call.Some? <==> made.ok && !ReadManifest(made.fs, job).Unreadable?
    ensures r.call.None? ==> r.reply == Error(500) && r.fs == made.fs
    ensures r.call.Some? ==> r.call == Some(call)
    ensures r.reply.Ok? ==> r.reply.value.jobId == job && r.call.Some? && created(call) <= r.fs.files
  {
    if !made.ok then StartStep(Error(500), made.fs, None)
    else match StartManifest(made.fs, job, user, now)
      case None => StartStep(Error(500), made.fs, None)
      case Some(mf) => StartRun(mf.1, job, mf.0, call, run, created)
  }

  /**
    A start request past parsing, with the job's directories and manifest in
    place: run `call`, and on success record the files it wrote and add its
    result to the stage-1 outputs.
   */
  function StartRun(fs: Fs, job: string, m: Manifest, call: Call, run: Call -> Outcome, created: Call -> set<seq<string>>): (r: StartStep)
    ensures r.call == Some(call)
    ensures run(call) == Raised ==> r.reply == Error(500) && r.fs == fs
    ensures run(call).Returned? ==>
      var outputs := AppendUnique(m.stage1.outputs, run(call).path);
      && r.reply == Ok(Started(job, run(call).path, outputs))
      && StoredManifest(r.fs, job) == Some(m.(status := Stage1Partial, stage1 := m.stage1.(outputs := outputs)))
      && created(call) <= r.fs.files && created(call) <= r.fs.entries
  {
    match run(call)
    case Raised => StartStep(Error(500), fs, Some(call))
    case Returned(result) =>
      var outputs := AppendUnique(m.stage1.outputs, result);
      var m' := m.(status := Stage1Partial, stage1 := m.stage1.(outputs := outputs));
      StartStep(Ok(Started(job, result, outputs)), WriteManifest(AddFiles(fs, created(call)), job, m'), Some(call))
  }

  /** An unparsable multiplier list is rejected with 400 before anything is created. */
  lemma StartRejectsBadMultipliers(fs: Fs, req: StartRequest, env: Env)
    requires EnvOk(env) && ParseMultipliers(req.multipliers, env.parse).None?
    ensures PipelineStart(fs, req, env) == StartStep(Error(400), fs, None)
  {
  }

  /**
    A start request that gets past parsing works on the named job or, when
    none is named, on a new one. When a file is in the way of the job's
    directories it answers 500 with the manifest untouched; otherwise it
    hands `process_rasters` the uploads, the parsed multipliers and the
    job's `stage1/aligned` directory.
   */
  lemma StartJobAndCall(fs: Fs, req: StartRequest, env: Env)
    requires EnvOk(env) && ParseMultipliers(req.multipliers, env.parse).Some?
    ensures var r := PipelineStart(fs, req, env);
      var job := StartJob(req, env);
      var dirs := JobDirsOf(job);
      && (req.jobId.Some? && req.jobId.value != "" ==> job == req.jobId.value)
      && (req.jobId.None? || req.jobId.value == "" ==> job == env.jobId && ValidJobId(job))
      && (r.call.Some? <==> JobDirsCreatable(fs, job) && !ReadManifest(fs, job).Unreadable?)
      && (r.call.None? ==> r.reply == Error(500) && ReadManifest(r.fs, job) == ReadManifest(fs, job))
      && (r.call.Some? ==>
            && r.call.value.inputs == req.inputPaths
            && r.call.value.multipliers == ParseMultipliers(req.multipliers, env.parse).value
            && r.call.value.alignedDir == dirs.stage1Aligned)
      && (r.reply.Ok? ==> r.reply.value.jobId == job)
  {
    var mults := ParseMultipliers(req.multipliers, env.parse).value;
    var job := StartJob(req, env);
    var made := EnsureJobDirs(fs, job);
    var call := StartCall(req, mults, env);
    assert PipelineStart(fs, req, env) == StartAfterDirs(made, job, req.user, env.now, call, env.run, env.created);
    EnsureJobDirsKeepsManifest(fs, job);
  }

  /**
    The stage-1 output is the resolved `stage1/outputs` directory with the
    sanitised form of the requested file name (no slash, no backslash, no
    "..") as its last component; a name sanitised to "." resolves to the
    directory itself.
   */
  lemma StartOutputName(fs: Fs, req: StartRequest, env: Env)
    requires EnvOk(env) && ParseMultipliers(req.multipliers, env.parse).Some?
    ensures var r := PipelineStart(fs, req, env);
      var name := SanitizeFilename(Some(req.outputFilename), env.fileId);
      var dir := Resolve(Join(env.cwd, JobDirsOf(StartJob(req, env)).stage1Outputs));
      && (r.call.Some? <==> JobDirsCreatable(fs, StartJob(req, env)) && !ReadManifest(fs, StartJob(req, env)).Unreadable?)
      && CleanName(name)
      && (r.call.Some? && name == "." ==> r.call.value.output == PathString(dir))
      && (r.call.Some? && name != "." ==>
            r.call.value.output == PathString(dir + [name]) && Basename(r.call.value.output) == name)
  {
    var mults := ParseMultipliers(req.multipliers, env.parse).value;
    var job := StartJob(req, env);
    var made := EnsureJobDirs(fs, job);
    var call := StartCall(req, mults, env);
    assert PipelineStart(fs, req, env) == StartAfterDirs(made, job, req.user, env.now, call, env.run, env.created);
    EnsureJobDirsKeepsManifest(fs, job);
    StartCallName(req, mults, env);
  }

  /** Where the stage-1 call writes: inside `stage1/outputs`, or that directory itself for ".". */
  lemma StartCallName(req: StartRequest, mults: seq<real>, env: Env)
    requires EnvOk(env)
    ensures var name := SanitizeFilename(Some(req.outputFilename), env.fileId);
      var dir := Resolve(Join(env.cwd, JobDirsOf(StartJob(req, env)).stage1Outputs));
      var out := StartCall(req, mults, env).output;
      && CleanName(name)
      && (name == "." ==> out == PathString(dir))
      && (name != "." ==> out == PathString(dir + [name]) && Basename(out) == name)
  {
    var dirs := JobDirsOf(StartJob(req, env));
    var name := SanitizeFilename(Some(req.outputFilename), env.fileId);
    OutputLocation(env.cwd, dirs.stage1Outputs, name);
  }

  /**
    The manifest transition of a successful start: status becomes
    `stage1_partial` whatever it was (even `done`), the returned path is
    appended to `stage1.outputs` only if absent, and nothing else changes.
   */
  lemma StartTransition(fs: Fs, req: StartRequest, env: Env, before: Option<Manifest>)
    requires EnvOk(env) && ParseMultipliers(req.multipliers, env.parse).Some?
    requires before == StoredManifest(fs, StartJob(req, env))
    requires PipelineStart(fs, req, env).reply.Ok?
    ensures var r := PipelineStart(fs, req, env);
      var job := StartJob(req, env);
      var result := r.reply.value.added;
      var m0 := if before.Some? then before.value
        else Manifest(job, req.user, env.now, Created, Stage1(false, []), Stage2(false, None));
      && StoredManifest(r.fs, job) == Some(m0.(status := Stage1Partial,
           stage1 := m0.stage1.(outputs := AppendUnique(m0.stage1.outputs, result))))
      && r.reply.value.outputs == AppendUnique(m0.stage1.outputs, result)
  {
    var mults := ParseMultipliers(req.multipliers, env.parse).value;
    var job := StartJob(req, env);
    var made := EnsureJobDirs(fs, job);
    var call := StartCall(req, mults, env);
    assert PipelineStart(fs, req, env) == StartAfterDirs(made, job, req.user, env.now, call, env.run, env.created);
    assert made.ok;
    var mf := StartManifest(made.fs, job, req.user, env.now).value;
    assert StartAfterDirs(made, job, req.user, env.now, call, env.run, env.created) == StartRun(mf.1, job, mf.0, call, env.run, env.created);
    assert StoredManifest(made.fs, job) == before;
  }

  /**
    A stage-1 run that raises answers 500 and leaves the stored outputs as
    they were; a start whose job directories cannot be made, or whose
    manifest cannot be read, answers 500 and leaves the manifest path as it
    was.
   */
  lemma StartRaisedKeepsOutputs(fs: Fs, req: StartRequest, env: Env)
    requires EnvOk(env) && ParseMultipliers(req.multipliers, env.parse).Some?
    requires env.run(StartCall(req, ParseMultipliers(req.multipliers, env.parse).value, env)) == Raised
    ensures var r := PipelineStart(fs, req, env);
      var job := StartJob(req, env);
      && r.reply == Error(500)
      && (JobDirsCreatable(fs, job) && !ReadManifest(fs, job).Unreadable? ==>
            && StoredManifest(r.fs, job).Some?
            && StoredManifest(r.fs, job).value.stage1.outputs
               == (if StoredManifest(fs, job).Some? then StoredManifest(fs, job).value.stage1.outputs else []))
      && (!JobDirsCreatable(fs, job) || ReadManifest(fs, job).Unreadable? ==> ReadManifest(r.fs, job) == ReadManifest(fs, job))
  {
    var mults := ParseMultipliers(req.multipliers, env.parse).value;
    var job := StartJob(req, env);
    var made := EnsureJobDirs(fs, job);
    var call := StartCall(req, mults, env);
    assert PipelineStart(fs, req, env) == StartAfterDirs(made, job, req.user, env.now, call, env.run, env.created);
    EnsureJobDirsKeepsManifest(fs, job);
    if made.ok && !ReadManifest(made.fs, job).Unreadable? {
      var mf := StartManifest(made.fs, job, req.user, env.now).value;
      assert StartAfterDirs(made, job, req.user, env.now, call, env.run, env.created) == StartRun(mf.1, job, mf.0, call, env.run, env.created);
    }
  }

  /**
    The files a successful stage-1 run wrote stay on disk, so a later job
    whose root is one of them cannot make its directories.
   */
  lemma CreatedFileBlocksJobDirs(fs: Fs, req: StartRequest, env: Env, j: string)
    requires EnvOk(env) && ParseMultipliers(req.multipliers, env.parse).Some?
    requires PipelineStart(fs, req, env).reply.Ok?
    requires |Resolve(JobRoot(j))| > 0 && Resolve(JobRoot(j)) in env.created(StartCall(req, ParseMultipliers(req.multipliers, env.parse).value, env))
    ensures !JobDirsCreatable(PipelineStart(fs, req, env).fs, j)
  {
    var mults := ParseMultipliers(req.multipliers, env.parse).value;
    var job := StartJob(req, env);
    var call := StartCall(req, mults, env);
    assert PipelineStart(fs, req, env) == StartAfterDirs(EnsureJobDirs(fs, job), job, req.user, env.now, call, env.run, env.created);
    FileRootBlocksJobDirs(PipelineStart(fs, req, env).fs, j);
  }

  // ---------------------------------------------------------------------
  // POST /pipeline/continue

  datatype Continued = Continued(jobId: string, final: string)

  datatype ContinueStep = ContinueStep(reply: Reply<Continued>, fs: Fs, call: Option<Call>)

  /** The number of stage-1 outputs the final step combines. */
  const Layers: nat := 7

  /** `[1, 1, 1, 1, 1, 1, 1]`. */
  function Ones(n: nat): (r: seq<real>)
    ensures |r| == n && forall k :: 0 <= k < n ==> r[k] == 1.0
  {
    seq(n, _ => 1.0)
  }

  /** The multipliers of the final step: the parsed list, or seven ones when none are given. */
  function ContinueMultipliers(multipliers: Option<string>, parse: string -> Option<real>): Option<seq<real>> {
    if multipliers.Some? && multipliers.value != "" then ParseMultipliers(multipliers.value, parse)
    else Some(Ones(Layers))
  }

  /** The stage-2 call: the first seven outputs, into the job's `final` directory, aligning in `stage2/aligned`. */
  function ContinueCall(outputs: seq<string>, mults: seq<real>, jobId: string, outputFilename: Option<string>, env: Env): (c: Call)
    requires EnvOk(env) && |outputs| >= Layers
    ensures c.inputs == outputs[..Layers] && c.multipliers == mults
    ensures c.alignedDir == JobDirsOf(jobId).stage2Aligned
  {
    var dirs := JobDirsOf(jobId);
    var outName := SanitizeFilename(Some(OrElse(outputFilename, DefaultFinalName)), env.fileId);
    Call(outputs[..Layers], mults, PathString(Resolve(Join(env.cwd, Join(dirs.finalDir, outName)))), dirs.stage2Aligned)
  }

  /** The default `output_filename` of the final step. */
  const DefaultFinalName: string := "final_result.tif"

  function PipelineContinue(
    fs: Fs, jobId: string, multipliers: Option<string>, outputFilename: Option<string>, env: Env): (r: ContinueStep)
    requires EnvOk(env)
  {
    match ReadManifest(fs, jobId)
    case NoManifest => ContinueStep(Error(404), fs, None)
    case Unreadable => ContinueStep(Error(500), fs, None)
    case Loaded(m) =>
      var outputs := m.stage1.outputs;
      if |outputs| < Layers then ContinueStep(Error(400), fs, None)
      else match ContinueMultipliers(multipliers, env.parse)
        case None => ContinueStep(Error(400), fs, None)
        case Some(mults) => ContinueRun(fs, jobId, m, ContinueCall(outputs, mults, jobId, outputFilename, env), env.run, env.created)
  }

  /**
    A continue request past its checks: create the job's directories (a file
    in the way answers 500 before anything runs), run `call`, and on success
    record the files the run wrote and the result in the manifest.
   */
  function ContinueRun(fs: Fs, jobId: string, m: Manifest, call: Call, run: Call -> Outcome, created: Call -> set<seq<string>>): (r: ContinueStep)
    ensures r.call.Some? <==> JobDirsCreatable(fs, jobId)
    ensures r.call.Some? ==> r.call == Some(call)
    ensures !JobDirsCreatable(fs, jobId) || run(call) == Raised ==>
      r.reply == Error(500) && ReadManifest(r.fs, jobId) == ReadManifest(fs, jobId)
    ensures JobDirsCreatable(fs, jobId) && run(call).Returned? ==>
      && r.reply == Ok(Continued(jobId, run(call).path))
      && StoredManifest(r.fs, jobId)
         == Some(m.(status := Done, stage1 := m.stage1.(done := true), stage2 := Stage2(true, Some(run(call).path))))
      && created(call) <= r.fs.files && created(call) <= r.fs.entries
  {
    var made := EnsureJobDirs(fs, jobId);
    var fs1 := made.fs;
    EnsureJobDirsKeepsManifest(fs, jobId);
    if !made.ok then ContinueStep(Error(500), fs1, None)
    else match run(call)
    case Raised => ContinueStep(Error(500), fs1, Some(call))
    case Returned(result) =>
      var m' := m.(status := Done, stage1 := m.stage1.(done := true), stage2 := Stage2(true, Some(result)));
      ContinueStep(Ok(Continued(jobId, result)), WriteManifest(AddFiles(fs1, created(call)), jobId, m'), Some(call))
  }

  /**
    Continue rejects before touching anything: 404 when nothing is at the
    manifest path, 500 when something there is not a manifest, 400 with
    fewer than seven stage-1 outputs, 400 for unparsable multipliers.
   */
  lemma ContinueRejections(fs: Fs, jobId: string, multipliers: Option<string>, outputFilename: Option<string>, env: Env)
    requires EnvOk(env)
    ensures var r := PipelineContinue(fs, jobId, multipliers, outputFilename, env);
      && (ReadManifest(fs, jobId).NoManifest? ==> r == ContinueStep(Error(404), fs, None))
      && (ReadManifest(fs, jobId).Unreadable? ==> r == ContinueStep(Error(500), fs, None))
      && (r.reply == Error(404) <==> ReadManifest(fs, jobId).NoManifest?)
      && (StoredManifest(fs, jobId).Some? && |StoredManifest(fs, jobId).value.stage1.outputs| < 7 ==>
            r == ContinueStep(Error(400), fs, None))
      && (StoredManifest(fs, jobId).Some? && |StoredManifest(fs, jobId).value.stage1.outputs| >= 7
          && multipliers.Some? && multipliers.value != "" && ParseMultipliers(multipliers.value, env.parse).None? ==>
            r == ContinueStep(Error(400), fs, None))
      && (r.reply.Ok? ==> StoredManifest(fs, jobId).Some?)
  {
  }

  /**
    A continue request that passes the checks, and whose job directories can
    be made, combines exactly the first seven stage-1 outputs, in manifest
    order, with the given multipliers or seven ones, into the job's `final`
    directory using `stage2/aligned`.
   */
  lemma ContinueRunsFirstSeven(fs: Fs, jobId: string, multipliers: Option<string>, outputFilename: Option<string>, env: Env)
    requires EnvOk(env)
    requires StoredManifest(fs, jobId).Some? && |StoredManifest(fs, jobId).value.stage1.outputs| >= Layers
    requires ContinueMultipliers(multipliers, env.parse).Some?
    ensures var r := PipelineContinue(fs, jobId, multipliers, outputFilename, env);
      var outputs := StoredManifest(fs, jobId).value.stage1.outputs;
      && (r.call.Some? <==> JobDirsCreatable(fs, jobId))
      && (r.call.Some? ==>
            && r.call.value.inputs == outputs[..Layers]
            && r.call.value.multipliers == ContinueMultipliers(multipliers, env.parse).value
            && r.call.value.alignedDir == JobDirsOf(jobId).stage2Aligned)
  {
    var m := StoredManifest(fs, jobId).value;
    var mults := ContinueMultipliers(multipliers, env.parse).value;
    var call := ContinueCall(m.stage1.outputs, mults, jobId, outputFilename, env);
    assert PipelineContinue(fs, jobId, multipliers, outputFilename, env) == ContinueRun(fs, jobId, m, call, env.run, env.created);
  }

  /** Where the stage-2 call writes: inside `final`, or that directory itself for ".". */
  lemma ContinueCallName(outputs: seq<string>, mults: seq<real>, jobId: string, outputFilename: Option<string>, env: Env)
    requires EnvOk(env) && |outputs| >= Layers
    ensures var name := SanitizeFilename(Some(OrElse(outputFilename, DefaultFinalName)), env.fileId);
      var dir := Resolve(Join(env.cwd, JobDirsOf(jobId).finalDir));
      var out := ContinueCall(outputs, mults, jobId, outputFilename, env).output;
      && CleanName(name)
      && (name == "." ==> out == PathString(dir))
      && (name != "." ==> out == PathString(dir + [name]) && Basename(out) == name)
  {
    var dirs := JobDirsOf(jobId);
    var name := SanitizeFilename(Some(OrElse(outputFilename, DefaultFinalName)), env.fileId);
    OutputLocation(env.cwd, dirs.finalDir, name);
  }

  /**
    The final output is the resolved `final` directory with the sanitised
    form of the requested file name ("final_result.tif" when none is given)
    as its last component; a name sanitised to "." resolves to the directory
    itself.
   */
  lemma ContinueOutputName(fs: Fs, jobId: string, multipliers: Option<string>, outputFilename: Option<string>, env: Env)
    requires EnvOk(env)
    requires StoredManifest(fs, jobId).Some? && |StoredManifest(fs, jobId).value.stage1.outputs| >= Layers
    requires ContinueMultipliers(multipliers, env.parse).Some?
    ensures var r := PipelineContinue(fs, jobId, multipliers, outputFilename, env);
      var name := SanitizeFilename(Some(OrElse(outputFilename, DefaultFinalName)), env.fileId);
      var dir := Resolve(Join(env.cwd, JobDirsOf(jobId).finalDir));
      && (r.call.Some? <==> JobDirsCreatable(fs, jobId))
      && CleanName(name)
      && (r.call.Some? && name == "." ==> r.call.value.output == PathString(dir))
      && (r.call.Some? && name != "." ==>
            r.call.value.output == PathString(dir + [name]) && Basename(r.call.value.output) == name)
  {
    var m := StoredManifest(fs, jobId).value;
    var mults := ContinueMultipliers(multipliers, env.parse).value;
    var call := ContinueCall(m.stage1.outputs, mults, jobId, outputFilename, env);
    assert PipelineContinue(fs, jobId, multipliers, outputFilename, env) == ContinueRun(fs, jobId, m, call, env.run, env.created);
    ContinueCallName(m.stage1.outputs, mults, jobId, outputFilename, env);
  }

  /** Without multipliers the final step weighs each of the seven layers by one. */
  lemma DefaultMultipliersAreOnes(parse: string -> Option<real>)
    ensures ContinueMultipliers(None, parse) == Some([1.0, 1.0, 1.0, 1.0, 1.0, 1.0, 1.0])
    ensures ContinueMultipliers(Some(""), parse) == Some([1.0, 1.0, 1.0, 1.0, 1.0, 1.0, 1.0])
  {
    var ones := Ones(Layers);
    assert ones == [1.0, 1.0, 1.0, 1.0, 1.0, 1.0, 1.0];
  }

  /**
    The manifest transition of a successful continue: status `done`,
    `stage1.done` set, `stage2` holding the result; the stage-1 outputs, the
    job id, the user and the creation time are unchanged.
   */
  lemma ContinueTransition(fs: Fs, jobId: string, multipliers: Option<string>, outputFilename: Option<string>, env: Env)
    requires EnvOk(env)
    requires PipelineContinue(fs, jobId, multipliers, outputFilename, env).reply.Ok?
    ensures var r := PipelineContinue(fs, jobId, multipliers, outputFilename, env);
      var m := StoredManifest(fs, jobId).value;
      var m' := StoredManifest(r.fs, jobId);
      && m'.Some?
      && m'.value.status == Done
      && m'.value.stage1.done
      && m'.value.stage2 == Stage2(true, Some(r.reply.value.final))
      && m'.value.stage1.outputs == m.stage1.outputs
      && m'.value.jobId == m.jobId && m'.value.user == m.user && m'.value.createdAt == m.createdAt
  {
    var m := StoredManifest(fs, jobId);
    var mults := ContinueMultipliers(multipliers, env.parse);
    if m.Some? && |m.value.stage1.outputs| >= Layers && mults.Some? {
      var call := ContinueCall(m.value.stage1.outputs, mults.value, jobId, outputFilename, env);
      assert PipelineContinue(fs, jobId, multipliers, outputFilename, env) == ContinueRun(fs, jobId, m.value, call, env.run, env.created);
    }
  }

  /** A stage-2 run that raises answers 500 and leaves the manifest as it was. */
  lemma ContinueRaisedKeepsManifest(
    fs: Fs, jobId: string, multipliers: Option<string>, outputFilename: Option<string>, env: Env)
    requires EnvOk(env)
    requires StoredManifest(fs, jobId).Some? && |StoredManifest(fs, jobId).value.stage1.outputs| >= Layers
    requires ContinueMultipliers(multipliers, env.parse).Some?
    requires env.run(ContinueCall(StoredManifest(fs, jobId).value.stage1.outputs,
                                  ContinueMultipliers(multipliers, env.parse).value, jobId, outputFilename, env)) == Raised
    ensures var r := PipelineContinue(fs, jobId, multipliers, outputFilename, env);
      r.reply == Error(500) && StoredManifest(r.fs, jobId) == StoredManifest(fs, jobId)
  {
    var m := StoredManifest(fs, jobId).value;
    var mults := ContinueMultipliers(multipliers, env.parse).value;
    var call := ContinueCall(m.stage1.outputs, mults, jobId, outputFilename, env);
    assert PipelineContinue(fs, jobId, multipliers, outputFilename, env) == ContinueRun(fs, jobId, m, call, env.run, env.created);
  }

  // ---------------------------------------------------------------------
  // DELETE /pipeline/{job_id} and POST /pipeline/close

  datatype Removal = Removal(reply: Reply<bool>, fs: Fs)

  function PipelineDelete(fs: Fs, jobId: string): (r: Removal)
    ensures !Exists(fs, JobRoot(jobId)) <==> r == Removal(Error(404), fs)
    ensures r.reply.Ok? ==> r.reply.value
    ensures r.reply.Ok? && Resolve(JobRoot(jobId)) !in fs.files && !KeepsRoot(jobId) ==>
      !Exists(r.fs, JobRoot(jobId)) && StoredManifest(r.fs, jobId).None?
    ensures r.reply.Ok? && Resolve(JobRoot(jobId)) !in fs.files && KeepsRoot(jobId) ==>
      Exists(r.fs, JobRoot(jobId)) && StoredManifest(r.fs, jobId).None?
    ensures Resolve(JobRoot(jobId)) in fs.files ==> r.fs == fs
  {
    CleanupRemovesJob(fs, jobId);
    if !Exists(fs, JobRoot(jobId)) then Removal(Error(404), fs)
    else Removal(Ok(true), CleanupJob(fs, jobId))
  }

  /**
    Deleting a job twice: the second request finds nothing and answers 404.
    A root that is a file survives, and the second request repeats the
    first; so does a root whose path ends in "..", which the first request
    has emptied.
   */
  lemma DeleteTwice(fs: Fs, jobId: string)
    requires Exists(fs, JobRoot(jobId))
    ensures Resolve(JobRoot(jobId)) !in fs.files && !KeepsRoot(jobId) ==>
      PipelineDelete(PipelineDelete(fs, jobId).fs, jobId).reply == Error(404)
    ensures Resolve(JobRoot(jobId)) in fs.files || KeepsRoot(jobId) ==>
      PipelineDelete(PipelineDelete(fs, jobId).fs, jobId) == PipelineDelete(fs, jobId)
  {
    CleanupTwice(fs, jobId);
  }

  /** The job id of a close request: the query parameter, else the form field, else the JSON field. */
  function CloseJobId(query: Option<string>, form: Option<string>, json: Option<string>): (id: Option<string>)
    ensures id.Some? ==> id.value != ""
    ensures id.None? <==> OrElse(query, "") == "" && OrElse(form, "") == "" && OrElse(json, "") == ""
    ensures OrElse(query, "") != "" ==> id == query
    ensures OrElse(query, "") == "" && OrElse(form, "") != "" ==> id == form
  {
    if OrElse(query, "") != "" then query
    else if OrElse(form, "") != "" then form
    else if OrElse(json, "") != "" then json
    else None
  }

  /**
    `/pipeline/close`: 400 when no job id is found anywhere; otherwise
    `{ok: true}`, and the job is cleaned up (by a background task, here run
    to completion) exactly when its root exists.
   */
  function PipelineClose(fs: Fs, query: Option<string>, form: Option<string>, json: Option<string>): (r: Removal)
    ensures CloseJobId(query, form, json).None? <==> r == Removal(Error(400), fs)
    ensures CloseJobId(query, form, json).Some? ==> r.reply == Ok(true)
  {
    match CloseJobId(query, form, json)
    case None => Removal(Error(400), fs)
    case Some(id) =>
      if Exists(fs, JobRoot(id)) then Removal(Ok(true), CleanupJob(fs, id)) else Removal(Ok(true), fs)
  }

  /** Closing is idempotent: a second close of the same job changes nothing more. */
  lemma CloseIdempotent(fs: Fs, query: Option<string>, form: Option<string>, json: Option<string>)
    ensures var once := PipelineClose(fs, query, form, json);
      PipelineClose(once.fs, query, form, json) == once
  {
    var id := CloseJobId(query, form, json);
    if id.Some? && Exists(fs, JobRoot(id.value)) {
      CleanupRemovesJob(fs, id.value);
      CleanupTwice(fs, id.value);
    }
  }

  lemma CleanupTwice(fs: Fs, j: string)
    ensures CleanupJob(CleanupJob(fs, j), j) == CleanupJob(fs, j)
  {
  }

  /**
    As written, `?job_id=..` passes the checks and its cleanup empties the
    whole `app` directory: every job's manifest and root are gone, and only
    `app` itself stays.
   */
  lemma CloseDotDotRemovesEveryJob(fs: Fs, k: string)
    requires Exists(fs, "app") && ValidJobId(k)
    ensures var r := PipelineClose(fs, Some(".."), None, None);
      && r.reply == Ok(true)
      && (["app"] !in fs.files ==> StoredManifest(r.fs, k).None? && !Exists(r.fs, JobRoot(k)) && Exists(r.fs, "app"))
      && (["app"] in fs.files ==> r.fs == fs)
  {
    assert Resolve("app") == ["app"] by {
      SplitNoSep("app", '/');
      NormalizePlain(["app"]);
    }
    DotDotJobRootIsApp();
    assert PipelineClose(fs, Some(".."), None, None) == Removal(Ok(true), CleanupJob(fs, ".."));
    DotDotCleanupRemovesEveryJob(fs, k);
  }

  /** The close endpoint with the job id checked before any cleanup. */
  function PipelineCloseChecked(fs: Fs, query: Option<string>, form: Option<string>, json: Option<string>): (r: Removal)
    ensures CloseJobId(query, form, json).None? ==> r == Removal(Error(400), fs)
    ensures r.fs != fs ==> CloseJobId(query, form, json).Some? && ValidJobId(CloseJobId(query, form, json).value)
  {
    match CloseJobId(query, form, json)
    case None => Removal(Error(400), fs)
    case Some(id) =>
      if !ValidJobId(id) then Removal(Error(400), fs)
      else if Exists(fs, JobRoot(id)) then Removal(Ok(true), CleanupJob(fs, id)) else Removal(Ok(true), fs)
  }

  /**
    With the check, closing a job removes only that job's own directory:
    every other job keeps its root and its manifest.
   */
  lemma CheckedCloseKeepsOtherJobs(fs: Fs, query: Option<string>, form: Option<string>, json: Option<string>, k: string)
    requires ValidJobId(k) && CloseJobId(query, form, json) != Some(k)
    ensures var r := PipelineCloseChecked(fs, query, form, json);
      && (Exists(r.fs, JobRoot(k)) <==> Exists(fs, JobRoot(k)))
      && StoredManifest(r.fs, k) == StoredManifest(fs, k)
  {
    var id := CloseJobId(query, form, json);
    if id.Some? && ValidJobId(id.value) {
      CleanupKeepsOtherJobs(fs, id.value, k);
    }
  }
}

=== FILE: pipeline_utils.dfy ===
/**
  The per-job layout under `app/pipelines`, the job manifest, and the file
  name sanitiser. The disk is a set of existing locations plus the
  manifests stored at some of them.
 */
module PipelineUtils {
  import opened Optional
  import opened Strings
  import opened Paths

  /** `BASE_PIPE`. */
  const BasePipe: string := "app/pipelines"

  /** `job_root(job_id)`: `BASE_PIPE / job_id` (an absolute id replaces the base). */
  function JobRoot(jobId: string): string {
    Join(BasePipe, jobId)
  }

  /**
    Where a path string lands once the operating system resolves it: its
    normal form, marked "/" when absolute and otherwise relative to the
    server's working directory.
   */
  function Resolve(p: string): seq<string> {
    (if |p| > 0 && p[0] == '/' then ["/"] else []) + Normalize(Components(p))
  }

  /** `loc` is `root` or lies somewhere below it. */
  predicate Under(loc: seq<string>, root: seq<string>) {
    |root| <= |loc| && loc[..|root|] == root
  }

  /** A path component that names itself: not empty, no slash, not "." or "..". */
  predicate PlainName(c: string) {
    c != "" && c != "." && c != ".." && '/' !in c
  }

  /**
    What the server may safely use as a job id: a single plain component,
    without a backslash either.
   */
  predicate ValidJobId(j: string) {
    PlainName(j) && '\\' !in j
  }

  predicate IsHexDigit(c: char) {
    '0' <= c <= '9' || 'a' <= c <= 'f'
  }

  /** What `new_job_id()` returns: the first eight hex digits of a random UUID. */
  predicate FreshId(j: string) {
    |j| == 8 && forall k :: 0 <= k < |j| ==> IsHexDigit(j[k])
  }

  lemma FreshIdIsValid(j: string)
    requires FreshId(j)
    ensures ValidJobId(j)
  {
    assert j[0] in j && IsHexDigit(j[0]);
    assert '/' !in j && '\\' !in j by {
      forall k | 0 <= k < |j| ensures j[k] != '/' && j[k] != '\\' {
        assert IsHexDigit(j[k]);
      }
    }
  }

  /**
    The disk: every location that exists, those of them that are not
    directories (regular files and symbolic links), and the manifest held
    at some of them.
   */
  datatype Fs = Fs(entries: set<seq<string>>, files: set<seq<string>>, manifests: map<seq<string>, Manifest>)

  datatype Status = Created | Stage1Partial | Done

  datatype Stage1 = Stage1(done: bool, outputs: seq<string>)

  datatype Stage2 = Stage2(done: bool, output: Option<string>)

  /** The JSON manifest of a job. */
  datatype Manifest = Manifest(
    jobId: string, user: Option<string>, createdAt: real, status: Status, stage1: Stage1, stage2: Stage2)

  predicate Exists(fs: Fs, p: string) {
    Resolve(p) in fs.entries
  }

  /** The directories `ensure_job_dirs` returns, keyed as in its dictionary. */
  datatype JobDirs = JobDirs(
    root: string, stage1Inputs: string, stage1Outputs: string, stage1Aligned: string,
    stage2Aligned: string, stage2Work: string, finalDir: string)

  function JobDirsOf(jobId: string): JobDirs {
    var root := JobRoot(jobId);
    JobDirs(
      root,
      Join(Join(root, "stage1"), "inputs"),
      Join(Join(root, "stage1"), "outputs"),
      Join(Join(root, "stage1"), "aligned"),
      Join(Join(root, "stage2"), "aligned"),
      Join(Join(root, "stage2"), "work"),
      Join(root, "final"))
  }

  /** The six working directories, in the order they are created. */
  function WorkDirs(d: JobDirs): seq<string> {
    [d.stage1Inputs, d.stage1Outputs, d.stage1Aligned, d.stage2Work, d.finalDir, d.stage2Aligned]
  }

  /** Every non-empty leading part of a location: what `mkdir(parents=True)` leaves in place. */
  function Ancestors(loc: seq<string>): set<seq<string>> {
    set k | 1 <= k <= |loc| :: loc[..k]
  }

  /**
    `mkdir(parents=True, exist_ok=True)` of `loc` raises: the location or one
    of its parents is a file, so the walk down to it fails (`FileExistsError`
    or `NotADirectoryError`) before anything is created.
   */
  predicate MkdirBlocked(files: set<seq<string>>, loc: seq<string>) {
    exists k :: 1 <= k <= |loc| && loc[..k] in files
  }

  /**
    `p.mkdir(parents=True, exist_ok=True)` for each directory in turn: the
    locations afterwards, and whether every call returned. The first call
    that raises ends the loop; the directories made before it stay.
   */
  function MakeDirs(entries: set<seq<string>>, files: set<seq<string>>, dirs: seq<string>): (r: (set<seq<string>>, bool))
    ensures entries <= r.0
    ensures r.1 <==> forall k :: 0 <= k < |dirs| ==> !MkdirBlocked(files, Resolve(dirs[k]))
    ensures forall k :: 0 <= k < |dirs| && (forall i :: 0 <= i <= k ==> !MkdirBlocked(files, Resolve(dirs[i]))) ==>
      Resolve(dirs[k]) in r.0
    // nothing is made but the directories and their parents
    ensures forall e :: e in r.0 && e !in entries ==> exists k :: 0 <= k < |dirs| && Under(Resolve(dirs[k]), e)
    decreases |dirs|
  {
    if |dirs| == 0 then (entries, true)
    else if MkdirBlocked(files, Resolve(dirs[0])) then (entries, false)
    else
      var loc := Resolve(dirs[0]);
      var made := entries + Ancestors(loc) + {loc};
      var r := MakeDirs(made, files, dirs[1..]);
      assert forall k :: 1 <= k < |dirs| ==> dirs[k] == dirs[1..][k - 1];
      assert forall e :: e in made && e !in entries ==> Under(loc, e) by {
        forall e | e in Ancestors(loc) ensures Under(loc, e) {
          var k :| 1 <= k <= |loc| && e == loc[..k];
        }
      }
      r
  }

  /** No working directory of the job has a file on its way: `ensure_job_dirs` returns. */
  predicate JobDirsCreatable(fs: Fs, jobId: string) {
    forall k :: 0 <= k < 6 ==> !MkdirBlocked(fs.files, Resolve(WorkDirs(JobDirsOf(jobId))[k]))
  }

  /** The directories `ensure_job_dirs` built, the disk afterwards, and whether it returned. */
  datatype Made = Made(dirs: JobDirs, fs: Fs, ok: bool)

  /**
    `ensure_job_dirs(job_id)`: create the six working directories with their
    parents and return them; it raises when a file is in the way.
   */
  function EnsureJobDirs(fs: Fs, jobId: string): (r: Made)
    ensures r.dirs == JobDirsOf(jobId)
    ensures r.fs.manifests == fs.manifests && r.fs.files == fs.files && fs.entries <= r.fs.entries
    ensures r.ok <==> JobDirsCreatable(fs, jobId)
    ensures r.ok ==> forall k :: 0 <= k < 6 ==> Exists(r.fs, WorkDirs(r.dirs)[k])
  {
    var d := JobDirsOf(jobId);
    var (entries, ok) := MakeDirs(fs.entries, fs.files, WorkDirs(d));
    Made(d, fs.(entries := entries), ok)
  }

  /** `manifest_path(job_id)`. */
  function ManifestPath(jobId: string): string {
    Join(JobRoot(jobId), "manifest.json")
  }

  /** The manifest last written at the job's manifest path, if that path holds one. */
  function StoredManifest(fs: Fs, jobId: string): (m: Option<Manifest>)
    ensures m.None? <==> Resolve(ManifestPath(jobId)) !in fs.manifests
  {
    var loc := Resolve(ManifestPath(jobId));
    if loc in fs.manifests then Some(fs.manifests[loc]) else None
  }

  /** What `read_manifest` gives: the empty dictionary, a manifest, or an exception. */
  datatype ManifestRead = NoManifest | Loaded(manifest: Manifest) | Unreadable

  /**
    `read_manifest(job_id)`: the empty dictionary when nothing exists at the
    manifest path; the manifest stored there; and when something else is
    there (a directory, or a file that is not a manifest) `read_text` or
    `json.loads` raises.
   */
  function ReadManifest(fs: Fs, jobId: string): (r: ManifestRead)
    ensures r.Loaded? <==> StoredManifest(fs, jobId).Some?
    ensures r.Loaded? ==> r.manifest == StoredManifest(fs, jobId).value
    ensures r.NoManifest? <==> !Exists(fs, ManifestPath(jobId)) && StoredManifest(fs, jobId).None?
    ensures r.Unreadable? <==> Exists(fs, ManifestPath(jobId)) && StoredManifest(fs, jobId).None?
  {
    var loc := Resolve(ManifestPath(jobId));
    if loc in fs.manifests then Loaded(fs.manifests[loc])
    else if loc in fs.entries then Unreadable
    else NoManifest
  }

  /** `write_manifest(job_id, data)`. */
  function WriteManifest(fs: Fs, jobId: string, m: Manifest): Fs {
    var loc := Resolve(ManifestPath(jobId));
    fs.(entries := fs.entries + {loc}, files := fs.files + {loc}, manifests := fs.manifests[loc := m])
  }

  /** `init_manifest(job_id, user)` at time `now`: write the initial manifest and return it. */
  function InitManifest(fs: Fs, jobId: string, user: Option<string>, now: real): (r: (Manifest, Fs))
    ensures r.0.jobId == jobId && r.0.user == user && r.0.createdAt == now
    ensures r.0.status == Created
    ensures r.0.stage1 == Stage1(false, []) && r.0.stage2 == Stage2(false, None)
    ensures StoredManifest(r.1, jobId) == Some(r.0)
  {
    var m := Manifest(jobId, user, now, Created, Stage1(false, []), Stage2(false, None));
    (m, WriteManifest(fs, jobId, m))
  }

  /** Files a computation writes: they exist afterwards, and no manifest is left at them. */
  function AddFiles(fs: Fs, locs: set<seq<string>>): Fs {
    Fs(fs.entries + locs, fs.files + locs, map l | l in fs.manifests && l !in locs :: fs.manifests[l])
  }

  /**
    The job root's path ends in "..": `rmtree` empties the directory it
    names, but its final `rmdir` of a path ending in ".." fails, and the
    directory itself stays.
   */
  predicate KeepsRoot(jobId: string) {
    PathName(JobRoot(jobId)) == ".."
  }

  /** What `rmtree` of `root` removes: everything below it, and the root unless it is kept. */
  predicate Removes(loc: seq<string>, root: seq<string>, keepRoot: bool) {
    Under(loc, root) && !(keepRoot && loc == root)
  }

  /**
    `cleanup_job(job_id)`: remove the job root and everything below it;
    nothing if it is absent. When the root is not a directory `rmtree`
    raises, `ignore_errors` swallows the error, and the disk is unchanged.
   */
  function CleanupJob(fs: Fs, jobId: string): (r: Fs)
    ensures Resolve(JobRoot(jobId)) in fs.files ==> r == fs
    ensures r.entries <= fs.entries && r.files <= fs.files && r.manifests.Keys <= fs.manifests.Keys
    ensures forall e :: e in fs.entries && !Under(e, Resolve(JobRoot(jobId))) ==> e in r.entries
    ensures Resolve(JobRoot(jobId)) !in fs.files ==>
      forall e :: e in r.entries ==> !Under(e, Resolve(JobRoot(jobId))) || (KeepsRoot(jobId) && e == Resolve(JobRoot(jobId)))
    ensures KeepsRoot(jobId) && Resolve(JobRoot(jobId)) in fs.entries ==> Resolve(JobRoot(jobId)) in r.entries
  {
    var root := Resolve(JobRoot(jobId));
    var keep := KeepsRoot(jobId);
    if root in fs.files then fs
    else
      Fs(set e | e in fs.entries && !Removes(e, root, keep),
         set f | f in fs.files && !Removes(f, root, keep),
         map l | l in fs.manifests && !Removes(l, root, keep) :: fs.manifests[l])
  }


  // ---------------------------------------------------------------------
  // Resolving joined paths

  lemma {:induction false} NormalizeFromAppend(done: seq<string>, a: seq<string>, b: seq<string>)
    requires forall k :: 0 <= k < |done| ==> done[k] != "" && done[k] != "."
    ensures NormalizeFrom(done, a + b) == NormalizeFrom(NormalizeFrom(done, a), b)
    decreases |a|
  {
    if |a| == 0 {
      assert a + b == b;
    } else {
      assert (a + b)[0] == a[0] && (a + b)[1..] == a[1..] + b;
      var d' := if a[0] == "" || a[0] == "." then done
        else if a[0] == ".." && |done| > 0 && done[|done| - 1] != ".." then done[..|done| - 1]
        else done + [a[0]];
      NormalizeFromAppend(d', a[1..], b);
    }
  }

  /** Joining a plain name onto a non-empty path resolves to one more component. */
  lemma ResolveJoin(p: string, name: string)
    requires |p| > 0 && PlainName(name)
    ensures Resolve(Join(p, name)) == Resolve(p) + [name]
  {
    SplitAppend(p, name, '/');
    SplitNoSep(name, '/');
    NormalizeFromAppend([], Components(p), [name]);
    NormalizePlainNames(Normalize(Components(p)), [name]);
    assert Join(p, name)[0] == p[0];
  }

  /** Joining "." onto a non-empty path resolves to the path itself. */
  lemma ResolveJoinDot(p: string)
    requires |p| > 0
    ensures Resolve(Join(p, ".")) == Resolve(p)
  {
    SplitAppend(p, ".", '/');
    SplitNoSep(".", '/');
    NormalizeFromAppend([], Components(p), ["."]);
    assert Join(p, ".")[0] == p[0];
  }

  /**
    Where a sanitised name lands when joined onto a non-empty directory: the
    directory itself for ".", and one component further down otherwise.
   */
  lemma ResolveJoinClean(p: string, name: string)
    requires |p| > 0 && CleanName(name)
    ensures name == "." ==> Resolve(Join(p, name)) == Resolve(p)
    ensures name != "." ==> PlainName(name) && Resolve(Join(p, name)) == Resolve(p) + [name]
  {
    if name == "." {
      ResolveJoinDot(p);
    } else {
      assert name == ".." ==> DotDotAt(name, 0);
      ResolveJoin(p, name);
    }
  }

  /**
    `str()` of a resolved location: "/" and the components after it for an
    absolute one, the components joined by "/" (or ".") for a relative one.
   */
  function PathString(loc: seq<string>): string {
    if |loc| > 0 && loc[0] == "/" then
      if |loc| == 1 then "/" else "/" + JoinWith(loc[1..], '/')
    else if |loc| == 0 then "."
    else JoinWith(loc, '/')
  }

  /** The last component of the string form of `loc + [name]` is `name`. */
  lemma BasenamePathStringSnoc(loc: seq<string>, name: string)
    requires PlainName(name)
    ensures Basename(PathString(loc + [name])) == name
  {
    var all := loc + [name];
    if |loc| > 0 && loc[0] == "/" {
      assert all[0] == "/" && all[1..] == loc[1..] + [name];
      if |loc| == 1 {
        assert PathString(all) == "" + "/" + name;
        BasenameJoin("", name);
      } else {
        JoinWithSnoc(loc[1..], name, '/');
        var x := "/" + JoinWith(loc[1..], '/');
        assert PathString(all) == x + "/" + name;
        BasenameJoin(x, name);
      }
    } else if |loc| == 0 {
      assert all == [name];
    } else {
      assert all[0] == loc[0];
      JoinWithSnoc(loc, name, '/');
      BasenameJoin(JoinWith(loc, '/'), name);
    }
  }

  lemma BaseSplit()
    ensures Components("app/pipelines") == ["app", "pipelines"]
  {
    assert "app/pipelines" == "app" + ['/'] + "pipelines";
    SplitTwo("app", "pipelines", '/');
  }

  lemma BaseComponents()
    ensures Components(BasePipe) == ["app", "pipelines"]
    ensures |BasePipe| > 0 && BasePipe[0] == 'a'
  {
    BaseSplit();
  }

  lemma JobRootComponents(j: string)
    requires '/' !in j
    ensures Components(JobRoot(j)) == ["app", "pipelines", j]
    ensures JobRoot(j)[0] == 'a'
  {
    BaseComponents();
    SplitAppend(BasePipe, j, '/');
    SplitNoSep(j, '/');
  }

  lemma NormalizePlain(cs: seq<string>)
    requires forall k :: 0 <= k < |cs| ==> PlainName(cs[k])
    ensures Normalize(cs) == cs
  {
    NormalizePlainNames([], cs);
  }

  /** A valid job id names its own directory strictly inside `app/pipelines`. */
  lemma ValidJobRoot(j: string)
    requires ValidJobId(j)
    ensures Resolve(JobRoot(j)) == ["app", "pipelines", j]
  {
    JobRootComponents(j);
    NormalizePlain(["app", "pipelines", j]);
  }

  /** The manifest lies directly inside the job root, whatever the id. */
  lemma ManifestInsideJobRoot(j: string)
    ensures Resolve(ManifestPath(j)) == Resolve(JobRoot(j)) + ["manifest.json"]
    ensures Under(Resolve(ManifestPath(j)), Resolve(JobRoot(j)))
  {
    assert |JobRoot(j)| > 0;
    ResolveJoin(JobRoot(j), "manifest.json");
  }

  lemma ResolveJoin2(p: string, a: string, b: string)
    requires |p| > 0 && PlainName(a) && PlainName(b)
    ensures Resolve(Join(Join(p, a), b)) == Resolve(p) + [a, b]
  {
    ResolveJoin(p, a);
    assert |Join(p, a)| > 0;
    ResolveJoin(Join(p, a), b);
  }

  /** Each working directory sits at its own fixed place inside the job root. */
  lemma JobDirsLayout(j: string)
    ensures var d := JobDirsOf(j);
      var r := Resolve(JobRoot(j));
      && d.root == JobRoot(j)
      && Resolve(d.stage1Inputs) == r + ["stage1", "inputs"]
      && Resolve(d.stage1Outputs) == r + ["stage1", "outputs"]
      && Resolve(d.stage1Aligned) == r + ["stage1", "aligned"]
      && Resolve(d.stage2Aligned) == r + ["stage2", "aligned"]
      && Resolve(d.stage2Work) == r + ["stage2", "work"]
      && Resolve(d.finalDir) == r + ["final"]
  {
    var root := JobRoot(j);
    assert |root| > 0;
    assert PlainName("stage1") && PlainName("stage2");
    ResolveJoin2(root, "stage1", "inputs");
    ResolveJoin2(root, "stage1", "outputs");
    ResolveJoin2(root, "stage1", "aligned");
    ResolveJoin2(root, "stage2", "aligned");
    ResolveJoin2(root, "stage2", "work");
    ResolveJoin(root, "final");
  }

  lemma {:induction false} DistinctTails(r: seq<string>, locs: seq<seq<string>>)
    requires |locs| == 6
    requires locs == [r + ["stage1", "inputs"], r + ["stage1", "outputs"], r + ["stage1", "aligned"],
                      r + ["stage2", "work"], r + ["final"], r + ["stage2", "aligned"]]
    ensures forall k :: 0 <= k < 6 ==> Under(locs[k], r) && |locs[k]| > |r|
    ensures forall k1, k2 :: 0 <= k1 < k2 < 6 ==> locs[k1] != locs[k2]
  {
    var n := |r|;
    var tails := [["stage1", "inputs"], ["stage1", "outputs"], ["stage1", "aligned"],
                  ["stage2", "work"], ["final"], ["stage2", "aligned"]];
    forall k | 0 <= k < 6
      ensures Under(locs[k], r) && |locs[k]| > n && locs[k][n..] == tails[k]
    {
      assert locs[k] == r + tails[k];
    }
    forall k1, k2 | 0 <= k1 < k2 < 6
      ensures locs[k1] != locs[k2]
    {
      assert tails[k1] != tails[k2];
    }
  }

  /**
    The six working directories are pairwise distinct, each lies strictly
    inside the job root, and so the two aligned directories differ.
   */
  lemma JobDirsDistinct(j: string)
    ensures var d := JobDirsOf(j);
      var locs := [Resolve(d.stage1Inputs), Resolve(d.stage1Outputs), Resolve(d.stage1Aligned),
                   Resolve(d.stage2Work), Resolve(d.finalDir), Resolve(d.stage2Aligned)];
      && (forall k :: 0 <= k < 6 ==> Under(locs[k], Resolve(d.root)) && |locs[k]| > |Resolve(d.root)|)
      && (forall k1, k2 :: 0 <= k1 < k2 < 6 ==> locs[k1] != locs[k2])
  {
    JobDirsLayout(j);
    var d := JobDirsOf(j);
    DistinctTails(Resolve(JobRoot(j)), [Resolve(d.stage1Inputs), Resolve(d.stage1Outputs), Resolve(d.stage1Aligned),
                   Resolve(d.stage2Work), Resolve(d.finalDir), Resolve(d.stage2Aligned)]);
  }

  /**
    Cleaning a job up removes its root and, with it, its manifest. A root
    that is a file or a link stays as it was; a root whose path ends in
    ".." is emptied but stays.
   */
  lemma CleanupRemovesJob(fs: Fs, j: string)
    ensures Resolve(JobRoot(j)) !in fs.files && !KeepsRoot(j) ==>
      !Exists(CleanupJob(fs, j), JobRoot(j)) && StoredManifest(CleanupJob(fs, j), j) == None
    ensures Resolve(JobRoot(j)) !in fs.files && KeepsRoot(j) ==>
      (Exists(CleanupJob(fs, j), JobRoot(j)) <==> Exists(fs, JobRoot(j))) && StoredManifest(CleanupJob(fs, j), j) == None
    ensures Resolve(JobRoot(j)) in fs.files ==> CleanupJob(fs, j) == fs
  {
    ManifestInsideJobRoot(j);
  }

  /** For valid ids, cleaning one job up leaves every other job's directory and manifest alone. */
  lemma CleanupKeepsOtherJobs(fs: Fs, j: string, k: string)
    requires ValidJobId(j) && ValidJobId(k) && j != k
    ensures Exists(CleanupJob(fs, j), JobRoot(k)) == Exists(fs, JobRoot(k))
    ensures StoredManifest(CleanupJob(fs, j), k) == StoredManifest(fs, k)
  {
    ValidJobRoot(j);
    ValidJobRoot(k);
    ManifestInsideJobRoot(k);
    var mk := Resolve(ManifestPath(k));
    assert mk[..3] != ["app", "pipelines", j] by {
      assert mk[2] == k;
    }
  }

  /** As written, the id ".." names the parent of `app/pipelines`. */
  lemma DotDotJobRootIsApp()
    ensures Resolve(JobRoot("..")) == ["app"]
  {
    JobRootComponents("..");
    DotDotNormal();
  }

  lemma DotDotNormal()
    ensures Normalize(["app", "pipelines", ".."]) == ["app"]
  {
    var cs := ["app", "pipelines", ".."];
    assert cs[1..] == ["pipelines", ".."] && cs[1..][1..] == [".."] && cs[1..][1..][1..] == [];
    assert NormalizeFrom(["app", "pipelines"], [".."]) == NormalizeFrom(["app"], []);
  }

  /** The path of the job ".." ends in "..", so its cleanup keeps the directory it empties. */
  lemma DotDotKeepsRoot()
    ensures KeepsRoot("..")
  {
    BasenameJoin(BasePipe, "..");
  }

  /**
    As written, cleaning up the job ".." removes every job: the manifest and
    the root of any valid job are gone afterwards, and only the emptied
    `app` directory stays (`app` being a directory).
   */
  lemma DotDotCleanupRemovesEveryJob(fs: Fs, k: string)
    requires ValidJobId(k)
    ensures ["app"] !in fs.files ==>
      && StoredManifest(CleanupJob(fs, ".."), k) == None && !Exists(CleanupJob(fs, ".."), JobRoot(k))
      && (["app"] in CleanupJob(fs, "..").entries <==> ["app"] in fs.entries)
    ensures ["app"] in fs.files ==> CleanupJob(fs, "..") == fs
  {
    DotDotJobRootIsApp();
    DotDotKeepsRoot();
    ValidJobRoot(k);
    ManifestInsideJobRoot(k);
    var root := Resolve(JobRoot(k));
    var m := Resolve(ManifestPath(k));
    assert Removes(root, ["app"], true) && Removes(m, ["app"], true) && !Removes(["app"], ["app"], true) by {
      assert root[..1] == ["app"] && m[..1] == ["app"];
    }
  }

  /**
    `ensure_job_dirs(job_id)` makes nothing at the job's own manifest path,
    so what `read_manifest` finds there is the same before and after.
   */
  lemma EnsureJobDirsKeepsManifest(fs: Fs, j: string)
    ensures ReadManifest(EnsureJobDirs(fs, j).fs, j) == ReadManifest(fs, j)
  {
    ManifestNotAJobDir(j);
    MadeOnlyUnderDirs(fs.entries, fs.files, WorkDirs(JobDirsOf(j)), Resolve(ManifestPath(j)));
  }

  /** `MakeDirs` adds a location only when one of the directories lies at or below it. */
  lemma MadeOnlyUnderDirs(entries: set<seq<string>>, files: set<seq<string>>, dirs: seq<string>, loc: seq<string>)
    requires forall d :: d in dirs ==> !Under(Resolve(d), loc)
    ensures loc in MakeDirs(entries, files, dirs).0 ==> loc in entries
  {
    forall k | 0 <= k < |dirs| ensures !Under(Resolve(dirs[k]), loc) {
      assert dirs[k] in dirs;
    }
  }

  /** The manifest location is neither one of the six job directories nor a parent of one. */
  lemma ManifestNotAJobDir(j: string)
    ensures forall d :: d in WorkDirs(JobDirsOf(j)) ==> !Under(Resolve(d), Resolve(ManifestPath(j)))
  {
    var dirs := JobDirsOf(j);
    JobDirsLayout(j);
    SiblingOfManifest(j, dirs.stage1Inputs, ["stage1", "inputs"]);
    SiblingOfManifest(j, dirs.stage1Outputs, ["stage1", "outputs"]);
    SiblingOfManifest(j, dirs.stage1Aligned, ["stage1", "aligned"]);
    SiblingOfManifest(j, dirs.stage2Work, ["stage2", "work"]);
    SiblingOfManifest(j, dirs.finalDir, ["final"]);
    SiblingOfManifest(j, dirs.stage2Aligned, ["stage2", "aligned"]);
  }

  /** A directory that leaves the job root by a name other than "manifest.json" is not at or above the manifest. */
  lemma SiblingOfManifest(j: string, d: string, tail: seq<string>)
    requires |tail| > 0 && tail[0] != "manifest.json"
    requires Resolve(d) == Resolve(JobRoot(j)) + tail
    ensures !Under(Resolve(d), Resolve(ManifestPath(j)))
  {
    ManifestInsideJobRoot(j);
    SiblingNotUnder(Resolve(JobRoot(j)), tail, "manifest.json");
  }

  /** Two locations that part ways right below `root` do not contain each other. */
  lemma SiblingNotUnder(root: seq<string>, tail: seq<string>, name: string)
    requires |tail| > 0 && tail[0] != name
    ensures !Under(root + tail, root + [name])
  {
    var a := root + tail;
    var b := root + [name];
    assert a[..|b|][|root|] == tail[0];
    assert b[|root|] == name;
  }

  lemma FileRootBlocksJobDirs(fs: Fs, j: string)
    ensures |Resolve(JobRoot(j))| > 0 && Resolve(JobRoot(j)) in fs.files ==> !JobDirsCreatable(fs, j)
  {
    var root := Resolve(JobRoot(j));
    JobDirsLayout(j);
    var inputs := Resolve(WorkDirs(JobDirsOf(j))[0]);
    assert inputs == root + ["stage1", "inputs"];
    assert inputs[..|root|] == root;
  }

  /**
    As written, the id "<job>/manifest.json" of a started job names its
    manifest file as a job root, and `ensure_job_dirs` raises for it.
   */
  lemma ManifestAsJobIdFails(fs: Fs, j: string)
    requires ValidJobId(j) && Resolve(ManifestPath(j)) in fs.files
    ensures !JobDirsCreatable(fs, j + "/manifest.json")
  {
    var id := j + "/manifest.json";
    assert Join(j, "manifest.json") == id;
    JoinAssoc(BasePipe, j, "manifest.json");
    assert JobRoot(id) == ManifestPath(j);
    ValidJobRoot(j);
    ManifestInsideJobRoot(j);
    FileRootBlocksJobDirs(fs, id);
  }

  /** The name `sanitize_filename` falls back to, built from a fresh id. */
  function FallbackName(freshId: string): string {
    "file_" + freshId + ".tif"
  }

  /** A name `sanitize_filename` leaves alone: non-empty, no separators, no "..", no surrounding space. */
  predicate CleanName(s: string) {
    |s| > 0 && '/' !in s && '\\' !in s && !HasDotDot(s) && Stripped(s)
  }

  /**
    `sanitize_filename(name)`: the base name (after the last `/`) stripped
    of white space, with "..", "/" and "\" each replaced by "_", or the
    fallback name when nothing is left. `freshId` is the id `new_job_id`
    would produce for the fallback.
   */
  function SanitizeFilename(name: Option<string>, freshId: string): (r: string)
    requires FreshId(freshId)
    ensures CleanName(r)
    ensures Strip(Basename(name.GetOr(""))) == "" ==> r == FallbackName(freshId)
  {
    var base := Strip(Basename(name.GetOr("")));
    var r := Replace(Replace(Replace(base, "..", "_"), "/", "_"), "\\", "_");
    StripChars(Basename(name.GetOr("")));
    SanitizedIsClean(base);
    if r == "" then FallbackIsClean(freshId); FallbackName(freshId) else r
  }

  /**
    `sanitize_filename` as evidently intended: a name that sanitises to "."
    (which a path join silently drops) gets the fallback name as well, so
    the result always names an entry inside the directory it is joined to.
   */
  function SanitizeFilenameChecked(name: Option<string>, freshId: string): (r: string)
    requires FreshId(freshId)
    ensures PlainName(r) && CleanName(r)
    ensures SanitizeFilename(name, freshId) != "." ==> r == SanitizeFilename(name, freshId)
  {
    var s := SanitizeFilename(name, freshId);
    assert s == ".." ==> DotDotAt(s, 0);
    if s == "." then FallbackIsClean(freshId); FallbackName(freshId) else s
  }

  lemma FallbackIsClean(freshId: string)
    requires FreshId(freshId)
    ensures CleanName(FallbackName(freshId))
  {
    var f := FallbackName(freshId);
    FreshIdIsValid(freshId);
    assert forall k :: 0 <= k < |f| ==> f[k] != '/' && f[k] != '\\' by {
      forall k | 0 <= k < |f| ensures f[k] != '/' && f[k] != '\\' {
        if 5 <= k < 13 {
          assert f[k] == freshId[k - 5];
          assert IsHexDigit(freshId[k - 5]);
        }
      }
    }
    assert !HasDotDot(f) by {
      forall i | 0 <= i < |f| - 1 ensures !DotDotAt(f, i) {
        if 5 <= i < 13 {
          assert f[i] == freshId[i - 5];
          assert IsHexDigit(freshId[i - 5]);
        }
      }
    }
  }

  /** The three replacements leave no separator and no "..", and keep a non-blank end. */
  lemma SanitizedIsClean(base: string)
    requires Stripped(base) && '/' !in base
    ensures var r := Replace(Replace(Replace(base, "..", "_"), "/", "_"), "\\", "_");
      && (r == "" <==> base == "")
      && (r != "" ==> CleanName(r))
  {
    var r1 := Replace(base, "..", "_");
    var r2 := Replace(r1, "/", "_");
    var r := Replace(r2, "\\", "_");
    ReplaceDotDotRemovesAll(base, "_");
    ReplaceEnds(base, "..", "_");
    ReplaceChar(r1, '/', '_');
    ReplaceChar(r2, '\\', '_');
    assert "/" == ['/'] && "\\" == ['\\'] && "_" == ['_'];
    assert |r| == |r1|;
    assert forall i :: 0 <= i < |r| ==> r[i] != '/' && r[i] != '\\';
    assert forall i :: 0 <= i < |r| ==> (r[i] == '.' <==> r1[i] == '.');
    assert !HasDotDot(r) by {
      forall i | 0 <= i < |r| - 1 ensures !DotDotAt(r, i) {
        assert !DotDotAt(r1, i);
      }
    }
    if |r| > 0 {
      assert !IsSpace('_');
      assert !IsSpace(r[0]) && !IsSpace(r[|r| - 1]);
    }
  }

  /** A clean name is its own sanitised form. */
  lemma CleanNameIsFixed(s: string, freshId: string)
    requires FreshId(freshId) && CleanName(s)
    ensures SanitizeFilename(Some(s), freshId) == s
  {
    assert Basename(s) == s;
    assert Strip(s) == s;
    ReplaceDotDotAbsent(s, "_");
    ReplaceChar(s, '/', '_');
    ReplaceChar(s, '\\', '_');
    assert "/" == ['/'] && "\\" == ['\\'] && "_" == ['_'];
    assert Replace(s, "/", "_") == s;
    assert Replace(s, "\\", "_") == s;
  }

  /** Sanitising twice gives the same name as sanitising once. */
  lemma SanitizeIdempotent(name: Option<string>, freshId: string, freshId': string)
    requires FreshId(freshId) && FreshId(freshId')
    ensures SanitizeFilename(Some(SanitizeFilename(name, freshId)), freshId') == SanitizeFilename(name, freshId)
  {
    CleanNameIsFixed(SanitizeFilename(name, freshId), freshId');
  }
}

=== FILE: pixel_rule.dfy ===
/**
  What happens to one output pixel of one block: each layer either
  contributes `value * multiplier` or nothing, the validity masks are
  combined with OR, pixels no layer covers are filled with 255.0, and the
  whole block is finally capped below 255.0.
 */
module PixelRule {
  import opened Raster

  /** The no-data value the output band declares and the fill for uncovered pixels. */
  const NoData: real := 255.0

  /** What the final cap writes instead of any value at or above `NoData`. */
  const CapValue: real := 254.999

  /**
    One layer at one pixel: either the layer was skipped for this block (it
    could not be opened or its block read gave None), or it was read, with
    the sample and the no-data value in force for that layer (its declared
    one, 255.0 when it declares none).
   */
  datatype Reading = Skipped | Read(p: Pixel, nodata: real)

  /** A sample is valid when it differs from the layer's no-data value and is neither NaN nor infinite. */
  predicate Valid(rd: Reading) {
    rd.Read? && rd.p.Val? && rd.p.v != rd.nodata
  }

  /** `np.where(valid_mask, array * multiplier, 0)` at one pixel. */
  function Contribution(rd: Reading, m: real): real {
    if Valid(rd) then rd.p.v * m else 0.0
  }

  /** The running `sum_block` after the first `|rs|` layers, each paired with the multiplier at its index. */
  function Sum(rs: seq<Reading>, ms: seq<real>): real
    requires |rs| <= |ms|
  {
    if |rs| == 0 then 0.0
    else Sum(rs[..|rs| - 1], ms) + Contribution(rs[|rs| - 1], ms[|rs| - 1])
  }

  /** The running `valid_mask_global` after the first `|rs|` layers. */
  predicate Mask(rs: seq<Reading>) {
    if |rs| == 0 then false else Mask(rs[..|rs| - 1]) || Valid(rs[|rs| - 1])
  }

  /**
    The fill and the cap as the block loop applies them: pixels outside the
    mask become 255.0, then everything at or above 255.0 becomes 254.999.
   */
  function Finalize(sum: real, mask: bool): (v: real)
    ensures v < NoData
  {
    var filled := if mask then sum else NoData;
    if filled >= NoData then CapValue else filled
  }

  /** The value written for one pixel. */
  function PixelValue(rs: seq<Reading>, ms: seq<real>): real
    requires |rs| <= |ms|
  {
    Finalize(Sum(rs, ms), Mask(rs))
  }

  /** The accumulated mask is exactly the OR of the layer masks. */
  lemma {:induction false} MaskIsOr(rs: seq<Reading>)
    ensures Mask(rs) <==> exists i :: 0 <= i < |rs| && Valid(rs[i])
    decreases |rs|
  {
    if |rs| > 0 {
      var n := |rs| - 1;
      MaskIsOr(rs[..n]);
      if Mask(rs[..n]) {
        var i :| 0 <= i < n && Valid(rs[..n][i]);
        assert Valid(rs[i]);
      }
      if exists i :: 0 <= i < |rs| && Valid(rs[i]) {
        var i :| 0 <= i < |rs| && Valid(rs[i]);
        if i < n {
          assert Valid(rs[..n][i]);
        }
      }
    }
  }

  /** The sum only depends on the multipliers of the layers read so far. */
  lemma {:induction false} SumUsesOwnMultipliers(rs: seq<Reading>, ms: seq<real>, ms': seq<real>)
    requires |rs| <= |ms| && |rs| <= |ms'|
    requires forall i :: 0 <= i < |rs| ==> ms[i] == ms'[i]
    ensures Sum(rs, ms) == Sum(rs, ms')
    decreases |rs|
  {
    if |rs| > 0 {
      SumUsesOwnMultipliers(rs[..|rs| - 1], ms, ms');
    }
  }

  function Remove<T>(s: seq<T>, i: nat): (r: seq<T>)
    requires i < |s|
    ensures |r| == |s| - 1
    ensures forall k :: 0 <= k < i ==> r[k] == s[k]
    ensures forall k :: i <= k < |r| ==> r[k] == s[k + 1]
  {
    s[..i] + s[i + 1..]
  }

  /**
    A layer that is skipped or invalid at a pixel changes neither the sum nor
    the mask there: the result is as if the layer, with its multiplier, were
    not in the lists at all.
   */
  lemma {:induction false} InvalidLayerIsNeutral(rs: seq<Reading>, ms: seq<real>, i: nat)
    requires |rs| <= |ms| && i < |rs|
    requires !Valid(rs[i])
    ensures Sum(rs, ms) == Sum(Remove(rs, i), Remove(ms, i))
    ensures Mask(rs) == Mask(Remove(rs, i))
    decreases |rs|
  {
    var n := |rs| - 1;
    if i == n {
      assert Remove(rs, i) == rs[..n];
      SumUsesOwnMultipliers(rs[..n], ms, Remove(ms, i));
    } else {
      InvalidLayerIsNeutral(rs[..n], ms, i);
      var r := Remove(rs, i);
      assert r[..|r| - 1] == Remove(rs[..n], i);
      assert r[|r| - 1] == rs[n];
      assert Remove(ms, i)[|r| - 1] == ms[n];
      assert Sum(r, Remove(ms, i)) == Sum(Remove(rs[..n], i), Remove(ms, i)) + Contribution(rs[n], ms[n]);
      assert Mask(r) == (Mask(Remove(rs[..n], i)) || Valid(rs[n]));
    }
  }

  /** One valid layer is enough for a pixel to count as covered. */
  lemma SingleValidLayerSuffices(rs: seq<Reading>, i: nat)
    requires i < |rs| && Valid(rs[i])
    ensures Mask(rs)
  {
    MaskIsOr(rs);
  }

  /**
    A covered pixel whose weighted sum stays below 255.0 is written as that
    sum; a covered pixel at or above it is written as 254.999.
   */
  lemma CoveredPixelValue(rs: seq<Reading>, ms: seq<real>, i: nat)
    requires |rs| <= |ms| && i < |rs| && Valid(rs[i])
    ensures Sum(rs, ms) < NoData ==> PixelValue(rs, ms) == Sum(rs, ms)
    ensures Sum(rs, ms) >= NoData ==> PixelValue(rs, ms) == CapValue
  {
    MaskIsOr(rs);
  }

  /**
    As written, the cap also rewrites the 255.0 fill: a pixel at which no
    layer is valid ends up as 254.999, not as the no-data value the output
    band declares, so the output never contains no-data.
   */
  lemma UncoveredPixelIsNotNoData(rs: seq<Reading>, ms: seq<real>)
    requires |rs| <= |ms|
    requires forall i :: 0 <= i < |rs| ==> !Valid(rs[i])
    ensures PixelValue(rs, ms) == CapValue
    ensures PixelValue(rs, ms) != NoData
  {
    MaskIsOr(rs);
  }

  /**
    The fill and cap as the comment beside the cap intends them: only valid
    sums are kept below 255.0, and uncovered pixels keep the no-data value.
   */
  function FinalizeKeepingNoData(sum: real, mask: bool): (v: real)
    ensures v == NoData <==> !mask
    ensures mask ==> v < NoData
    ensures mask && sum < NoData ==> v == sum
  {
    if !mask then NoData
    else if sum >= NoData then CapValue
    else sum
  }

  /** With the intended cap, a pixel is no-data exactly when no layer is valid there. */
  lemma NoDataIffNoValidLayer(rs: seq<Reading>, ms: seq<real>)
    requires |rs| <= |ms|
    ensures FinalizeKeepingNoData(Sum(rs, ms), Mask(rs)) == NoData
      <==> forall i :: 0 <= i < |rs| ==> !Valid(rs[i])
  {
    MaskIsOr(rs);
  }
}

=== FILE: raster.dfy ===
/**
  The raster engine (GDAL) seen as an oracle: which datasets can be opened
  and what they hold, which files exist, and which warp requests succeed
  with what result. Nothing here computes a reprojection or a resampling.
 */
module Raster {
  import opened Optional
  import opened Tiling

  /** One band sample as it reaches NumPy: a number, NaN, or an infinity. */
  datatype Pixel = Val(v: real) | NaN | Inf

  /**
    GDAL's six-coefficient geotransform, in GDAL's order: gt[0] origin x,
    gt[1] pixel width, gt[2] row rotation, gt[3] origin y, gt[4] column
    rotation, gt[5] pixel height (negative for north-up grids).
   */
  datatype GeoTransform = GeoTransform(
    originX: real, pixelWidth: real, rowRotation: real,
    originY: real, columnRotation: real, pixelHeight: real)

  /**
    What `gdal.Open` gives access to: projection, geotransform, size, the
    first band's declared no-data value (if any) and its samples as rows,
    plus the block origins at which `ReadAsArray` yields None.
   */
  datatype Dataset = Dataset(
    crs: string, transform: GeoTransform, width: nat, height: nat,
    nodata: Option<real>, pixels: seq<seq<Pixel>>, unreadableTiles: set<(nat, nat)>)

  /** `outputBounds` of a warp, in GDAL's (xmin, ymin, xmax, ymax) order. */
  datatype Bounds = Bounds(xmin: real, ymin: real, xmax: real, ymax: real)

  /** The two `gdal.Warp` calls the aligner makes, with every argument it passes. */
  datatype WarpRequest =
    | Reproject(source: string, target: string, crs: string, nodata: Option<real>)
    | Resize(source: string, target: string, width: nat, height: nat, bounds: Bounds, nodata: Option<real>)

  /**
    The engine and the disk: `datasets` are the paths `gdal.Open` accepts,
    `files` the paths that exist, `plain` those of them that are not
    directories, `warps` the requests that succeed together with the dataset
    each one writes, `creatable` the paths at which `driver.Create` succeeds.
   */
  datatype Gdal = Gdal(
    datasets: map<string, Dataset>, files: set<string>, plain: set<string>,
    warps: map<WarpRequest, Dataset>, creatable: set<string>)

  function Open(g: Gdal, path: string): Option<Dataset> {
    if path in g.datasets then Some(g.datasets[path]) else None
  }

  /**
    `gdal.Warp(target, ...)`: when the engine accepts the request, the target
    file is (over)written with the warped dataset; otherwise nothing changes.
   */
  function Warp(g: Gdal, req: WarpRequest): (r: (bool, Gdal))
    ensures r.0 <==> req in g.warps
    ensures r.0 ==> Open(r.1, req.target) == Some(g.warps[req]) && req.target in r.1.files
    ensures !r.0 ==> r.1 == g
    ensures forall p :: p != req.target ==> Open(r.1, p) == Open(g, p) && (p in r.1.files <==> p in g.files)
  {
    if req in g.warps then
      (true, g.(datasets := g.datasets[req.target := g.warps[req]], files := g.files + {req.target},
                plain := g.plain + {req.target}))
    else (false, g)
  }

  /**
    `band.ReadAsArray(x, y, w, h)` returns an array: the window lies inside
    the raster and its band, and the engine does not fail on that block.
   */
  predicate Readable(d: Dataset, t: Tile) {
    && t.x + t.w <= d.width && t.y + t.h <= d.height
    && (t.x, t.y) !in d.unreadableTiles
    && t.y + t.h <= |d.pixels|
    && forall j :: t.y <= j < t.y + t.h ==> t.x + t.w <= |d.pixels[j]|
  }
}

=== FILE: raster_routes.dfy ===
/**
  The legacy raster routes: combine uploaded layers in one request, combine
  the seven layers stored in `app/temp`, and download a stored result. The
  file system is the set of file paths, as strings, that exist; the
  computation is the `run` oracle the pipeline routes also use, and
  `created` says which files a run leaves behind (aligned copies and its
  output).
 */
module RasterRoutes {
  import opened Optional
  import opened Strings
  import opened Paths
  import opened Aggregation
  import opened PipelineRoutes
  import Alignment

  /** Where the seven intermediate layers are kept (`UPLOAD_FOLDER_FINAL`). */
  const TempFolder: string := "app/temp"

  /** Where uploaded inputs are stored during a request (`UPLOAD_FOLDER_TEMP`). */
  const ProcessingFolder: string := "app/temp_processing"

  /** Where aligned copies are written (`ALIGNED_FOLDER`). */
  const AlignedFolder: string := "app/temp_aligned"

  /** Where final results are kept (`RESULT_FOLDER`). */
  const ResultFolder: string := "app/result"

  /** The number of layers `combine_stored_rasters` insists on. */
  const StoredLayers: nat := 7

  /** Why a route answers with an error body instead of a result. */
  datatype Problem =
    | NoFiles
    | BadMultipliers
    | CountMismatch
    | WrongLayerCount(found: nat)
    | WrongMultiplierCount
    | ProcessingFailed

  datatype Response =
    | SendFile(path: string, filename: string)  // a `FileResponse`
    | Computed(path: string)                    // `{"message": ..., "file_path": path}`
    | Refused(problem: Problem)                 // a JSON error body with status 200
    | ServerError                               // status 500
    | NotFound                                  // status 404

  /**
    The outside world of a raster request: float parsing, the computation,
    the files a run creates, and whether `open(path, "wb")` succeeds for a
    path (it fails when a directory part is missing or the path names a
    directory).
   */
  datatype RasterEnv = RasterEnv(
    parse: string -> Option<real>,
    run: Call -> Outcome,
    created: Call -> set<string>,
    storable: string -> bool)

  /** An uploaded file; only its client-side name matters here. */
  datatype Upload = Upload(filename: string)

  /** The answer of a route, the files afterwards, and the computation it started, if any. */
  datatype Served = Served(response: Response, files: set<string>, call: Option<Call>)

  // ---------------------------------------------------------------------
  // Cleanup candidates

  /** The two aligned names the cleanup looks for, built from `os.path.splitext` of the input's base name. */
  function SplitextNames(dir: string, src: string): set<string> {
    var base := SplitextRoot(Basename(src));
    {Join(dir, base + "_aligned.tif"), Join(dir, base + "_aligned_size.tif")}
  }

  /** The union of `names(src)` over the inputs. */
  function Collect(names: string -> set<string>, inputs: seq<string>): (r: set<string>)
    ensures forall k :: 0 <= k < |inputs| ==> names(inputs[k]) <= r
    decreases |inputs|
  {
    if |inputs| == 0 then {}
    else
      var rest := Collect(names, inputs[1..]);
      assert forall k :: 1 <= k < |inputs| ==> inputs[k] == inputs[1..][k - 1];
      names(inputs[0]) + rest
  }

  /** Nothing else is collected: every member comes from the names of some input. */
  lemma {:induction false} CollectOnly(names: string -> set<string>, inputs: seq<string>, p: string)
    requires p in Collect(names, inputs)
    ensures exists k :: 0 <= k < |inputs| && p in names(inputs[k])
    decreases |inputs|
  {
    if p !in names(inputs[0]) {
      CollectOnly(names, inputs[1..], p);
      var k :| 0 <= k < |inputs[1..]| && p in names(inputs[1..][k]);
      assert inputs[1..][k] == inputs[k + 1];
    }
  }

  /** `candidate_aligned`: both splitext names of every input. */
  function CleanupCandidates(dir: string, inputs: seq<string>): set<string> {
    Collect(src => SplitextNames(dir, src), inputs)
  }

  /**
    For an input whose base name neither starts nor ends with a dot, the
    cleanup looks exactly where the aligner writes: both names the aligner
    can produce for it in `app/temp_aligned` are candidates.
   */
  lemma CandidatesCoverAlignedNames(src: string)
    requires var b := Basename(src); |b| > 0 && b[0] != '.' && b[|b| - 1] != '.'
    ensures Alignment.AlignedName(AlignedFolder, src) in CleanupCandidates(AlignedFolder, [src])
    ensures Alignment.AlignedSizeName(AlignedFolder, src) in CleanupCandidates(AlignedFolder, [src])
  {
    StemAgreesWithSplitext(Basename(src));
    assert [src][0] == src;
  }

  /**
    As written, an upload named "a." is aligned into "a._aligned.tif"
    (`Path.stem` keeps a lone trailing dot) while the cleanup looks for
    "a_aligned.tif" and "a_aligned_size.tif" (`os.path.splitext` drops it),
    so the aligned copy is left behind.
   */
  lemma SplitextCleanupMissesAlignedName()
    ensures var src := InputPath(Upload("a."));
      Alignment.AlignedName(AlignedFolder, src) !in CleanupCandidates(AlignedFolder, [src])
  {
    var src := InputPath(Upload("a."));
    DotUploadStems();
    CandidatesOfOne(AlignedFolder, src);
    var written := Alignment.AlignedName(AlignedFolder, src);
    var n1 := Join(AlignedFolder, "a" + "_aligned.tif");
    var n2 := Join(AlignedFolder, "a" + "_aligned_size.tif");
    assert CleanupCandidates(AlignedFolder, [src]) == {n1, n2};
    assert |written| == |AlignedFolder| + 1 + 14 by {
      assert ("a." + "_aligned.tif")[0] == 'a';
    }
    assert |n1| == |AlignedFolder| + 1 + 13 by {
      assert ("a" + "_aligned.tif")[0] == 'a';
    }
    assert |n2| == |AlignedFolder| + 1 + 18 by {
      assert ("a" + "_aligned_size.tif")[0] == 'a';
    }
  }

  /** With one input, the candidates are that input's two splitext names. */
  lemma CandidatesOfOne(dir: string, src: string)
    ensures CleanupCandidates(dir, [src]) == SplitextNames(dir, src)
  {
    assert [src][1..] == [];
    assert Collect(src => SplitextNames(dir, src), []) == {};
  }

  /** The upload "a." keeps its dot under `Path.stem` and loses it under `splitext`. */
  lemma DotUploadStems()
    ensures var src := InputPath(Upload("a."));
      Alignment.StemOf(src) == "a." && SplitextRoot(Basename(src)) == "a"
  {
    var src := InputPath(Upload("a."));
    BasenameJoin(ProcessingFolder, "a.");
    assert Basename(src) == "a.";
    assert PathName(src) == "a.";
    assert RFind("a.", '.') == 1;
    assert PathStem("a.") == "a.";
    assert "a."[..1] == "a";
    assert !AllDots("a."[..1]);
  }

  /** The cleanup names built with `Path.stem`, as the aligner builds them. */
  function StemNames(dir: string, src: string): set<string> {
    {Alignment.AlignedName(dir, src), Alignment.AlignedSizeName(dir, src)}
  }

  /** `candidate_aligned` built from `Path.stem`: every name the aligner can write for every input. */
  function CleanupCandidatesByStem(dir: string, inputs: seq<string>): (r: set<string>)
    ensures forall k :: 0 <= k < |inputs| ==>
      Alignment.AlignedName(dir, inputs[k]) in r && Alignment.AlignedSizeName(dir, inputs[k]) in r
  {
    var r := Collect(src => StemNames(dir, src), inputs);
    assert forall k :: 0 <= k < |inputs| ==> StemNames(dir, inputs[k]) <= r;
    r
  }

  /** The corrected candidates find the aligned copy of "a." that the as-written ones miss. */
  lemma StemCleanupFindsAlignedName()
    ensures var src := InputPath(Upload("a."));
      Alignment.AlignedName(AlignedFolder, src) in CleanupCandidatesByStem(AlignedFolder, [src])
  {
    var src := InputPath(Upload("a."));
    assert [src][0] == src;
  }

  // ---------------------------------------------------------------------
  // POST /process_rasters/

  /** Where an upload is stored: its client-side name joined to `app/temp_processing`, unsanitised. */
  function InputPath(u: Upload): string {
    Join(ProcessingFolder, u.filename)
  }

  /** The stored uploads, in upload order. */
  function InputPaths(uploads: seq<Upload>): (r: seq<string>)
    ensures |r| == |uploads|
    ensures forall k :: 0 <= k < |r| ==> r[k] == InputPath(uploads[k])
  {
    seq(|uploads|, k requires 0 <= k < |uploads| => InputPath(uploads[k]))
  }

  /**
    How many of `paths` are written before the first one that cannot be
    opened: all of them when every one can.
   */
  function StoredCount(paths: seq<string>, storable: string -> bool): (n: nat)
    ensures n <= |paths|
    ensures forall k :: 0 <= k < n ==> storable(paths[k])
    ensures n < |paths| ==> !storable(paths[n])
    decreases |paths|
  {
    if |paths| == 0 || !storable(paths[0]) then 0
    else
      var n := StoredCount(paths[1..], storable);
      assert forall k :: 1 <= k < |paths| ==> paths[k] == paths[1..][k - 1];
      1 + n
  }

  /**
    `process_rasters_api`: the checks in order (no files, unparsable
    multipliers, count mismatch), then store the uploads one by one (an
    upload that cannot be written answers 500, leaving the ones stored
    before it), run the computation into `app/temp`, remove the uploads and
    the aligned candidates, and send the result. A run that raises answers
    500 before any cleanup.
   */
  function ProcessRastersApi(
    files: set<string>, uploads: seq<Upload>, multipliers: string, outputFilename: string, env: RasterEnv): (s: Served)
    ensures |uploads| == 0 ==> s == Served(Refused(NoFiles), files, None)
    ensures |uploads| > 0 && ParseMultipliers(multipliers, env.parse).None? ==>
      s == Served(Refused(BadMultipliers), files, None)
    ensures (|uploads| > 0 && ParseMultipliers(multipliers, env.parse).Some?
             && |ParseMultipliers(multipliers, env.parse).value| != |uploads|) ==>
      s == Served(Refused(CountMismatch), files, None)
    ensures s.call.Some? <==> (|uploads| > 0 && ParseMultipliers(multipliers, env.parse).Some?
                               && |ParseMultipliers(multipliers, env.parse).value| == |uploads|
                               && forall k :: 0 <= k < |uploads| ==> env.storable(InputPath(uploads[k])))
    ensures (|uploads| > 0 && ParseMultipliers(multipliers, env.parse).Some?
             && |ParseMultipliers(multipliers, env.parse).value| == |uploads|
             && exists k :: 0 <= k < |uploads| && !env.storable(InputPath(uploads[k]))) ==>
      var n := StoredCount(InputPaths(uploads), env.storable);
      && n < |uploads| && !env.storable(InputPath(uploads[n]))
      && s == Served(ServerError, files + (set k | 0 <= k < n :: InputPath(uploads[k])), None)
    ensures s.call.Some? ==>
      && s.call.value.inputs == InputPaths(uploads)
      && s.call.value.multipliers == ParseMultipliers(multipliers, env.parse).value
      && s.call.value.output == Join(TempFolder, outputFilename)
      && s.call.value.alignedDir == AlignedFolder
    ensures s.response.SendFile? ==> s.response.filename == outputFilename && s.response.path != ""
    ensures s.call.Some? && env.run(s.call.value) == Raised ==> s.response == ServerError
    ensures s.call.Some? && env.run(s.call.value).Returned? && env.run(s.call.value).path != "" ==>
      s.response == SendFile(env.run(s.call.value).path, outputFilename)
    ensures s.call.Some? && env.run(s.call.value) == Returned("") ==> s.response == Refused(ProcessingFailed)
  {
    if |uploads| == 0 then Served(Refused(NoFiles), files, None)
    else match ParseMultipliers(multipliers, env.parse)
      case None => Served(Refused(BadMultipliers), files, None)
      case Some(mults) =>
        if |uploads| != |mults| then Served(Refused(CountMismatch), files, None)
        else
          var inputs := InputPaths(uploads);
          var n := StoredCount(inputs, env.storable);
          if n < |inputs| then Served(ServerError, files + (set k | 0 <= k < n :: inputs[k]), None)
          else ProcessRun(files, inputs, Call(inputs, mults, Join(TempFolder, outputFilename), AlignedFolder), outputFilename, env)
  }

  /**
    The part of `process_rasters_api` after the checks: the uploads are
    stored, the run is made, and once it returns the stored uploads and the
    aligned candidates are removed.
   */
  function ProcessRun(files: set<string>, inputs: seq<string>, call: Call, outputFilename: string, env: RasterEnv): (s: Served)
    ensures s.call == Some(call)
    ensures env.run(call) == Raised ==>
      s.response == ServerError && s.files == files + (set q | q in inputs) + env.created(call)
    ensures env.run(call).Returned? ==>
      s.files == files + (set q | q in inputs) + env.created(call) - (set q | q in inputs) - CleanupCandidates(AlignedFolder, inputs)
    ensures s.response.SendFile? ==> s.response.filename == outputFilename && s.response.path != ""
    ensures env.run(call).Returned? && env.run(call).path != "" ==>
      s.response == SendFile(env.run(call).path, outputFilename)
    ensures env.run(call) == Returned("") ==> s.response == Refused(ProcessingFailed)
  {
    var after := files + (set p | p in inputs) + env.created(call);
    match env.run(call)
    case Raised => Served(ServerError, after, Some(call))
    case Returned(result) =>
      var left := after - (set p | p in inputs) - CleanupCandidates(AlignedFolder, inputs);
      if result != "" then Served(SendFile(result, outputFilename), left, Some(call))
      else Served(Refused(ProcessingFailed), left, Some(call))
  }

  /** The call `ProcessRastersApi` makes once every check has passed. */
  function ProcessCall(uploads: seq<Upload>, multipliers: string, outputFilename: string, env: RasterEnv): (c: Call)
    requires ParseMultipliers(multipliers, env.parse).Some?
    ensures c.inputs == InputPaths(uploads) && c.output == Join(TempFolder, outputFilename)
  {
    Call(InputPaths(uploads), ParseMultipliers(multipliers, env.parse).value, Join(TempFolder, outputFilename), AlignedFolder)
  }

  /**
    The cleanup only touches what the request produced: a file that is
    neither one of its stored uploads nor one of its aligned candidates is
    still there afterwards, whatever the run did.
   */
  lemma ProcessKeepsOtherFiles(
    files: set<string>, uploads: seq<Upload>, multipliers: string, outputFilename: string, env: RasterEnv, p: string)
    requires p in files
    requires forall k :: 0 <= k < |uploads| ==> p != InputPath(uploads[k])
    requires p !in CleanupCandidates(AlignedFolder, InputPaths(uploads))
    ensures p in ProcessRastersApi(files, uploads, multipliers, outputFilename, env).files
  {
    var s := ProcessRastersApi(files, uploads, multipliers, outputFilename, env);
    if s.call.Some? {
      var inputs := InputPaths(uploads);
      var call := ProcessCall(uploads, multipliers, outputFilename, env);
      assert s == ProcessRun(files, inputs, call, outputFilename, env);
      var uploaded := set q | q in inputs;
      assert p !in uploaded by {
        assert forall k :: 0 <= k < |inputs| ==> inputs[k] == InputPath(uploads[k]);
      }
    }
  }

  /**
    After a run that returns, none of the stored uploads and none of the
    aligned candidates is left; the files the run created elsewhere are.
   */
  lemma ProcessRemovesItsFiles(
    files: set<string>, uploads: seq<Upload>, multipliers: string, outputFilename: string, env: RasterEnv)
    requires ProcessRastersApi(files, uploads, multipliers, outputFilename, env).call.Some?
    requires env.run(ProcessRastersApi(files, uploads, multipliers, outputFilename, env).call.value).Returned?
    ensures var s := ProcessRastersApi(files, uploads, multipliers, outputFilename, env);
      && (forall k :: 0 <= k < |uploads| ==> InputPath(uploads[k]) !in s.files)
      && CleanupCandidates(AlignedFolder, InputPaths(uploads)) !! s.files
      && env.created(s.call.value) - (set q | q in InputPaths(uploads)) - CleanupCandidates(AlignedFolder, InputPaths(uploads)) <= s.files
  {
    var s := ProcessRastersApi(files, uploads, multipliers, outputFilename, env);
    var inputs := InputPaths(uploads);
    var call := ProcessCall(uploads, multipliers, outputFilename, env);
    assert s == ProcessRun(files, inputs, call, outputFilename, env);
    var uploaded := set q | q in inputs;
    assert forall k :: 0 <= k < |uploads| ==> inputs[k] == InputPath(uploads[k]) && inputs[k] in uploaded;
  }

  /** A run that raises answers 500 and leaves every stored upload in `app/temp_processing`. */
  lemma ProcessRaisedKeepsUploads(
    files: set<string>, uploads: seq<Upload>, multipliers: string, outputFilename: string, env: RasterEnv)
    requires ProcessRastersApi(files, uploads, multipliers, outputFilename, env).call.Some?
    requires env.run(ProcessRastersApi(files, uploads, multipliers, outputFilename, env).call.value) == Raised
    ensures var s := ProcessRastersApi(files, uploads, multipliers, outputFilename, env);
      && s.response == ServerError
      && files <= s.files
      && forall k :: 0 <= k < |uploads| ==> InputPath(uploads[k]) in s.files
  {
    var s := ProcessRastersApi(files, uploads, multipliers, outputFilename, env);
    var inputs := InputPaths(uploads);
    var call := ProcessCall(uploads, multipliers, outputFilename, env);
    assert s == ProcessRun(files, inputs, call, outputFilename, env);
    var uploaded := set q | q in inputs;
    assert forall k :: 0 <= k < |uploads| ==> inputs[k] == InputPath(uploads[k]) && inputs[k] in uploaded;
  }

  // ---------------------------------------------------------------------
  // POST /combine_stored_rasters/

  /** A listing as `os.listdir` returns it: distinct plain names. */
  predicate Listing(names: seq<string>) {
    NoDuplicates(names) && forall k :: 0 <= k < |names| ==> |names[k]| > 0 && '/' !in names[k]
  }

  /** `os.path.join(TEMP_FOLDER, f)` for every listed `f` ending in ".tif", in listing order. */
  function TifPaths(names: seq<string>): (r: seq<string>)
    ensures forall p :: p in r <==> exists k :: 0 <= k < |names| && IsSuffix(".tif", names[k]) && p == Join(TempFolder, names[k])
    decreases |names|
  {
    if |names| == 0 then []
    else
      var rest := TifPaths(names[1..]);
      assert forall k :: 1 <= k < |names| ==> names[k] == names[1..][k - 1];
      if IsSuffix(".tif", names[0]) then [Join(TempFolder, names[0])] + rest else rest
  }

  /** Joining plain names to the same folder keeps them apart. */
  lemma JoinInjective(dir: string, a: string, b: string)
    requires |a| > 0 && a[0] != '/' && |b| > 0 && b[0] != '/'
    requires Join(dir, a) == Join(dir, b)
    ensures a == b
  {
  }

  /** A listing of distinct plain names yields distinct paths. */
  lemma {:induction false} TifPathsDistinct(names: seq<string>)
    requires Listing(names)
    ensures NoDuplicates(TifPaths(names))
    decreases |names|
  {
    if |names| > 0 {
      var tail := names[1..];
      assert Listing(tail) by {
        assert forall k :: 0 <= k < |tail| ==> tail[k] == names[k + 1];
      }
      TifPathsDistinct(tail);
      if IsSuffix(".tif", names[0]) {
        var head := Join(TempFolder, names[0]);
        var rest := TifPaths(tail);
        assert head !in rest by {
          if head in rest {
            var k :| 0 <= k < |tail| && IsSuffix(".tif", tail[k]) && head == Join(TempFolder, tail[k]);
            JoinInjective(TempFolder, names[0], tail[k]);
            assert false;
          }
        }
        var r := [head] + rest;
        forall i, j | 0 <= i < j < |r| ensures r[i] != r[j] {
          if i > 0 {
            assert r[i] == rest[i - 1] && r[j] == rest[j - 1];
          } else {
            assert r[j] in rest;
          }
        }
      }
    }
  }

  /** The sorted layer paths `combine_stored_rasters` hands to the computation. */
  function StoredLayerPaths(names: seq<string>): (r: seq<string>)
    ensures SortedStrings(r)
    ensures forall p :: p in r <==> p in TifPaths(names)
    ensures |r| == |TifPaths(names)|
  {
    var r := Sort(TifPaths(names));
    assert forall p :: p in r <==> p in multiset(r);
    assert forall p :: p in TifPaths(names) <==> p in multiset(TifPaths(names));
    r
  }

  /**
    `combine_stored_rasters`: the ".tif" files of `app/temp`, sorted; then
    exactly seven layers, parsable multipliers and exactly seven of them,
    checked in that order; then the computation into `app/result`. The
    computation is not guarded here, so a run that raises answers 500.
    Nothing is deleted: the files on disk are `files` plus whatever the
    computation creates.
   */
  function CombineStoredRasters(
    files: set<string>, names: seq<string>, multipliers: string, outputFilename: string, env: RasterEnv): (s: Served)
  {
    var layers := StoredLayerPaths(names);
    if |layers| != StoredLayers then Served(Refused(WrongLayerCount(|layers|)), files, None)
    else match ParseMultipliers(multipliers, env.parse)
      case None => Served(Refused(BadMultipliers), files, None)
      case Some(mults) =>
        if |mults| != StoredLayers then Served(Refused(WrongMultiplierCount), files, None)
        else
          var call := Call(layers, mults, Join(ResultFolder, outputFilename), AlignedFolder);
          var after := files + env.created(call);
          match env.run(call)
          case Raised => Served(ServerError, after, Some(call))
          case Returned(result) =>
            if result != "" then Served(Computed(result), after, Some(call))
            else Served(Refused(ProcessingFailed), after, Some(call))
  }

  /**
    The checks of `combine_stored_rasters`: the layer count is checked
    first, whatever the multipliers say; then the multipliers; and a
    computation only ever runs on seven sorted ".tif" files of `app/temp`
    with seven multipliers, writing into `app/result`. Its result path is
    the answer; an empty one is a processing failure, a raise a 500.
   */
  lemma CombineChecks(files: set<string>, names: seq<string>, multipliers: string, outputFilename: string, env: RasterEnv)
    ensures var s := CombineStoredRasters(files, names, multipliers, outputFilename, env);
      var found := |TifPaths(names)|;
      var parsed := ParseMultipliers(multipliers, env.parse);
      && (found != 7 ==> s.response == Refused(WrongLayerCount(found)) && s.call.None?)
      && (found == 7 && parsed.None? ==> s.response == Refused(BadMultipliers) && s.call.None?)
      && (found == 7 && parsed.Some? && |parsed.value| != 7 ==> s.response == Refused(WrongMultiplierCount) && s.call.None?)
      && (s.call.Some? <==> found == 7 && parsed.Some? && |parsed.value| == 7)
      && (s.call.Some? ==>
            && |s.call.value.inputs| == 7 && SortedStrings(s.call.value.inputs)
            && (forall p :: p in s.call.value.inputs <==>
                  exists k :: 0 <= k < |names| && IsSuffix(".tif", names[k]) && p == Join(TempFolder, names[k]))
            && s.call.value.multipliers == parsed.value
            && s.call.value.output == Join(ResultFolder, outputFilename))
      && (s.call.None? ==> s.files == files)
      && (s.call.Some? ==> s.files == files + env.created(s.call.value))
      && (s.call.Some? && env.run(s.call.value) == Raised ==> s.response == ServerError)
      && (s.call.Some? && env.run(s.call.value).Returned? && env.run(s.call.value).path != "" ==>
            s.response == Computed(env.run(s.call.value).path))
      && (s.call.Some? && env.run(s.call.value) == Returned("") ==> s.response == Refused(ProcessingFailed))
  {
  }

  /**
    The order in which the directory is listed does not matter: two listings
    of the same names give the same answer and the same computation.
   */
  lemma CombineIgnoresListingOrder(
    files: set<string>, names: seq<string>, names': seq<string>, multipliers: string, outputFilename: string,
    env: RasterEnv)
    requires Listing(names) && Listing(names')
    requires forall f :: f in names <==> f in names'
    ensures CombineStoredRasters(files, names, multipliers, outputFilename, env)
         == CombineStoredRasters(files, names', multipliers, outputFilename, env)
  {
    var a := StoredLayerPaths(names);
    var b := StoredLayerPaths(names');
    TifPathsDistinct(names);
    TifPathsDistinct(names');
    PermutationKeepsDistinct(TifPaths(names), a);
    PermutationKeepsDistinct(TifPaths(names'), b);
    forall p ensures p in a <==> p in b {
      if p in a {
        var k :| 0 <= k < |names| && IsSuffix(".tif", names[k]) && p == Join(TempFolder, names[k]);
        assert names[k] in names';
        var k' :| 0 <= k' < |names'| && names'[k'] == names[k];
      }
      if p in b {
        var k :| 0 <= k < |names'| && IsSuffix(".tif", names'[k]) && p == Join(TempFolder, names'[k]);
        assert names'[k] in names;
        var k' :| 0 <= k' < |names| && names[k'] == names'[k];
      }
    }
    SortedDistinctUnique(a, b);
  }

  // ---------------------------------------------------------------------
  // GET /download_result/

  /** `os.path.join(RESULT_FOLDER, f"{file_name}.tif")`. */
  function DownloadPath(fileName: string): string {
    Join(ResultFolder, fileName + ".tif")
  }

  /** `download_result`: 404 when the file does not exist, else the file under the name `<file_name>.tif`. */
  function DownloadResult(files: set<string>, fileName: string): (r: Response)
    ensures r == NotFound <==> DownloadPath(fileName) !in files
    ensures r != NotFound ==> r == SendFile(DownloadPath(fileName), fileName + ".tif")
  {
    var path := DownloadPath(fileName);
    if path !in files then NotFound else SendFile(path, fileName + ".tif")
  }

  /**
    A file name without slashes is served from directly inside
    `app/result`, under the name the client sees.
   */
  lemma DownloadStaysInResult(fileName: string)
    requires '/' !in fileName
    ensures var p := DownloadPath(fileName);
      && IsPrefix(ResultFolder + "/", p)
      && Basename(p) == fileName + ".tif"
  {
    var name := fileName + ".tif";
    assert name[|name| - 4] == '.';
    assert '/' !in name by {
      forall k | 0 <= k < |name| ensures name[k] != '/' {
        if k < |fileName| {
          assert name[k] == fileName[k];
        } else {
          assert name[k] == ".tif"[k - |fileName|];
        }
      }
    }
    BasenameJoin(ResultFolder, name);
  }
}

=== FILE: strings.dfy ===
/** The optional value used wherever the source returns `None` or an empty dictionary. */
module Optional {

  datatype Option<+T> = None | Some(value: T) {

    /** The wrapped value, or `default` when there is none (Python's `x or default`). */
    function GetOr(default: T): T {
      match this
      case Some(v) => v
      case None => default
    }
  }
}

/**
  The handful of Python `str` operations the core relies on: `split`,
  `replace`, `strip`, `endswith`, `rfind`, and the ordering `sorted` uses.
  Strings are sequences of Unicode scalar values, as in Python 3.
 */
module Strings {

  predicate IsPrefix(p: string, s: string) {
    |p| <= |s| && s[..|p|] == p
  }

  predicate IsSuffix(p: string, s: string) {
    |p| <= |s| && s[|s| - |p|..] == p
  }

  /** True iff `s` holds two consecutive dots (Python's `".." in s`). */
  predicate HasDotDot(s: string) {
    exists i :: 0 <= i < |s| - 1 && DotDotAt(s, i)
  }

  /** Two dots start at index `i`. */
  predicate DotDotAt(s: string, i: int)
    requires 0 <= i < |s| - 1
  {
    s[i] == '.' && s[i + 1] == '.'
  }

  /** Python's `str.isspace()` for a single character, which is what `strip()` removes. */
  predicate IsSpace(c: char) {
    var n := c as int;
    || 0x09 <= n <= 0x0D || 0x1C <= n <= 0x20
    || n == 0x85 || n == 0xA0 || n == 0x1680
    || 0x2000 <= n <= 0x200A
    || n == 0x2028 || n == 0x2029 || n == 0x202F || n == 0x205F || n == 0x3000
  }

  /** A string `strip()` leaves unchanged: empty, or no white space at either end. */
  predicate Stripped(s: string) {
    |s| == 0 || (!IsSpace(s[0]) && !IsSpace(s[|s| - 1]))
  }

  /** The first index from `i` on that does not hold white space (`|s|` when there is none). */
  function LeftEnd(s: string, i: nat): (n: nat)
    requires i <= |s|
    ensures i <= n <= |s|
    ensures n == |s| || !IsSpace(s[n])
    ensures forall k :: i <= k < n ==> IsSpace(s[k])
    decreases |s| - i
  {
    if i < |s| && IsSpace(s[i]) then LeftEnd(s, i + 1) else i
  }

  /** The end of `s[lo..j]` once trailing white space is dropped. */
  function RightEnd(s: string, lo: nat, j: nat): (n: nat)
    requires lo <= j <= |s|
    ensures lo <= n <= j
    ensures n == lo || !IsSpace(s[n - 1])
    ensures forall k :: n <= k < j ==> IsSpace(s[k])
    decreases j
  {
    if j > lo && IsSpace(s[j - 1]) then RightEnd(s, lo, j - 1) else j
  }

  /**
    Python's `s.strip()`: drop the white space at both ends, leaving the
    longest infix of `s` with no white space at either end.
   */
  function Strip(s: string): (r: string)
    ensures Stripped(r)
    ensures Stripped(s) ==> r == s
  {
    var a := LeftEnd(s, 0);
    var b := RightEnd(s, a, |s|);
    s[a..b]
  }

  /** Stripping only removes characters: the result is a piece of `s`. */
  lemma StripChars(s: string)
    ensures forall x :: x in Strip(s) ==> x in s
  {
    var a := LeftEnd(s, 0);
    var b := RightEnd(s, a, |s|);
    forall x | x in s[a..b] ensures x in s {
      var i :| 0 <= i < b - a && s[a..b][i] == x;
      assert s[a + i] == x;
    }
  }

  /**
    Python's `s.rfind(c)`: the index of the last `c` in `s`, or -1.
   */
  function RFind(s: string, c: char): (i: int)
    ensures -1 <= i < |s|
    ensures i >= 0 ==> s[i] == c
    ensures forall k :: i < k < |s| ==> s[k] != c
  {
    if |s| == 0 then -1
    else if s[|s| - 1] == c then |s| - 1
    else RFind(s[..|s| - 1], c)
  }

  /** The last occurrence is the one position with `c` and no `c` after it. */
  lemma RFindUnique(s: string, c: char, m: int)
    requires -1 <= m < |s| && (m >= 0 ==> s[m] == c)
    requires forall k :: m < k < |s| ==> s[k] != c
    ensures RFind(s, c) == m
  {
    var i := RFind(s, c);
    if i != m {
      assert false;
    }
  }

  /**
    Python's `s.replace(pat, rep)`: scans left to right and replaces every
    non-overlapping occurrence of `pat`.
   */
  function Replace(s: string, pat: string, rep: string): (r: string)
    requires |pat| > 0
    decreases |s|
  {
    if |s| < |pat| then s
    else if s[..|pat|] == pat then rep + Replace(s[|pat|..], pat, rep)
    else [s[0]] + Replace(s[1..], pat, rep)
  }

  /** Replacing a single character changes exactly the positions that held it. */
  lemma {:induction false} ReplaceChar(s: string, c: char, d: char)
    ensures |Replace(s, [c], [d])| == |s|
    ensures forall i :: 0 <= i < |s| ==> Replace(s, [c], [d])[i] == (if s[i] == c then d else s[i])
    decreases |s|
  {
    if |s| > 0 {
      ReplaceChar(s[1..], c, d);
      if s[..1] == [c] {
        assert s[0] == c;
      } else {
        assert s[0] != c;
      }
    }
  }

  /** After replacing every ".." with a string that holds no dot, no ".." is left. */
  lemma {:induction false} ReplaceDotDotRemovesAll(s: string, rep: string)
    requires '.' !in rep
    ensures !HasDotDot(Replace(s, "..", rep))
    ensures |s| > 0 && s[0] != '.' ==> |Replace(s, "..", rep)| > 0 && Replace(s, "..", rep)[0] == s[0]
    decreases |s|
  {
    var r := Replace(s, "..", rep);
    if |s| < 2 {
      assert r == s;
    } else if s[..2] == ".." {
      ReplaceDotDotRemovesAll(s[2..], rep);
      var t := Replace(s[2..], "..", rep);
      assert r == rep + t;
      forall i | 0 <= i < |r| - 1
        ensures !DotDotAt(r, i)
      {
        if i < |rep| {
          assert r[i] == rep[i] && rep[i] in rep;
        } else {
          assert r[i] == t[i - |rep|] && r[i + 1] == t[i - |rep| + 1];
          assert !DotDotAt(t, i - |rep|);
        }
      }
    } else {
      ReplaceDotDotRemovesAll(s[1..], rep);
      var t := Replace(s[1..], "..", rep);
      assert r == [s[0]] + t;
      forall i | 0 <= i < |r| - 1
        ensures !DotDotAt(r, i)
      {
        if i == 0 {
          assert s[0] == '.' ==> s[1] != '.';
          assert r[1] == t[0];
        } else {
          assert r[i] == t[i - 1] && r[i + 1] == t[i];
          assert !DotDotAt(t, i - 1);
        }
      }
    }
  }

  /** Every character of `Replace(s, pat, rep)` is a character of `s` or of `rep`. */
  lemma {:induction false} ReplaceChars(s: string, pat: string, rep: string)
    requires |pat| > 0
    ensures forall x :: x in Replace(s, pat, rep) ==> x in s || x in rep
    decreases |s|
  {
    if |s| >= |pat| {
      if s[..|pat|] == pat {
        ReplaceChars(s[|pat|..], pat, rep);
      } else {
        ReplaceChars(s[1..], pat, rep);
      }
    }
  }

  /**
    Replacement keeps the ends of a string: the first and the last character
    of the result come from the same end of `s` or from `rep`; and a non-empty
    string stays non-empty when `rep` is non-empty.
   */
  lemma {:induction false} ReplaceEnds(s: string, pat: string, rep: string)
    requires |pat| > 0 && |rep| > 0
    ensures var r := Replace(s, pat, rep);
      && (|r| == 0 <==> |s| == 0)
      && (|r| > 0 ==> (r[0] == s[0] || r[0] == rep[0]))
      && (|r| > 0 ==> (r[|r| - 1] == s[|s| - 1] || r[|r| - 1] == rep[|rep| - 1]))
    decreases |s|
  {
    if |s| >= |pat| {
      if s[..|pat|] == pat {
        ReplaceEnds(s[|pat|..], pat, rep);
      } else {
        ReplaceEnds(s[1..], pat, rep);
      }
    }
  }

  /** A string without ".." is left unchanged by replacing "..". */
  lemma {:induction false} ReplaceDotDotAbsent(s: string, rep: string)
    requires !HasDotDot(s)
    ensures Replace(s, "..", rep) == s
    decreases |s|
  {
    if |s| >= 2 {
      assert !DotDotAt(s, 0);
      assert s[..2] != "..";
      assert !HasDotDot(s[1..]) by {
        forall i | 0 <= i < |s[1..]| - 1
          ensures !DotDotAt(s[1..], i)
        {
          assert s[1..][i] == s[i + 1] && s[1..][i + 1] == s[i + 2];
          assert !DotDotAt(s, i + 1);
        }
      }
      ReplaceDotDotAbsent(s[1..], rep);
    }
  }

  /** Number of occurrences of `c` in `s`. */
  function Count(s: string, c: char): nat {
    multiset(s)[c]
  }

  /**
    Python's `s.split(sep)` for a one-character separator: the maximal pieces
    between separators, including empty ones.
   */
  function Split(s: string, sep: char): (parts: seq<string>)
    ensures |parts| >= 1
    decreases |s|
  {
    if |s| == 0 then [""]
    else if s[0] == sep then [""] + Split(s[1..], sep)
    else
      var rest := Split(s[1..], sep);
      [[s[0]] + rest[0]] + rest[1..]
  }

  /** Python's `sep.join(parts)`. */
  function JoinWith(parts: seq<string>, sep: char): string
    requires |parts| >= 1
  {
    if |parts| == 1 then parts[0] else parts[0] + [sep] + JoinWith(parts[1..], sep)
  }

  /** Joining one more piece adds it after a separator. */
  lemma {:induction false} JoinWithSnoc(parts: seq<string>, last: string, sep: char)
    requires |parts| >= 1
    ensures JoinWith(parts + [last], sep) == JoinWith(parts, sep) + [sep] + last
    decreases |parts|
  {
    var all := parts + [last];
    assert all[0] == parts[0];
    if |parts| > 1 {
      assert all[1..] == parts[1..] + [last];
      JoinWithSnoc(parts[1..], last, sep);
    } else {
      assert all[1..] == [last];
    }
  }

  /** `split` yields one piece more than there are separators, none of them holding a separator. */
  lemma {:induction false} SplitCount(s: string, sep: char)
    ensures |Split(s, sep)| == Count(s, sep) + 1
    ensures forall k :: 0 <= k < |Split(s, sep)| ==> sep !in Split(s, sep)[k]
    decreases |s|
  {
    if |s| > 0 {
      SplitCount(s[1..], sep);
      assert s == [s[0]] + s[1..];
      assert multiset(s) == multiset{s[0]} + multiset(s[1..]);
      var rest := Split(s[1..], sep);
      if s[0] != sep {
        var parts := Split(s, sep);
        assert parts[0] == [s[0]] + rest[0];
        forall k | 0 <= k < |parts|
          ensures sep !in parts[k]
        {
          if k > 0 {
            assert parts[k] == rest[k];
          }
        }
      }
    }
  }

  /** Joining the pieces with the separator gives back the original string. */
  lemma {:induction false} SplitJoin(s: string, sep: char)
    ensures JoinWith(Split(s, sep), sep) == s
    decreases |s|
  {
    if |s| > 0 {
      SplitJoin(s[1..], sep);
      var rest := Split(s[1..], sep);
      if s[0] == sep {
        assert Split(s, sep)[1..] == rest;
      } else {
        var parts := [[s[0]] + rest[0]] + rest[1..];
        if |rest| == 1 {
          assert JoinWith(parts, sep) == [s[0]] + rest[0];
        } else {
          assert parts[1..] == rest[1..];
          assert JoinWith(rest, sep) == rest[0] + [sep] + JoinWith(rest[1..], sep);
        }
      }
    }
  }

  /** Splitting a join of separator-free pieces gives back the pieces. */
  lemma {:induction false} JoinSplit(parts: seq<string>, sep: char)
    requires |parts| >= 1
    requires forall k :: 0 <= k < |parts| ==> sep !in parts[k]
    ensures Split(JoinWith(parts, sep), sep) == parts
    decreases |parts|, |parts[0]|
  {
    var s := JoinWith(parts, sep);
    if |parts[0]| == 0 {
      if |parts| > 1 {
        JoinSplit(parts[1..], sep);
        assert s == [sep] + JoinWith(parts[1..], sep);
        assert s[1..] == JoinWith(parts[1..], sep);
        assert parts == [""] + parts[1..];
      }
    } else {
      var tail := [parts[0][1..]] + parts[1..];
      assert parts[0][1..] == parts[0][1..];
      forall k | 0 <= k < |tail|
        ensures sep !in tail[k]
      {
        if k == 0 {
          assert forall x :: x in parts[0][1..] ==> x in parts[0];
        } else {
          assert tail[k] == parts[k];
        }
      }
      JoinSplit(tail, sep);
      assert parts[0][0] != sep by {
        assert parts[0][0] in parts[0];
      }
      if |parts| == 1 {
        assert s == parts[0];
        assert JoinWith(tail, sep) == parts[0][1..];
        assert s[1..] == parts[0][1..];
      } else {
        assert tail[1..] == parts[1..];
        assert JoinWith(tail, sep) == parts[0][1..] + [sep] + JoinWith(parts[1..], sep);
        assert s == [parts[0][0]] + JoinWith(tail, sep);
        assert s[1..] == JoinWith(tail, sep);
      }
      assert s[0] == parts[0][0];
      var rest := Split(s[1..], sep);
      assert rest == tail;
      assert [s[0]] + rest[0] == parts[0];
      assert rest[1..] == parts[1..];
    }
  }

  /**
    Python's ordering of strings: lexicographic on code points, a proper
    prefix first.
   */
  predicate LexLe(a: string, b: string)
    decreases |a|
  {
    |a| == 0 || (|b| > 0 && (a[0] < b[0] || (a[0] == b[0] && LexLe(a[1..], b[1..]))))
  }

  lemma {:induction false} LexLeTotal(a: string, b: string)
    ensures LexLe(a, b) || LexLe(b, a)
    decreases |a|
  {
    if |a| > 0 && |b| > 0 && a[0] == b[0] {
      LexLeTotal(a[1..], b[1..]);
    }
  }

  lemma {:induction false} LexLeTransitive(a: string, b: string, c: string)
    requires LexLe(a, b) && LexLe(b, c)
    ensures LexLe(a, c)
    decreases |a|
  {
    if |a| > 0 && a[0] == b[0] && b[0] == c[0] {
      LexLeTransitive(a[1..], b[1..], c[1..]);
    }
  }

  predicate SortedStrings(s: seq<string>) {
    forall i, j :: 0 <= i < j < |s| ==> LexLe(s[i], s[j])
  }

  /** No string occurs twice. */
  predicate NoDuplicates(xs: seq<string>) {
    forall i, j :: 0 <= i < j < |xs| ==> xs[i] != xs[j]
  }

  lemma {:induction false} LexLeAntisymmetric(a: string, b: string)
    requires LexLe(a, b) && LexLe(b, a)
    ensures a == b
    decreases |a|
  {
    if |a| > 0 {
      LexLeAntisymmetric(a[1..], b[1..]);
      assert a == [a[0]] + a[1..] && b == [b[0]] + b[1..];
    }
  }

  /** A non-empty list holds its first element. */
  lemma FirstIsMember<T>(s: seq<T>)
    ensures |s| > 0 ==> s[0] in s
  {
  }

  /**
    A list of distinct strings is determined by its elements once it is
    sorted: two sorted duplicate-free lists with the same elements are equal.
   */
  lemma {:induction false} SortedDistinctUnique(a: seq<string>, b: seq<string>)
    requires SortedStrings(a) && SortedStrings(b) && NoDuplicates(a) && NoDuplicates(b)
    requires forall x :: x in a <==> x in b
    ensures a == b
    decreases |a|
  {
    if |a| == 0 {
      FirstIsMember(b);
    } else {
      assert a[0] in b;
      assert |b| > 0;
      var j :| 0 <= j < |b| && b[j] == a[0];
      assert b[0] in b;
      var i :| 0 <= i < |a| && a[i] == b[0];
      if j > 0 { assert LexLe(b[0], b[j]); }
      if i > 0 { assert LexLe(a[0], a[i]); }
      if i > 0 && j > 0 {
        LexLeAntisymmetric(a[0], b[0]);
      }
      assert a[0] == b[0];
      forall x
        ensures x in a[1..] <==> x in b[1..]
      {
        if x in a[1..] {
          var k :| 1 <= k < |a| && a[k] == x;
          assert x != a[0];
          assert x in b;
          var m :| 0 <= m < |b| && b[m] == x;
          assert m != 0;
        }
        if x in b[1..] {
          var k :| 1 <= k < |b| && b[k] == x;
          assert x != b[0];
          assert x in a;
          var m :| 0 <= m < |a| && a[m] == x;
          assert m != 0;
        }
      }
      SortedDistinctUnique(a[1..], b[1..]);
      assert a == [a[0]] + a[1..] && b == [b[0]] + b[1..];
    }
  }

  /** A duplicate-free list holds each string at most once. */
  lemma {:induction false} AtMostOnce(a: seq<string>, x: string)
    requires NoDuplicates(a)
    ensures multiset(a)[x] <= 1
    decreases |a|
  {
    if |a| > 0 {
      AtMostOnce(a[1..], x);
      assert a == [a[0]] + a[1..];
      if x == a[0] {
        assert x !in a[1..];
      }
    }
  }

  /** A string found at two positions occurs at least twice. */
  lemma TwoPositions(b: seq<string>, i: nat, j: nat)
    requires i < j < |b|
    ensures b[i] == b[j] ==> multiset(b)[b[i]] >= 2
  {
    assert b == b[..j] + b[j..];
    assert b[i] == b[..j][i] && b[j] == b[j..][0];
  }

  /** Reordering keeps a list free of duplicates. */
  lemma PermutationKeepsDistinct(a: seq<string>, b: seq<string>)
    requires NoDuplicates(a) && multiset(a) == multiset(b)
    ensures NoDuplicates(b)
  {
    forall i, j | 0 <= i < j < |b|
      ensures b[i] != b[j]
    {
      AtMostOnce(a, b[i]);
      TwoPositions(b, i, j);
    }
  }

  /** Inserts `x` into a sorted list before the first element it precedes. */
  function Insert(x: string, s: seq<string>): (r: seq<string>)
    requires SortedStrings(s)
    ensures SortedStrings(r)
    ensures multiset(r) == multiset(s) + multiset{x}
    ensures forall y :: y in r ==> y == x || y in s
  {
    if |s| == 0 then [x]
    else if LexLe(x, s[0]) then
      assert forall j :: 0 < j < |s| ==> LexLe(x, s[j]) by {
        forall j | 0 < j < |s| ensures LexLe(x, s[j]) {
          LexLeTransitive(x, s[0], s[j]);
        }
      }
      [x] + s
    else
      LexLeTotal(x, s[0]);
      var t := Insert(x, s[1..]);
      assert s == [s[0]] + s[1..];
      assert forall y :: y in t ==> LexLe(s[0], y);
      [s[0]] + t
  }

  /** Python's `sorted` on strings, as an insertion sort. */
  function Sort(s: seq<string>): (r: seq<string>)
    ensures SortedStrings(r)
    ensures multiset(r) == multiset(s)
  {
    if |s| == 0 then []
    else
      assert s == [s[0]] + s[1..];
      Insert(s[0], Sort(s[1..]))
  }

  /** A leading separator opens a new piece; any other leading character joins the first piece. */
  lemma SplitCons(c: char, t: string, sep: char)
    ensures Split([c] + t, sep) ==
      if c == sep then [""] + Split(t, sep) else [[c] + Split(t, sep)[0]] + Split(t, sep)[1..]
  {
    assert ([c] + t)[0] == c;
    assert ([c] + t)[1..] == t;
  }

  /** Splitting at a separator splits each side separately. */
  lemma {:induction false} SplitAppend(p: string, q: string, sep: char)
    ensures Split(p + [sep] + q, sep) == Split(p, sep) + Split(q, sep)
    decreases |p|
  {
    var x := p + [sep] + q;
    if |p| == 0 {
      assert x[0] == sep && x[1..] == q;
    } else {
      var t := p[1..];
      assert x[0] == p[0] && x[1..] == t + [sep] + q;
      SplitAppend(t, q, sep);
    }
  }

  /** Two pieces without the separator, joined by it, split back into the two. */
  lemma SplitTwo(a: string, b: string, sep: char)
    requires sep !in a && sep !in b
    ensures Split(a + [sep] + b, sep) == [a, b]
  {
    SplitAppend(a, b, sep);
    SplitNoSep(a, sep);
    SplitNoSep(b, sep);
  }

  /** A string without the separator is a single piece. */
  lemma SplitNoSep(s: string, sep: char)
    requires sep !in s
    ensures Split(s, sep) == [s]
  {
    SplitCount(s, sep);
    SplitJoin(s, sep);
  }

}

=== FILE: tiling.dfy ===
/**
  The block decomposition of the output grid: rows of tiles of edge
  `block`, visited as `for y in range(0, H, block): for x in range(0, W, block)`,
  each tile clipped to the grid.
 */
module Tiling {

  /** A window of `w` columns and `h` rows whose top-left pixel is column `x`, row `y`. */
  datatype Tile = Tile(x: nat, y: nat, w: nat, h: nat)

  predicate Covers(t: Tile, c: nat, r: nat) {
    t.x <= c < t.x + t.w && t.y <= r < t.y + t.h
  }

  function Min(a: int, b: int): int {
    if a <= b then a else b
  }

  /** The tiles of the row band starting at row `y`, from column `x` on. */
  function RowTiles(width: nat, height: nat, block: nat, y: nat, x: nat): seq<Tile>
    requires block > 0 && y < height
    decreases width - x
  {
    if x >= width then []
    else [Tile(x, y, Min(block, width - x), Min(block, height - y))] + RowTiles(width, height, block, y, x + block)
  }

  /** The tiles of every row band from row `y` on, in row-major order. */
  function BandTiles(width: nat, height: nat, block: nat, y: nat): seq<Tile>
    requires block > 0
    decreases height - y
  {
    if y >= height then []
    else RowTiles(width, height, block, y, 0) + BandTiles(width, height, block, y + block)
  }

  /** All tiles of a `width` x `height` grid. */
  function Tiles(width: nat, height: nat, block: nat): seq<Tile>
    requires block > 0
  {
    BandTiles(width, height, block, 0)
  }

  /** Number of tiles in `ts` that cover pixel (c, r). */
  function CoverCount(ts: seq<Tile>, c: nat, r: nat): nat {
    if |ts| == 0 then 0
    else (if Covers(ts[0], c, r) then 1 else 0) + CoverCount(ts[1..], c, r)
  }

  predicate Inside(t: Tile, width: nat, height: nat, block: nat) {
    0 < t.w <= block && 0 < t.h <= block && t.x + t.w <= width && t.y + t.h <= height
  }

  lemma {:induction false} CoverCountAppend(a: seq<Tile>, b: seq<Tile>, c: nat, r: nat)
    ensures CoverCount(a + b, c, r) == CoverCount(a, c, r) + CoverCount(b, c, r)
    decreases |a|
  {
    if |a| > 0 {
      CoverCountAppend(a[1..], b, c, r);
      assert (a + b)[1..] == a[1..] + b;
    } else {
      assert a + b == b;
    }
  }

  lemma {:induction false} RowTilesInside(width: nat, height: nat, block: nat, y: nat, x: nat)
    requires block > 0 && y < height
    ensures forall k :: 0 <= k < |RowTiles(width, height, block, y, x)| ==>
      Inside(RowTiles(width, height, block, y, x)[k], width, height, block)
      && RowTiles(width, height, block, y, x)[k].y == y
    decreases width - x
  {
    if x < width {
      RowTilesInside(width, height, block, y, x + block);
    }
  }

  lemma {:induction false} BandTilesInside(width: nat, height: nat, block: nat, y: nat)
    requires block > 0
    ensures forall k :: 0 <= k < |BandTiles(width, height, block, y)| ==>
      Inside(BandTiles(width, height, block, y)[k], width, height, block)
    decreases height - y
  {
    if y < height {
      RowTilesInside(width, height, block, y, 0);
      BandTilesInside(width, height, block, y + block);
    }
  }

  /** Every tile is non-empty, at most `block` on a side, and lies inside the grid. */
  lemma TilesInside(width: nat, height: nat, block: nat)
    requires block > 0
    ensures forall t :: t in Tiles(width, height, block) ==> Inside(t, width, height, block)
  {
    BandTilesInside(width, height, block, 0);
  }

  /** Within its row band, the tiles from column `x` on cover each column from `x` to the grid's edge once. */
  lemma {:induction false} RowCoverCount(width: nat, height: nat, block: nat, y: nat, x: nat, c: nat, r: nat)
    requires block > 0 && y < height
    ensures CoverCount(RowTiles(width, height, block, y, x), c, r)
      == if x <= c < width && y <= r < y + Min(block, height - y) then 1 else 0
    decreases width - x
  {
    if x < width {
      RowCoverCount(width, height, block, y, x + block, c, r);
      var ts := RowTiles(width, height, block, y, x);
      assert ts[1..] == RowTiles(width, height, block, y, x + block);
    }
  }

  lemma {:induction false} BandCoverCount(width: nat, height: nat, block: nat, y: nat, c: nat, r: nat)
    requires block > 0
    ensures CoverCount(BandTiles(width, height, block, y), c, r)
      == if c < width && y <= r < height then 1 else 0
    decreases height - y
  {
    if y < height {
      RowCoverCount(width, height, block, y, 0, c, r);
      BandCoverCount(width, height, block, y + block, c, r);
      CoverCountAppend(RowTiles(width, height, block, y, 0), BandTiles(width, height, block, y + block), c, r);
    }
  }

  /** The tiles partition the grid: each pixel inside it is covered exactly once, no pixel outside it at all. */
  lemma TilesPartitionGrid(width: nat, height: nat, block: nat)
    requires block > 0
    ensures forall c: nat, r: nat ::
      CoverCount(Tiles(width, height, block), c, r) == (if c < width && r < height then 1 else 0)
  {
    forall c: nat, r: nat
      ensures CoverCount(Tiles(width, height, block), c, r) == if c < width && r < height then 1 else 0
    {
      BandCoverCount(width, height, block, 0, c, r);
    }
  }

  /** A pixel covered exactly once has one covering tile, at a unique index. */
  lemma {:induction false} CoveredOnce(ts: seq<Tile>, c: nat, r: nat)
    requires CoverCount(ts, c, r) == 1
    ensures exists k :: 0 <= k < |ts| && Covers(ts[k], c, r)
    ensures forall k1, k2 :: 0 <= k1 < |ts| && 0 <= k2 < |ts| && Covers(ts[k1], c, r) && Covers(ts[k2], c, r) ==> k1 == k2
    decreases |ts|
  {
    if Covers(ts[0], c, r) {
      NotCovered(ts[1..], c, r);
      assert forall k :: 0 < k < |ts| ==> !Covers(ts[k], c, r) by {
        forall k | 0 < k < |ts| ensures !Covers(ts[k], c, r) {
          assert ts[k] == ts[1..][k - 1];
        }
      }
    } else {
      CoveredOnce(ts[1..], c, r);
      var k :| 0 <= k < |ts[1..]| && Covers(ts[1..][k], c, r);
      assert Covers(ts[k + 1], c, r);
      forall k1, k2 | 0 <= k1 < |ts| && 0 <= k2 < |ts| && Covers(ts[k1], c, r) && Covers(ts[k2], c, r)
        ensures k1 == k2
      {
        assert k1 > 0 && k2 > 0;
        assert ts[1..][k1 - 1] == ts[k1] && ts[1..][k2 - 1] == ts[k2];
      }
    }
  }

  lemma {:induction false} NotCovered(ts: seq<Tile>, c: nat, r: nat)
    requires CoverCount(ts, c, r) == 0
    ensures forall k :: 0 <= k < |ts| ==> !Covers(ts[k], c, r)
    decreases |ts|
  {
    if |ts| > 0 {
      NotCovered(ts[1..], c, r);
      assert forall k :: 0 < k < |ts| ==> ts[k] == ts[1..][k - 1];
    }
  }
}
